=== FILE: README.md ===
# Agent sample tools and evaluation metrics, modelled in Dafny

The repository is a collection of agent samples for Google's Agent Development Kit.
Underneath the agent wiring, the samples hold small deterministic functions. This
project models those functions and proves what they promise:

- **Evaluation metrics.** Tool-call and trajectory scores, the keyword score, and the
  portfolio-compliance, diversification and risk-appropriateness checks. Also the
  parsing and averaging of LLM-judge scores.
- **Business-rule tools.** Portfolio recommendation and the regulatory check, refunds,
  credits and invoices, warranty windows, device settings, troubleshooting lookups,
  and A2A extension-header parsing.
- **The shopping-cart state machine.** It is a state transformer on a per-user state
  record. Its invariant is that the cart total equals the sum of price × quantity.
- **The four guardrail callbacks** and the account tools they protect.

One Dafny module models each source file. Two shared modules sit underneath:

- `Common`: `Option`, sums and means over `real`, counting, and clock instants.
- `Text`: the Python string operations the tools use, such as `lower`, `in`, `strip`,
  `split` and zero-padded numbers.

Money, percentages and scores are `real`, so arithmetic is exact. Each operation is a
pure function. A tool that writes session state returns the new state together with
its reply. Random ids, "now" and the artifact store's version number are parameters.
The guardrails' regular expressions are function-typed parameters: a search predicate
and a substitution.

## Model

| member | source | states |
|---|---|---|
| Common.RoundCents | genai-on-google-cloud/chapter-5/02_custom_eval/custom_metrics.py:498 | The result is a whole number of hundredths within half a hundredth of the input. |
| Common.RoundCentsNearest | genai-on-google-cloud/chapter-5/02_custom_eval/custom_metrics.py:498 | The whole hundredth within half a hundredth of a value is its rounding. |
| AgentEvalMetrics.ScoreCall | genai-on-google-cloud/chapter-5/01_agent_eval/run_eval.py:92-123 | Each expected call is paired with the first actual call of the same name. Its kv score never exceeds its key score, and both lie in [0,1]. With no partner the scores are 0/0; with no expected args they are 1/1. Otherwise the key score times the number of expected args is the number of expected keys present, and the kv score times it is the number of pairs matching case-insensitively. The key score is 1 iff every expected key is present, and the kv score is 1 iff every expected value matches. |
| AgentEvalMetrics.ComputeToolMetrics | genai-on-google-cloud/chapter-5/01_agent_eval/run_eval.py:65-130 | Empty expected gives all four metrics 1.0. Non-empty expected with empty actual gives all four 0.0. Every metric lies in [0,1], and kv match ≤ key match. Name match is 1.0 iff every expected name occurs among the actual names. |
| AgentEvalMetrics.ToolFractions | genai-on-google-cloud/chapter-5/01_agent_eval/run_eval.py:81-130 | With calls on both sides, name match times the number of expected calls is the number of expected names, duplicates counted, that occur among the actual names. Key match and kv match are the means of the per-call scores. |
| AgentEvalMetrics.GreedyScanCorrect | genai-on-google-cloud/chapter-5/01_agent_eval/run_eval.py:175-180 | The greedy in-order scan consumes all expected names iff the remaining expected names form a subsequence of the actual names. |
| AgentEvalMetrics.ComputeTrajectoryMetrics | genai-on-google-cloud/chapter-5/01_agent_eval/run_eval.py:150-192 | Gives 1.0 for empty expected and 0.0 for empty actual. Exact match holds iff the name sequences are equal. In-order match holds iff expected is a subsequence of actual. Any-order match holds iff every expected name is called. Precision and recall lie in [0,1]. |
| AgentEvalMetrics.TrajectoryFractions | genai-on-google-cloud/chapter-5/01_agent_eval/run_eval.py:186-192 | With calls on both sides, precision times the number of actual calls is the number of actual names that were expected. Recall times the number of expected calls is the number of expected names that were called. |
| AgentEvalMetrics.TrajectoryMatchOrdering | genai-on-google-cloud/chapter-5/01_agent_eval/run_eval.py:171-184 | exact ≤ in-order ≤ any-order, for all inputs. |
| AgentEvalMetrics.AnyOrderIffFullRecall | genai-on-google-cloud/chapter-5/01_agent_eval/run_eval.py:182-192 | The any-order match is 1.0 exactly when recall is 1.0. |
| AgentEvalMetrics.RecallIsNameMatch | genai-on-google-cloud/chapter-5/01_agent_eval/run_eval.py:85-86 | Trajectory recall equals the tool name-match metric on the same inputs. |
| AgentEvalMetrics.KeywordMatchScore | genai-on-google-cloud/chapter-5/01_agent_eval/run_eval.py:271-276 | The score is 1.0 with no keywords and always lies in [0,1]. Otherwise the score times the number of keywords is the number of keywords, duplicates counted, that occur case-insensitively in the response. It is 1.0 iff every keyword occurs, and 0.0 iff there are keywords and none occurs. |
| PortfolioMetrics.ClassifyPosition | genai-on-google-cloud/chapter-5/02_custom_eval/custom_metrics.py:282-293 | A holding above 25% is over the limit, and one in (20,25] is only near it. The three classes are exclusive, so one holding never yields both a violation and a warning. |
| PortfolioMetrics.Violations | genai-on-google-cloud/chapter-5/02_custom_eval/custom_metrics.py:268-306 | The number of violations is: 1 if the risk exceeds the tolerance (defaults 0 and 7), plus one per holding over 25%, plus 1 if the disclosure is missing or false, plus, for a "conservative" profile only, one per holding whose symbol is ARKK, MEME or SPAC. The risk and disclosure violations appear iff their condition holds. |
| PortfolioMetrics.ViolationsMembers | genai-on-google-cloud/chapter-5/02_custom_eval/custom_metrics.py:280-306 | Each holding over 25% has its concentration violation, naming its symbol ("Unknown" if absent) and percentage, and every concentration violation comes from such a holding. For a conservative client each ARKK, MEME or SPAC holding has its unsuitability violation, and every such violation comes from one. |
| PortfolioMetrics.Warnings | genai-on-google-cloud/chapter-5/02_custom_eval/custom_metrics.py:280-313 | The number of warnings is one per holding in (20,25], plus 1 if the total is more than 0.1 away from 100. The allocation warning appears iff that holds. |
| PortfolioMetrics.WarningsMembers | genai-on-google-cloud/chapter-5/02_custom_eval/custom_metrics.py:280-313 | Each holding in (20,25] has its near-limit warning, and every near-limit warning comes from such a holding. |
| PortfolioMetrics.EvaluatePortfolioCompliance | genai-on-google-cloud/chapter-5/02_custom_eval/custom_metrics.py:316-328 | `compliant` holds iff there are no violations. The score is 0.0 with violations, 0.75 with warnings only, and 1.0 otherwise; each case is stated both ways. |
| PortfolioMetrics.CompliantIffWithinLimits | genai-on-google-cloud/chapter-5/02_custom_eval/custom_metrics.py:268-326 | A recommendation is compliant iff its risk is within tolerance, it includes the disclosure, every holding is at most 25%, and, for a conservative client, no holding is ARKK, MEME or SPAC. |
| PortfolioMetrics.AssetClasses | genai-on-google-cloud/chapter-5/02_custom_eval/custom_metrics.py:353-362 | The classes are exactly those of the holdings (asset class, else symbol, else "Unknown"). There are at most as many classes as holdings, and at least one when there are holdings. |
| PortfolioMetrics.ConcentrationScoreAsWritten | genai-on-google-cloud/chapter-5/02_custom_eval/custom_metrics.py:371 | The formula exceeds 1 exactly when the largest position is below 25%, and is 0 exactly at or above 100%. |
| PortfolioMetrics.EvaluateDiversificationAsWritten | genai-on-google-cloud/chapter-5/02_custom_eval/custom_metrics.py:344-374 | Empty holdings give the no-holdings result. Otherwise it counts the distinct asset classes and the holdings. The class component is min(classes/4, 1) and the holdings component is min(n/5, 1). The concentration component is the uncapped formula on the largest position. The score is the mean of the three. |
| PortfolioMetrics.EvaluateDiversification | genai-on-google-cloud/chapter-5/02_custom_eval/custom_metrics.py:344-374 | Corrected: the same class count, class component min(classes/4, 1), holdings component min(n/5, 1) and mean of three, but the concentration component is capped at 1. So the score lies in [0,1], and it is 1 iff there are at least 4 classes, at least 5 holdings and no position above 25%. |
| PortfolioMetrics.DiversificationVariantsAgree | genai-on-google-cloud/chapter-5/02_custom_eval/custom_metrics.py:370-374 | The two versions agree whenever the largest position is at least 25%. |
| PortfolioMetrics.AsWrittenScoreAboveOne | genai-on-google-cloud/chapter-5/02_custom_eval/custom_metrics.py:362-374 | With at least 5 holdings, at least 4 classes and no position reaching 25%, the score as written, before rounding, exceeds 1.0. The corrected score is exactly 1.0. |
| PortfolioMetrics.DiversificationAsWrittenExceedsOne | genai-on-google-cloud/chapter-5/02_custom_eval/custom_metrics.py:344-374 | Five holdings of 20% in five classes score above 1.0 as written and 1.0 when corrected. |
| PortfolioMetrics.RiskRange | genai-on-google-cloud/chapter-5/02_custom_eval/custom_metrics.py:407-421 | For every profile (an unknown one gives 1..10) and every timeline, 1 ≤ min ≤ max ≤ 10. A timeline under 5 caps max at 5. A timeline over 20 lowers min by one, not below 1. |
| PortfolioMetrics.EvaluateRiskAppropriateness | genai-on-google-cloud/chapter-5/02_custom_eval/custom_metrics.py:424-434 | Exactly one status holds, each stated both ways: inside the range gives 1.0, below gives 0.75, above gives max(0, 1 − 0.25·overage). The score always lies in [0,1]. |
| PortfolioMetrics.AggressiveScoreDecreases | genai-on-google-cloud/chapter-5/02_custom_eval/custom_metrics.py:430-434 | Above the range, a higher risk never scores better. |
| PortfolioMetrics.ParseRating | genai-on-google-cloud/chapter-5/02_custom_eval/custom_metrics.py:141-145 | The parsed score is always one of 1.0, 0.75, 0.5, 0.25, 0.0. It is the first rating text in that order found in the first 20 characters; 0.5 if none is found. |
| PortfolioMetrics.AggregateScore | genai-on-google-cloud/chapter-5/02_custom_eval/custom_metrics.py:494-495 | With some score present, the aggregate times the number of present scores is their sum. It is 0 when every score is absent. It lies in [0,1] when the present scores do, and in [0,10/9] when they lie in [0,10/9]. |
| PortfolioMetrics.AggregateIsOneIff | genai-on-google-cloud/chapter-5/02_custom_eval/custom_metrics.py:494-495 | For scores in [0,1], the aggregate is 1 iff some score is present and every present score is 1. |
| PortfolioMetrics.MetricScores | genai-on-google-cloud/chapter-5/02_custom_eval/custom_metrics.py:476-493 | The judge scores come first, and nothing follows them unless both the recommendation and the client context exist. Then there are three more scores, less one if holdings are absent and one if the risk score is absent. |
| PortfolioMetrics.ComputedScoresPresent | genai-on-google-cloud/chapter-5/02_custom_eval/custom_metrics.py:481-493 | Every score after the two judge scores is present. |
| PortfolioMetrics.MetricScoresWithin | genai-on-google-cloud/chapter-5/02_custom_eval/custom_metrics.py:476-493 | When the judge scores lie in [0,1], every collected score lies in [0,1] with the capped diversification score and in [0,10/9] with the score as written. |
| PortfolioMetrics.ComputedScores | genai-on-google-cloud/chapter-5/02_custom_eval/custom_metrics.py:476-491 | There is one compliance score, plus one if holdings are given and one if a risk score is given. Every score is present and lies in [0,1], or in [0,10/9] with the diversification score as written. |
| PortfolioMetrics.ComputedScoresContents | genai-on-google-cloud/chapter-5/02_custom_eval/custom_metrics.py:476-491 | The compliance score comes first. With holdings, the diversification score comes second. With a risk score, the last score is the risk-appropriateness score, using the client's profile and timeline or the defaults "moderate" and 10 years. |
| PortfolioMetrics.MetricScoresContents | genai-on-google-cloud/chapter-5/02_custom_eval/custom_metrics.py:476-491 | With a recommendation and a client, the scores after the two judge scores are compliance, then diversification when holdings are given, then, last, risk appropriateness with the "moderate" and 10-year defaults when a risk score is given. |
| PortfolioMetrics.FullEvaluationScore | genai-on-google-cloud/chapter-5/02_custom_eval/custom_metrics.py:476-495 | The aggregate as written, with the uncapped diversification score. Without a recommendation or client it is the mean of the present judge scores (0 if none). It lies in [0,10/9] when the judge scores lie in [0,1]. |
| PortfolioMetrics.JudgesOnly | genai-on-google-cloud/chapter-5/02_custom_eval/custom_metrics.py:476-495 | The aggregate of the two judge scores alone is their mean, the one present score, or 0. |
| PortfolioMetrics.FullEvaluationScoreCapped | genai-on-google-cloud/chapter-5/02_custom_eval/custom_metrics.py:476-495 | The aggregate with the capped diversification score. It is the judges' mean without a recommendation or client, and lies in [0,1] when the judge scores do. |
| PortfolioMetrics.ScoresWithHoldings | genai-on-google-cloud/chapter-5/02_custom_eval/custom_metrics.py:476-494 | With holdings and no risk score, the collected scores are the two judge scores, the compliance score and the diversification score, in that order. |
| PortfolioMetrics.FiveEqualHoldingsCompliant | genai-on-google-cloud/chapter-5/02_custom_eval/custom_metrics.py:268-321 | Five 20% holdings, fully disclosed, with no risk score and a client giving only defaults, score 1.0 for compliance. |
| PortfolioMetrics.CompliantSpreadExceedsOne | genai-on-google-cloud/chapter-5/02_custom_eval/custom_metrics.py:370-374 | With full judge marks, a fully compliant recommendation with holdings and no risk score, whose uncapped diversification score exceeds 1, gets an aggregate above 1 as written before rounding, and exactly 1 once capped. |
| PortfolioMetrics.FullEvaluationExceedsOne | genai-on-google-cloud/chapter-5/02_custom_eval/custom_metrics.py:370-374 | Five 20% holdings in five classes, fully disclosed, with full judge marks, give an aggregate above 1 as written before rounding, and exactly 1 once capped. After rounding both are 1.0. |
| PortfolioMetrics.EqualHoldings | genai-on-google-cloud/chapter-5/02_custom_eval/custom_metrics.py:309 | Holdings that all carry one positive percentage have that percentage as their largest position and total their number times it. |
| PortfolioMetrics.EvenSplitCompliant | genai-on-google-cloud/chapter-5/02_custom_eval/custom_metrics.py:268-321 | A fully disclosed recommendation without a risk score, split evenly into positions of at most 20% totalling 100, scores 1.0 for compliance for a client that is not conservative and tolerates risk 0. |
| PortfolioMetrics.FourScoresMean | genai-on-google-cloud/chapter-5/02_custom_eval/custom_metrics.py:494-495 | The aggregate of four present scores times 4 is their sum. |
| PortfolioMetrics.TenWaySpreadScores | genai-on-google-cloud/chapter-5/02_custom_eval/custom_metrics.py:370-378 | Ten 10% holdings in ten classes score 16/15 as written and 1 once capped, and are fully compliant. |
| PortfolioMetrics.RoundedSpreadExceedsOne | genai-on-google-cloud/chapter-5/02_custom_eval/custom_metrics.py:494-498 | With full judge marks and full compliance, an uncapped diversification score of 16/15 rounds to 1.07 and the aggregate rounds to 1.02, while the capped aggregate rounds to 1.0. |
| PortfolioMetrics.RoundedEvaluationExceedsOne | genai-on-google-cloud/chapter-5/02_custom_eval/custom_metrics.py:476-498 | For ten 10% holdings, fully disclosed, with full judge marks, the aggregate the program reports after both of its roundings is 1.02, and 1.0 once capped. |
| FinancialAdvisor.GetPortfolioAllocation | genai-on-google-cloud/chapter-5/02_custom_eval/agent.py:41-74 | Only CLIENT-001 and CLIENT-002 are found. Each stored portfolio's percentages total 100 and its values add up to the stated total. |
| FinancialAdvisor.AnalyzeInvestment | genai-on-google-cloud/chapter-5/02_custom_eval/agent.py:87-139 | A symbol is found iff its upper-cased form is listed. Then the analysis is the listed entry for that key, and the projections are 4%, 7% and 12% of the amount. They are ordered 4% ≤ 7% ≤ 12% (reversed for a negative amount). |
| FinancialAdvisor.AnalyzeInvestmentCaseInsensitive | genai-on-google-cloud/chapter-5/02_custom_eval/agent.py:126 | Symbols that upper-case alike give identical analyses. |
| FinancialAdvisor.AnalyzeInvestmentAdditive | genai-on-google-cloud/chapter-5/02_custom_eval/agent.py:128-132 | Each projection for a sum of two amounts is the sum of the projections for each amount. |
| FinancialAdvisor.StrategyFor | genai-on-google-cloud/chapter-5/02_custom_eval/agent.py:166-201 | A timeline over 20 gives "Growth-focused" at risk 7, over 10 gives "Balanced Growth" at risk 5, and otherwise "Capital Preservation" at risk 3. There are four allocations and they total 100. |
| FinancialAdvisor.GenerateRecommendation | genai-on-google-cloud/chapter-5/02_custom_eval/agent.py:158-218 | An unknown client gets no recommendation. A known client gets the strategy for the timeline, with its profile, `disclosure_included` set and the four disclosures. |
| FinancialAdvisor.RiskGrowsWithTimeline | genai-on-google-cloud/chapter-5/02_custom_eval/agent.py:166-201 | A longer timeline never gets a lower risk score. |
| FinancialAdvisor.CheckRegulatoryCompliance | genai-on-google-cloud/chapter-5/02_custom_eval/agent.py:222-252 | `compliant` holds iff there are no issues. A missing disclosure is an issue iff the flag is missing or false. A risk over 8 is an issue iff it holds. The check completes iff every allocation entry over 25 has an asset class; otherwise it is the KeyError outcome. |
| FinancialAdvisor.ConcentrationIssuesMembers | genai-on-google-cloud/chapter-5/02_custom_eval/agent.py:239-242 | The concentration issues are exactly the warnings, each naming its asset class and percentage, for the entries over 25. |
| FinancialAdvisor.CheckedIssues | genai-on-google-cloud/chapter-5/02_custom_eval/agent.py:231-252 | The number of issues is 1 for a missing disclosure, plus one per entry over 25, plus 1 for a risk over 8. Each entry over 25 has its warning among the issues, and every concentration warning comes from such an entry. |
| FinancialAdvisor.CompliantIffWithinRules | genai-on-google-cloud/chapter-5/02_custom_eval/agent.py:231-252 | A checked recommendation is compliant iff its disclosures are included, no entry is over 25 and its risk is at most 8. |
| FinancialAdvisor.StrategyConcentration | genai-on-google-cloud/chapter-5/02_custom_eval/agent.py:166-198 | For each timeline band, the concentration check lists exactly the strategy's allocations above 25%, in order: US stocks 50 (over 20 years); US stocks 40 and bonds 30 (over 10); bonds 50 (otherwise). |
| FinancialAdvisor.GeneratedRecommendationsAreFlagged | genai-on-google-cloud/chapter-5/02_custom_eval/agent.py:171-249 | Every generated recommendation fails the regulatory check, with exactly the over-25 allocations of its strategy as issues. |
| ShoppingCart.BrowseProducts | genai-on-google-cloud/chapter-3/04_stateful_agent/agent.py:70-90 | No category or an empty one lists the whole catalogue. Otherwise it lists exactly the products whose category equals the request, both lower-cased. The browse counter goes up by one. |
| ShoppingCart.BrowseIgnoresCase | genai-on-google-cloud/chapter-3/04_stateful_agent/agent.py:76-79 | Two non-empty categories equal up to letter case list the same products. |
| ShoppingCart.AddToCart | genai-on-google-cloud/chapter-3/04_stateful_agent/agent.py:105-134 | An unknown product fails and leaves the state unchanged. Otherwise exactly one item is appended, the total is recomputed from all items, and nothing else but the last action changes. |
| ShoppingCart.AddToCartTotal | genai-on-google-cloud/chapter-3/04_stateful_agent/agent.py:111-125 | On a consistent state the total grows by price × quantity, and total = Σ price × quantity is preserved. |
| ShoppingCart.ViewCart | genai-on-google-cloud/chapter-3/04_stateful_agent/agent.py:146-157 | Reports an empty cart iff there are no items. Otherwise reports the items, their count and the total. |
| ShoppingCart.RemoveFromCart | genai-on-google-cloud/chapter-3/04_stateful_agent/agent.py:172-193 | Fails and leaves the state unchanged iff no item has that product. Otherwise every line for another product is kept as many times as it occurred, no line for the product is kept, and the total is recomputed from the kept lines. |
| ShoppingCart.WithoutProductCounts | genai-on-google-cloud/chapter-3/04_stateful_agent/agent.py:177 | Each line not for the product keeps its multiplicity; each line for it drops to none. |
| ShoppingCart.WithoutProductAppend | genai-on-google-cloud/chapter-3/04_stateful_agent/agent.py:177 | Dropping a product's lines distributes over concatenation, so the kept lines stay in order. |
| ShoppingCart.ClearCart | genai-on-google-cloud/chapter-3/04_stateful_agent/agent.py:321-324 | The cart becomes empty with total 0, and the invariant is kept. |
| ShoppingCart.OrderNumber | genai-on-google-cloud/chapter-3/04_stateful_agent/agent.py:346 | "ORD-" followed by at least five digits that read back as the count. |
| ShoppingCart.OrderNumberInjective | genai-on-google-cloud/chapter-3/04_stateful_agent/agent.py:346 | Different counts give different order numbers. |
| ShoppingCart.Checkout | genai-on-google-cloud/chapter-3/04_stateful_agent/agent.py:338-366 | An empty cart fails with the state unchanged. Otherwise the order count rises by one, the last order holds the pre-checkout items and total, the cart is emptied, and the last action names the order. The saved cart, its flag and date, the browse count, the validation status and the expiry setting are unchanged. |
| ShoppingCart.SuccessiveOrdersDiffer | genai-on-google-cloud/chapter-3/04_stateful_agent/agent.py:339-348 | A later checkout never reuses an earlier order number. |
| ShoppingCart.SaveCartForLater | genai-on-google-cloud/chapter-3/04_stateful_agent/agent.py:211-234 | A missing or empty cart fails and only marks validation failed. Otherwise the time-stamped cart becomes both the cart and the saved cart, with `cart_saved`, the date and a successful validation set. The order count, last order, browse count, last action and expiry setting are unchanged. |
| ShoppingCart.CheckCartExpiry | genai-on-google-cloud/chapter-3/04_stateful_agent/agent.py:249-280 | No saved cart is reported as such. A stamped cart is expired iff its whole-day age exceeds the limit (default 30); otherwise days remaining = limit − age ≥ 0, with the saved cart's item count and total. An unstamped cart is reported valid with its items. |
| ShoppingCart.SavedCartLifetime | genai-on-google-cloud/chapter-3/04_stateful_agent/agent.py:255-278 | A cart saved now is valid, with the full period left, and stays valid until the period plus one day has passed. |
| ShoppingCart.RestoreSavedCart | genai-on-google-cloud/chapter-3/04_stateful_agent/agent.py:292-307 | Fails, with nothing changed, iff no cart is saved. Otherwise the saved cart becomes the cart. |
| ShoppingCart.SaveClearRestore | genai-on-google-cloud/chapter-3/04_stateful_agent/agent.py:211-324 | Save, then clear, then restore gives back the items and total that were saved. |
| Guardrails.Screen | genai-on-google-cloud/chapter-3/08_guardrails_agent/agent.py:107-139 | Text over 2000 characters is refused for length. Otherwise it is refused iff a blocked pattern matches the lower-cased text, and passes through otherwise. |
| Guardrails.BeforeModelAsWritten | genai-on-google-cloud/chapter-3/08_guardrails_agent/agent.py:95-105 | Passes through with no contents or no parts. Raises exactly when the last message has a part without text. |
| Guardrails.BeforeModel | genai-on-google-cloud/chapter-3/08_guardrails_agent/agent.py:95-139 | Corrected: never raises. It screens the concatenated text of the last message's parts. |
| Guardrails.LengthCheckFirst | genai-on-google-cloud/chapter-3/08_guardrails_agent/agent.py:107-117 | Over-long input is refused whatever the blocked patterns are. |
| Guardrails.BeforeModelVersionsAgree | genai-on-google-cloud/chapter-3/08_guardrails_agent/agent.py:102-105 | When every part has text, the two versions agree. |
| Guardrails.FunctionResponseMakesCallbackRaise | genai-on-google-cloud/chapter-3/08_guardrails_agent/agent.py:102-105 | A message whose only part carries a function response makes the callback as written raise. The corrected one screens "". |
| Guardrails.RedactParts | genai-on-google-cloud/chapter-3/08_guardrails_agent/agent.py:163-177 | Parts without text stay unchanged. Each text part is replaced by its chained redaction. The changed flag holds iff some redaction changed some text. |
| Guardrails.AfterModel | genai-on-google-cloud/chapter-3/08_guardrails_agent/agent.py:157-182 | A response without content or parts is returned as is. With parts, the response becomes the same content with the redacted parts when some text changed, and is returned as is otherwise. The role is kept. |
| Guardrails.AfterModelIdentity | genai-on-google-cloud/chapter-3/08_guardrails_agent/agent.py:157-182 | When no substitution changes any text, the response is returned unchanged. |
| Guardrails.BeforeTool | genai-on-google-cloud/chapter-3/08_guardrails_agent/agent.py:205-219 | Blocks iff the tool is `process_refund` and the amount (0 when missing) exceeds 500. |
| Guardrails.BeforeToolMonotone | genai-on-google-cloud/chapter-3/08_guardrails_agent/agent.py:210-217 | A refund the callback stops stays stopped, with the same message, for any larger amount. |
| Guardrails.AfterToolAsWritten | genai-on-google-cloud/chapter-3/08_guardrails_agent/agent.py:245-251 | Same keys as the input; non-strings are unchanged. Each string becomes the last pattern's substitution applied to the original value. |
| Guardrails.AfterTool | genai-on-google-cloud/chapter-3/08_guardrails_agent/agent.py:245-251 | Corrected: each string becomes the chained application of every redaction rule. |
| Guardrails.SsnSurvivesAfterToolAsWritten | genai-on-google-cloud/chapter-3/08_guardrails_agent/agent.py:245-251 | An SSN in a tool result comes through the callback as written unredacted, and is redacted by the chained version. |
| Guardrails.UpdateAccount | genai-on-google-cloud/chapter-3/08_guardrails_agent/agent.py:374-391 | Succeeds iff the lower-cased field is allowed. It stores under the lower-cased key, changes no other key, and leaves the account untouched on failure. |
| Guardrails.UpdateAccountIgnoresCase | genai-on-google-cloud/chapter-3/08_guardrails_agent/agent.py:376-386 | Fields that lower-case alike update the account identically. |
| Guardrails.UpdateAccountIdempotent | genai-on-google-cloud/chapter-3/08_guardrails_agent/agent.py:374-391 | Repeating an update gives the same account and reply as doing it once. |
| Guardrails.DeleteAccountData | genai-on-google-cloud/chapter-3/08_guardrails_agent/agent.py:480-493 | Without confirmation, only "confirmation required" is returned; with it, the deletion is stamped with the time. |
| Guardrails.UnconfirmedDeleteIgnoresClock | genai-on-google-cloud/chapter-3/08_guardrails_agent/agent.py:480-485 | An unconfirmed deletion gets the same confirmation request whatever the time. |
| Troubleshooting.LookupTroubleshootingSteps | genai-on-google-cloud/chapter-4/03_loop_agent/agent.py:46-80 | Looks up the lower-cased (product, category) pair. An unknown pair gets the generic list. There are always five steps. |
| Troubleshooting.LookupIgnoresCase | genai-on-google-cloud/chapter-4/03_loop_agent/agent.py:69-79 | Inputs that lower-case alike give the same steps. |
| Troubleshooting.MatchingIssues | genai-on-google-cloud/chapter-4/03_loop_agent/agent.py:108-115 | Keeps exactly the issues with a symptom keyword in the lower-cased symptoms. The count equals the number of applicable issues. |
| Troubleshooting.CheckKnownIssues | genai-on-google-cloud/chapter-4/03_loop_agent/agent.py:93-117 | Reports exactly the applicable known issues; `found` is their count. When both apply they come in table order. |
| Troubleshooting.KnownIssuesIgnoreCase | genai-on-google-cloud/chapter-4/03_loop_agent/agent.py:108-110 | Symptoms that lower-case alike find the same issues. |
| Troubleshooting.AnalyzeTestResults | genai-on-google-cloud/chapter-4/03_loop_agent/agent.py:156-174 | The flags are resolved ⇔ "resolved", partial ⇔ "partial", escalation ⇔ "need_help", and continue ⇔ still_broken or partial. At most one of the first three holds. Resolved or escalation rules out continuing. An unrecognised result leaves the recommendation empty. |
| Troubleshooting.CheckResolution | genai-on-google-cloud/chapter-4/03_loop_agent/agent.py:191-207 | Resolved iff a resolution keyword occurs in the lower-cased status, which sets escalate. Otherwise escalate is kept. |
| Troubleshooting.EscalateAfter | genai-on-google-cloud/chapter-4/03_loop_agent/agent.py:191-207 | After a run of checks, escalate is set iff it was set before or some status reported a resolution. |
| Troubleshooting.EscalateAfterConcat | genai-on-google-cloud/chapter-4/03_loop_agent/agent.py:191-197 | Checking one run of statuses and then another leaves the same `escalate` flag as checking both as one run. |
| Troubleshooting.GetNextTroubleshootingLevel | genai-on-google-cloud/chapter-4/03_loop_agent/agent.py:220-234 | next = min(current + 1, 5). The maximum is reached iff next is 5. The level info falls back to level 5 when next is below 1. |
| Troubleshooting.LadderReachesTop | genai-on-google-cloud/chapter-4/03_loop_agent/agent.py:228-232 | Enough escalation steps always reach level 5. |
| ProductionBilling.CheckExtensionActivated | genai-on-google-cloud/chapter-4/08_production_agent/agent.py:295-296 | Active iff the stripped URI equals some stripped comma-separated entry of the header; a missing header reads as "". |
| ProductionBilling.NoHeaderActivatesOnlyBlank | genai-on-google-cloud/chapter-4/08_production_agent/agent.py:295-296 | Without the header, only a blank or all-space URI is reported active. |
| ProductionBilling.JoinedHeaderActivates | genai-on-google-cloud/chapter-4/08_production_agent/agent.py:295-296 | A header written as comma-joined entries activates exactly the URIs equal to one of them up to surrounding space. |
| ProductionBilling.VersionedAgentCardUrl | genai-on-google-cloud/chapter-4/08_production_agent/agent.py:361-363 | The URL is the base, then "/v", then the text before the first dot, then the agent-card path. |
| ProductionBilling.SameUrlIffSameMajor | genai-on-google-cloud/chapter-4/08_production_agent/agent.py:361-363 | Two versions map to the same URL iff their major parts agree. |
| ProductionBilling.QueryBillingHistory | genai-on-google-cloud/chapter-4/08_production_agent/agent.py:120-141 | With disputes, it returns every invoice. Without them, it keeps exactly the undisputed invoices, in their original order: INV-2024-001, then INV-2024-002. The total is the sum of the invoices returned. The dropped amount is exactly the disputed total. |
| ProductionBilling.UndisputedAppend | genai-on-google-cloud/chapter-4/08_production_agent/agent.py:126-127 | Filtering out the disputed invoices distributes over concatenation, so the kept invoices stay in their original order. |
| ProductionBilling.TotalSplitsByDispute | genai-on-google-cloud/chapter-4/08_production_agent/agent.py:126-140 | The total of all invoices is the undisputed total plus the disputed total. |
| ProductionBilling.ProcessRefund | genai-on-google-cloud/chapter-4/08_production_agent/agent.py:167-182 | Always processed, for 89.99, with the given invoice, reason and id. `processed_at` and the audit timestamp are separate clock readings, and the audit trail names the given approver. |
| ProductionBilling.RefundAmountFixed | genai-on-google-cloud/chapter-4/08_production_agent/agent.py:169-174 | The full refund amount depends on neither the reason, the approver nor the clock. |
| ProductionBilling.ProcessPartialRefund | genai-on-google-cloud/chapter-4/08_production_agent/agent.py:218-231 | The refund times 100 is 89.99 × pct. It stays within the invoice for pct in 0..100 and exceeds it above 100, since the percentage is not checked. |
| ProductionBilling.PartialRefundMonotone | genai-on-google-cloud/chapter-4/08_production_agent/agent.py:218-219 | A larger percentage never refunds less. |
| ProductionBilling.FullPartialIsFullRefund | genai-on-google-cloud/chapter-4/08_production_agent/agent.py:218-219 | A partial refund of 100% returns the 89.99 that the full refund returns. |
| Returns.CheckReturnEligibility | genai-on-google-cloud/chapter-3/03_multi_agent/agent.py:118-131 | Every order is eligible, with a 30-day window, whatever the reason. |
| Returns.EligibleOrdersAreQuoted | genai-on-google-cloud/chapter-3/03_multi_agent/agent.py:118-159 | Every order is eligible whatever the reason. Its refund quote is for the same order, and the amount is positive and no larger than what was paid. |
| Returns.OriginalAmount | genai-on-google-cloud/chapter-3/03_multi_agent/agent.py:146-151 | The two known orders have their listed totals; any other order is 100.00. |
| Returns.CalculateRefundAmount | genai-on-google-cloud/chapter-3/03_multi_agent/agent.py:151-159 | The fee is 0 iff the lower-cased reason is defective, wrong_item or not_as_described. Otherwise the fee is 15% of the original. Refund + fee = original in every case. |
| Returns.RefundIgnoresCase | genai-on-google-cloud/chapter-3/03_multi_agent/agent.py:154 | Upper-casing the reason does not change the quote. |
| Returns.SpacedReasonIsCharged | genai-on-google-cloud/chapter-3/03_multi_agent/agent.py:119-159 | "wrong item" normalises to a listed reason in the eligibility check, yet it is charged the restocking fee. |
| BillingService.QueryBillingHistory | genai-on-google-cloud/chapter-4/05_a2a_server/agent.py:77-93 | Only CUST-001 gets the flagged overage invoice, and `anomalies_found` counts the anomalies. The total is the sum over all invoices returned: 3 × 89.99, plus 47.00 for CUST-001. |
| BillingService.CalculateRefundAmount | genai-on-google-cloud/chapter-4/05_a2a_server/agent.py:114-130 | refund × 100 = original × pct, and an unknown invoice refunds 0. Approval is needed iff the unrounded refund exceeds 50. |
| BillingService.ApprovalNeedsLargeRefund | genai-on-google-cloud/chapter-4/05_a2a_server/agent.py:113-129 | For pct in 0..100, approval is needed iff the invoice is a subscription invoice and 89.99 × pct > 5000. |
| BillingService.CheckPaymentStatus | genai-on-google-cloud/chapter-4/05_a2a_server/agent.py:143-153 | Unknown invoices are "not_found"; known ones get their stored status. |
| BillingService.PaymentsMatchRefundable | genai-on-google-cloud/chapter-4/05_a2a_server/agent.py:113-153 | An invoice has a payment on record iff the refund tool knows a non-zero amount for it. |
| BillingService.ProcessCredit | genai-on-google-cloud/chapter-4/05_a2a_server/agent.py:173-182 | Approved iff the amount is at most 100; otherwise pending approval. |
| BillingService.CreditApprovalMonotone | genai-on-google-cloud/chapter-4/05_a2a_server/agent.py:178 | If a credit is approved, any smaller credit is approved too. |
| BillingService.GenerateInvoice | genai-on-google-cloud/chapter-4/05_a2a_server/agent.py:201-211 | Subtotal = Σ item amounts, where a missing amount counts 0. Empty items become one placeholder with subtotal 0. Tax is 8%, and total = subtotal + tax. |
| BillingService.InvoiceLineAdds | genai-on-google-cloud/chapter-4/05_a2a_server/agent.py:201 | Adding a line raises the subtotal by exactly that line's amount. |
| SupportDesk.ParseDate | genai-on-google-cloud/chapter-4/04_mcp_agent/agent.py:72-75 | A date is parsed iff it has the YYYY-MM-DD shape and names a real calendar day in years 1-9999. |
| SupportDesk.ParseFormatRoundTrip | genai-on-google-cloud/chapter-4/04_mcp_agent/agent.py:72-87 | Every representable date survives formatting and parsing. |
| SupportDesk.CheckWarrantyStatus | genai-on-google-cloud/chapter-4/04_mcp_agent/agent.py:72-90 | A date that does not parse gives only the format error. A purchase whose end would pass 9999-12-31 gives a range error (Python's OverflowError). Any other date yields the warranty computed from that parsed date. |
| SupportDesk.WarrantyFrom | genai-on-google-cloud/chapter-4/04_mcp_agent/agent.py:78-90 | The end is the purchase day plus 730 days. The warranty is valid iff now is before the end. When valid, days remaining is the number of whole days to the end; otherwise it is 0. The coverage text follows validity. |
| SupportDesk.WarrantyRunsDown | genai-on-google-cloud/chapter-4/04_mcp_agent/agent.py:78-89 | As time passes, a warranty can only lapse, and the days remaining never grow. |
| SupportDesk.PurchaseDayHasFullWarranty | genai-on-google-cloud/chapter-4/04_mcp_agent/agent.py:78-89 | At the purchase midnight, the warranty is valid with all 730 days left. |
| SupportDesk.FreshWarrantyIsFull | genai-on-google-cloud/chapter-4/04_mcp_agent/agent.py:78-89 | The warranty computed from a parsed purchase date, at midnight of that day, is valid with all 730 days remaining. |
| SupportDesk.CreateSupportTicket | genai-on-google-cloud/chapter-4/04_mcp_agent/agent.py:113-122 | Always open. A "24 hours" response iff priority is exactly "low" or "medium"; otherwise "4 hours". |
| SupportDesk.ResponseDependsOnPriorityOnly | genai-on-google-cloud/chapter-4/04_mcp_agent/agent.py:122 | The promised response time depends on the priority alone. |
| SupportDesk.CapitalisedPriorityIsUrgent | genai-on-google-cloud/chapter-4/04_mcp_agent/agent.py:121 | "Low" is answered within 4 hours; the default "medium" within 24. |
| DamageReports.AssessWarranty | genai-on-google-cloud/chapter-3/06_multimodal_agent/agent.py:130-153 | Not covered iff an exclusion term occurs. Covered iff no exclusion and some covered term occurs. Pending iff neither occurs. Matching is on the lower-cased description. |
| DamageReports.ExclusionWins | genai-on-google-cloud/chapter-3/06_multimodal_agent/agent.py:138-140 | A description naming both a drop and a defect is not covered. |
| DamageReports.AssessmentIgnoresCase | genai-on-google-cloud/chapter-3/06_multimodal_agent/agent.py:133 | Upper-casing the description does not change the coverage. |
| DamageReports.AnalyzeProductDamage | genai-on-google-cloud/chapter-3/06_multimodal_agent/agent.py:55-110 | Exactly one entry is appended to the report list, with the case number, file name and version; earlier entries are kept. |
| DamageReports.ListUserDocuments | genai-on-google-cloud/chapter-3/06_multimodal_agent/agent.py:170-185 | No reports gives the empty answer; otherwise all reports and their count. |
| DamageReports.ListAfterSave | genai-on-google-cloud/chapter-3/06_multimodal_agent/agent.py:95-102 | After a save the listing holds every earlier report, in order, and then the new one. |
| DamageReports.RetrieveDamageReport | genai-on-google-cloud/chapter-3/06_multimodal_agent/agent.py:201-221 | Without a context it reports that. Otherwise it finds nothing iff no report has the case number, and a found report is the first with that number, with its file, date and version (0 if none was recorded). |
| DamageReports.RetrieveAfterSave | genai-on-google-cloud/chapter-3/06_multimodal_agent/agent.py:95-219 | A report saved under a fresh case number is retrieved with the file name, date and version it was saved with. |
| DamageReports.SaveKeepsEarlierReports | genai-on-google-cloud/chapter-3/06_multimodal_agent/agent.py:95-219 | Saving another report never changes what an existing case number retrieves. |
| DamageReports.GetProductVisualGuide | genai-on-google-cloud/chapter-3/06_multimodal_agent/agent.py:262-274 | General tips are returned iff no guide key occurs in the lower-cased name. Otherwise a matching guide is returned, and the doorbell guide wins when its key occurs. |
| DamageReports.GuideIgnoresCase | genai-on-google-cloud/chapter-3/06_multimodal_agent/agent.py:262 | Upper-casing the product name does not change whether a specific guide is found. |
| DeviceSupport.CheckDeviceStatus | genai-on-google-cloud/chapter-5/01_agent_eval/agent.py:77-80 | Found iff the lower-cased type is known, and then that device is returned. |
| DeviceSupport.SetDeviceSetting | genai-on-google-cloud/chapter-5/01_agent_eval/agent.py:98-119 | Succeeds iff the setting is listed for the lower-cased type. Success echoes the type, setting and value. Failure lists the valid settings. |
| DeviceSupport.UnknownDeviceRejectsEverything | genai-on-google-cloud/chapter-5/01_agent_eval/agent.py:105-111 | An unknown type rejects every setting and lists none. |
| DeviceSupport.SettingNameIsCaseSensitive | genai-on-google-cloud/chapter-5/01_agent_eval/agent.py:105-106 | "THERMOSTAT"/"mode" is accepted but "thermostat"/"Mode" is not. |
| DeviceSupport.StatusAndSettingsCoverSameDevices | genai-on-google-cloud/chapter-5/01_agent_eval/agent.py:42-104 | A type has a status iff it has settings. |
| DeviceSupport.TroubleshootDevice | genai-on-google-cloud/chapter-5/01_agent_eval/agent.py:205-223 | No guide iff no issue key of the lower-cased type occurs in the lower-cased description; an unknown type never has one. A found guide is the first, in guide order, whose key occurs. |
| DeviceSupport.TroubleshootIgnoresDeviceCase | genai-on-google-cloud/chapter-5/01_agent_eval/agent.py:205 | Device types equal up to letter case either both find a guide or both do not, and a found guide has the same steps. |
| DeviceSupport.UnderscoredKeysNeedExactWording | genai-on-google-cloud/chapter-5/01_agent_eval/agent.py:166-213 | "Not cooling" finds no thermostat guide, while "Not_Cooling" does. |

## Left out

- Agent, runner and session wiring, the MCP servers, and A2A serving. These are SDK behaviour.
- The LLM-judge calls and the Vertex metric construction. Only the score parsing and averaging are modelled.
- Printing, logging and the trace-context helpers of the production agent.
- `resolve_dispute` and `prompt_user_for_feedback`.
- The guardrails sample's own tools other than `update_account` and `delete_account_data`, and `get_device_history`. These are canned lookups outside the modelled core.
- Random ids, `datetime.now()` and the artifact store: each appears as a parameter. An `Instant` counts microseconds on one time line.
- `round(x, 2)` and floating point. Money, percentages and scores are exact reals. So these amounts are unrounded: Returns.CalculateRefundAmount, BillingService.CalculateRefundAmount, BillingService.GenerateInvoice (tax and total) and ProductionBilling.ProcessPartialRefund. So are the diversification score of EvaluateDiversification and EvaluateDiversificationAsWritten (custom_metrics.py:378), the risk-appropriateness score of EvaluateRiskAppropriateness (custom_metrics.py:438), and the aggregate of FullEvaluationScore (custom_metrics.py:498). Common.RoundCents rounds an exact real half up and is used only to show that the aggregate's excess survives both roundings. Python's `round` works on the binary float and breaks exact ties to even; the two agree away from half-hundredths.
- Regular expressions: the blocked-input search and the redaction substitution are parameters. Their patterns are kept as data.
- `str.lower`, `str.upper` and `str.strip` act on ASCII letters and ASCII/Unicode-space characters only. There is no full Unicode case mapping.
- Calls without a tool context: `update_account` then succeeds without storing anything. Only `retrieve_damage_report` models that path. The cart tools always have a state.
- The cart aliasing: `save_cart_for_later` stores the same dict object as the live cart. The model copies by value, so later edits to the cart do not reach the saved cart.
- The artifact JSON written by `analyze_product_damage_with_report`, and its fixed assessment text. Only the report-list entry is modelled.
- A tool result that is not a dict: `after_tool_callback` calls `tool_result.get('success', 'N/A')` (chapter-3/08_guardrails_agent/agent.py:242) before its `isinstance` check, so such a result raises AttributeError. The model takes tool results to be maps and does not model that error.
- PortfolioMetrics.MetricScores: an empty recommendation or client dict is falsy in the source and counts as missing. The model treats only an absent one as missing.
- SupportDesk.ParseDate: accepts only the fully zero-padded `YYYY-MM-DD`. `strptime` also accepts a one-digit month or day, and a space-padded day.
- SupportDesk.CheckWarrantyStatus: reports the end date as a day number, not as the formatted `warranty_end_date` string.
- SupportDesk.WarrantyFrom: likewise reports the end as a day number rather than the `warranty_end_date` string. `now` is a parameter standing for `datetime.now()`.
- Troubleshooting.LadderReachesTop: assumes at least one step is taken.
- DeviceSupport.Device: keeps only `device_id`, `type` and `status`. The canned readings of each device, such as `current_temp`, `target_temp`, `mode`, `recording`, `motion_detected`, `power`, `brightness`, `color`, `last_ring` and `battery` (chapter-5/01_agent_eval/agent.py:42-75), are left out because no rule reads them.
- ProductionBilling.ProcessRefund: the refund id, `processed_at` and the audit timestamp are three separate clock readings (chapter-4/08_production_agent/agent.py:167, 175, 180). The model takes the id and the two instants as independent parameters, so it promises no order between them.

## Findings

| source | as written | input that shows it | evidently intended | confidence | as-written member | corrected member |
|---|---|---|---|---|---|---|
| genai-on-google-cloud/chapter-3/08_guardrails_agent/agent.py:245-251 | Every redaction rule is applied to the original `value`, and each overwrites the previous result. Only the last rule, the e-mail pattern, takes effect, so SSNs and card numbers in tool results are never redacted. | A tool result `{"ssn": "123-45-6789"}` comes back unchanged. | Apply the rules in a chain, as `after_model_callback` does. | medium, not executed | Guardrails.AfterToolAsWritten, Guardrails.SsnSurvivesAfterToolAsWritten | Guardrails.AfterTool |
| genai-on-google-cloud/chapter-5/02_custom_eval/custom_metrics.py:370-374 | `concentration_score = max(0, 1 - (max_position - 25) / 75)` is not capped at 1. | Five holdings of 20% in five asset classes give a diversification score of 1.02 after rounding. Ten 10% holdings in ten classes give 1.07, and with full judge marks and full compliance the aggregate score of `run_full_evaluation` is 1.02 after its own rounding. | A score in [0,1], like the other two components, so that the aggregate stays in [0,1]. | high, not executed | PortfolioMetrics.EvaluateDiversificationAsWritten, PortfolioMetrics.DiversificationAsWrittenExceedsOne, PortfolioMetrics.FullEvaluationScore, PortfolioMetrics.FullEvaluationExceedsOne, PortfolioMetrics.RoundedEvaluationExceedsOne | PortfolioMetrics.EvaluateDiversification, PortfolioMetrics.FullEvaluationScoreCapped |
| genai-on-google-cloud/chapter-3/08_guardrails_agent/agent.py:102-105 | `hasattr(part, 'text')` is always true for the SDK's part type, so `user_text += part.text` meets `None` on a part without text. | A last message whose only part is a function response. | Skip parts whose text is empty or `None`, as `after_model_callback` does. | low, not executed | Guardrails.BeforeModelAsWritten, Guardrails.FunctionResponseMakesCallbackRaise | Guardrails.BeforeModel |

=== FILE: agent_eval_metrics.dfy ===
/** Tool-usage and trajectory metrics of the programmatic agent evaluation
    (chapter-5/01_agent_eval/run_eval.py): how well the tool calls an agent made
    match the expected calls of a test case, and how many expected keywords the
    final response contains. */
module AgentEvalMetrics {
  import opened Common
  import opened Text

  /** A call's arguments; each value is kept as its `str()` rendering, which is
      all the comparison looks at. */
  type Args = map<string, string>

  /** An entry of `expected_tool_calls`: `tool_name` is mandatory and `args`
      defaults to `{}`. */
  datatype ExpectedCall = ExpectedCall(toolName: string, args: Args)

  /** A recorded call: a dictionary that may carry `tool_name`, `name` and `args`. */
  datatype ActualCall = ActualCall(toolName: Option<string>, name: Option<string>, args: Option<Args>)

  /** `c.get("tool_name", c.get("name", ""))` */
  function ActualName(c: ActualCall): string {
    c.toolName.GetOr(c.name.GetOr(""))
  }

  /** A call recorded as `{}` is falsy in Python. */
  predicate IsEmptyRecord(c: ActualCall) {
    c.toolName.None? && c.name.None? && c.args.None?
  }

  function ExpectedNames(calls: seq<ExpectedCall>): seq<string> {
    seq(|calls|, i requires 0 <= i < |calls| => calls[i].toolName)
  }

  function ActualNames(calls: seq<ActualCall>): seq<string> {
    seq(|calls|, i requires 0 <= i < |calls| => ActualName(calls[i]))
  }

  /** Number of elements of `xs`, duplicates counted, that occur anywhere in `ys`. */
  function CountPresent(xs: seq<string>, ys: seq<string>): nat {
    Count(xs, x => x in ys)
  }

  predicate InUnit(x: real) {
    0.0 <= x <= 1.0
  }

  // ---------------------------------------------------------------------------
  // Tool metrics
  // ---------------------------------------------------------------------------

  /** Index of the first actual call named `name` (the `for ... break` search). */
  function FirstByName(actual: seq<ActualCall>, name: string): (r: Option<nat>)
    ensures r.Some? ==> r.value < |actual| && ActualName(actual[r.value]) == name
    ensures r.Some? ==> forall j :: 0 <= j < r.value ==> ActualName(actual[j]) != name
    ensures r.None? ==> forall j :: 0 <= j < |actual| ==> ActualName(actual[j]) != name
  {
    if |actual| == 0 then None
    else if ActualName(actual[0]) == name then Some(0)
    else match FirstByName(actual[1..], name)
      case None => None
      case Some(i) => Some(i + 1)
  }

  /** The arguments of the call an expected call is paired with: the first
      actual call of the same name, provided that record is not empty (an empty
      dict is falsy and counts as no match). */
  function PairedArgs(e: ExpectedCall, actual: seq<ActualCall>): Option<Args> {
    match FirstByName(actual, e.toolName)
    case None => None
    case Some(i) => if IsEmptyRecord(actual[i]) then None else Some(actual[i].args.GetOr(map[]))
  }

  /** Expected keys the actual arguments also have. */
  function PresentKeys(expected: Args, actual: Args): set<string> {
    set k | k in expected && k in actual
  }

  /** Expected keys whose actual value matches after `str(...).lower()`. */
  function MatchingPairs(expected: Args, actual: Args): set<string> {
    set k | k in expected && k in actual && Lower(actual[k]) == Lower(expected[k])
  }

  /** Every expected key is present in the actual arguments. */
  predicate AllKeysPresent(expected: Args, actual: Args) {
    forall k :: k in expected ==> k in actual
  }

  /** Every expected key is present with a case-insensitively equal value. */
  predicate AllPairsMatch(expected: Args, actual: Args) {
    forall k :: k in expected ==> k in actual && Lower(actual[k]) == Lower(expected[k])
  }

  lemma ArgScoreFacts(expected: Args, actual: Args)
    requires |expected| > 0
    ensures 0.0 <= Ratio(|MatchingPairs(expected, actual)|, |expected|)
                <= Ratio(|PresentKeys(expected, actual)|, |expected|) <= 1.0
    ensures Ratio(|PresentKeys(expected, actual)|, |expected|) == 1.0 <==> AllKeysPresent(expected, actual)
    ensures Ratio(|MatchingPairs(expected, actual)|, |expected|) == 1.0 <==> AllPairsMatch(expected, actual)
  {
    var keys := PresentKeys(expected, actual);
    var pairs := MatchingPairs(expected, actual);
    SubsetCardinality(keys, expected.Keys);
    SubsetCardinality(pairs, keys);
    RatioFacts(|keys|, |expected|);
    RatioFacts(|pairs|, |expected|);
    RatioMonotone(|pairs|, |keys|, |expected|);
    if AllKeysPresent(expected, actual) {
      assert keys == expected.Keys;
    }
    if AllPairsMatch(expected, actual) {
      assert pairs == expected.Keys;
    }
  }

  /** Key score and key-value score of one expected call. */
  datatype ParamScore = ParamScore(key: real, kv: real)

  /** The parameter scores of one expected call: 0 when it has no partner,
      1 when it expects no arguments, otherwise the share of expected keys
      present and the share of expected key/value pairs matched. */
  function ScoreCall(e: ExpectedCall, actual: seq<ActualCall>): (s: ParamScore)
    ensures 0.0 <= s.kv <= s.key <= 1.0
    ensures PairedArgs(e, actual).None? ==> s == ParamScore(0.0, 0.0)
    ensures PairedArgs(e, actual).Some? && |e.args| == 0 ==> s == ParamScore(1.0, 1.0)
    ensures s.key == 1.0 <==> PairedArgs(e, actual).Some? && AllKeysPresent(e.args, PairedArgs(e, actual).value)
    ensures s.kv == 1.0 <==> PairedArgs(e, actual).Some? && AllPairsMatch(e.args, PairedArgs(e, actual).value)
    ensures PairedArgs(e, actual).Some? && |e.args| > 0 ==>
      && s.key * (|e.args| as real) == |PresentKeys(e.args, PairedArgs(e, actual).value)| as real
      && s.kv * (|e.args| as real) == |MatchingPairs(e.args, PairedArgs(e, actual).value)| as real
  {
    match PairedArgs(e, actual)
    case None => ParamScore(0.0, 0.0)
    case Some(act) =>
      if |e.args| == 0 then ParamScore(1.0, 1.0)
      else
        ArgScoreFacts(e.args, act);
        RatioTimesTotal(|PresentKeys(e.args, act)|, |e.args|);
        RatioTimesTotal(|MatchingPairs(e.args, act)|, |e.args|);
        ParamScore(Ratio(|PresentKeys(e.args, act)|, |e.args|), Ratio(|MatchingPairs(e.args, act)|, |e.args|))
  }

  /** The four tool-usage metrics. */
  datatype ToolMetrics = ToolMetrics(callValid: real, nameMatch: real, keyMatch: real, kvMatch: real)

  function KeyScores(expected: seq<ExpectedCall>, actual: seq<ActualCall>): seq<real> {
    seq(|expected|, i requires 0 <= i < |expected| => ScoreCall(expected[i], actual).key)
  }

  function KvScores(expected: seq<ExpectedCall>, actual: seq<ActualCall>): seq<real> {
    seq(|expected|, i requires 0 <= i < |expected| => ScoreCall(expected[i], actual).kv)
  }

  /** Every expected tool name occurs among the actual names. */
  predicate AllNamesCalled(expected: seq<ExpectedCall>, actual: seq<ActualCall>) {
    forall i :: 0 <= i < |expected| ==> expected[i].toolName in ActualNames(actual)
  }

  lemma NameShareFacts(expected: seq<ExpectedCall>, actual: seq<ActualCall>)
    requires |expected| > 0
    ensures InUnit(Ratio(CountPresent(ExpectedNames(expected), ActualNames(actual)), |expected|))
    ensures Ratio(CountPresent(ExpectedNames(expected), ActualNames(actual)), |expected|) == 1.0
            <==> AllNamesCalled(expected, actual)
  {
    var e := ExpectedNames(expected);
    var a := ActualNames(actual);
    CountAllIff(e, x => x in a);
    RatioFacts(CountPresent(e, a), |expected|);
    NamesOf(expected, actual);
  }

  lemma ParamMeanFacts(expected: seq<ExpectedCall>, actual: seq<ActualCall>)
    ensures InUnit(Mean(KeyScores(expected, actual))) && InUnit(Mean(KvScores(expected, actual)))
    ensures Mean(KvScores(expected, actual)) <= Mean(KeyScores(expected, actual))
  {
    var keys := KeyScores(expected, actual);
    var kvs := KvScores(expected, actual);
    MeanBounds(keys, 0.0, 1.0);
    MeanBounds(kvs, 0.0, 1.0);
    MeanMonotone(kvs, keys);
  }

  /** `compute_tool_metrics` */
  function ComputeToolMetrics(expected: seq<ExpectedCall>, actual: seq<ActualCall>): (m: ToolMetrics)
    ensures |expected| == 0 ==> m == ToolMetrics(1.0, 1.0, 1.0, 1.0)
    ensures |expected| > 0 && |actual| == 0 ==> m == ToolMetrics(0.0, 0.0, 0.0, 0.0)
    ensures InUnit(m.callValid) && InUnit(m.nameMatch) && InUnit(m.keyMatch) && InUnit(m.kvMatch)
    ensures m.kvMatch <= m.keyMatch
    ensures |actual| > 0 ==> m.callValid == 1.0
    ensures |actual| > 0 ==> (m.nameMatch == 1.0 <==> AllNamesCalled(expected, actual))
  {
    if |expected| == 0 then ToolMetrics(1.0, 1.0, 1.0, 1.0)
    else if |actual| == 0 then ToolMetrics(0.0, 0.0, 0.0, 0.0)
    else
      NameShareFacts(expected, actual);
      ParamMeanFacts(expected, actual);
      ToolMetrics(
        1.0,
        Ratio(CountPresent(ExpectedNames(expected), ActualNames(actual)), |expected|),
        Mean(KeyScores(expected, actual)),
        Mean(KvScores(expected, actual)))
  }

  /** Name match is the share of expected names that were called; key and
      key/value match are the means of the per-call scores. */
  lemma ToolFractions(expected: seq<ExpectedCall>, actual: seq<ActualCall>)
    requires |expected| > 0 && |actual| > 0
    ensures ComputeToolMetrics(expected, actual).nameMatch * (|expected| as real)
            == CountPresent(ExpectedNames(expected), ActualNames(actual)) as real
    ensures ComputeToolMetrics(expected, actual).keyMatch == Mean(KeyScores(expected, actual))
    ensures ComputeToolMetrics(expected, actual).kvMatch == Mean(KvScores(expected, actual))
  {
    RatioTimesTotal(CountPresent(ExpectedNames(expected), ActualNames(actual)), |expected|);
  }

  // ---------------------------------------------------------------------------
  // Trajectory metrics
  // ---------------------------------------------------------------------------

  /** `idx` places each element of `e` at a strictly later position of `a`. */
  ghost predicate Embedding(e: seq<string>, a: seq<string>, idx: seq<int>) {
    && |idx| == |e|
    && (forall k :: 0 <= k < |idx| ==> 0 <= idx[k] < |a| && a[idx[k]] == e[k])
    && (forall k, l :: 0 <= k < l < |idx| ==> idx[k] < idx[l])
  }

  /** `e` is a (not necessarily contiguous) subsequence of `a`. */
  ghost predicate IsSubsequence(e: seq<string>, a: seq<string>) {
    exists idx :: Embedding(e, a, idx)
  }

  /** The in-order scan: walk the actual names, advancing through the expected
      names whenever the current one is met. Returns how far it advanced. */
  function GreedyScan(e: seq<string>, a: seq<string>, matched: nat): (r: nat)
    requires matched <= |e|
    ensures matched <= r <= |e|
  {
    if |a| == 0 then matched
    else GreedyScan(e, a[1..], if matched < |e| && a[0] == e[matched] then matched + 1 else matched)
  }

  function Shift(idx: seq<int>, d: int): (r: seq<int>)
    ensures |r| == |idx| && forall k :: 0 <= k < |idx| ==> r[k] == idx[k] + d
  {
    seq(|idx|, k requires 0 <= k < |idx| => idx[k] + d)
  }

  /** A head that matches can be taken: `e[m..]` embeds in `a` iff `e[m+1..]` embeds in `a[1..]`. */
  lemma SubsequenceTake(e: seq<string>, a: seq<string>, m: nat)
    requires m < |e| && |a| > 0 && a[0] == e[m]
    ensures IsSubsequence(e[m..], a) <==> IsSubsequence(e[m + 1..], a[1..])
  {
    if IsSubsequence(e[m..], a) {
      TakeDrop(e, a, m);
    }
    if IsSubsequence(e[m + 1..], a[1..]) {
      TakePrepend(e, a, m);
    }
  }

  lemma TakeDrop(e: seq<string>, a: seq<string>, m: nat)
    requires m < |e| && |a| > 0 && IsSubsequence(e[m..], a)
    ensures IsSubsequence(e[m + 1..], a[1..])
  {
    var idx :| Embedding(e[m..], a, idx);
    var idx' := Shift(idx[1..], -1);
    forall k | 0 <= k < |idx'|
      ensures 0 <= idx'[k] < |a[1..]| && a[1..][idx'[k]] == e[m + 1..][k]
    {
      assert idx[0] < idx[k + 1];
    }
    assert Embedding(e[m + 1..], a[1..], idx');
  }

  lemma TakePrepend(e: seq<string>, a: seq<string>, m: nat)
    requires m < |e| && |a| > 0 && a[0] == e[m] && IsSubsequence(e[m + 1..], a[1..])
    ensures IsSubsequence(e[m..], a)
  {
    var idx :| Embedding(e[m + 1..], a[1..], idx);
    var idx' := [0] + Shift(idx, 1);
    forall k | 0 <= k < |idx'|
      ensures 0 <= idx'[k] < |a| && a[idx'[k]] == e[m..][k]
    {
      if k > 0 {
        assert idx'[k] == idx[k - 1] + 1;
        assert a[idx'[k]] == a[1..][idx[k - 1]];
      }
    }
    assert Embedding(e[m..], a, idx');
  }

  /** A head that does not match (or nothing left to match) can be skipped. */
  lemma SubsequenceSkip(e: seq<string>, a: seq<string>, m: nat)
    requires m <= |e| && |a| > 0 && (m == |e| || a[0] != e[m])
    ensures IsSubsequence(e[m..], a) <==> IsSubsequence(e[m..], a[1..])
  {
    if IsSubsequence(e[m..], a) {
      var idx :| Embedding(e[m..], a, idx);
      var idx' := Shift(idx, -1);
      forall k | 0 <= k < |idx'|
        ensures 0 <= idx'[k] < |a[1..]| && a[1..][idx'[k]] == e[m..][k]
      {
        if k > 0 {
          assert idx[0] < idx[k];
        } else {
          assert a[idx[0]] == e[m];
        }
      }
      assert Embedding(e[m..], a[1..], idx');
    }
    if IsSubsequence(e[m..], a[1..]) {
      var idx :| Embedding(e[m..], a[1..], idx);
      var idx' := Shift(idx, 1);
      forall k | 0 <= k < |idx'|
        ensures 0 <= idx'[k] < |a| && a[idx'[k]] == e[m..][k]
      {
        assert a[idx'[k]] == a[1..][idx[k]];
      }
      assert Embedding(e[m..], a, idx');
    }
  }

  /** Nothing non-empty embeds into an empty sequence. */
  lemma NoEmbeddingIntoEmpty(e: seq<string>, a: seq<string>)
    requires |e| > 0 && |a| == 0
    ensures !IsSubsequence(e, a)
  {
    forall idx
      ensures !Embedding(e, a, idx)
    {
      if |idx| > 0 {
        assert !(0 <= idx[0] < |a|);
      }
    }
  }

  /** The greedy scan is complete for subsequences: starting with `matched`
      expected names consumed, it consumes the rest iff they form a subsequence. */
  lemma {:induction false} GreedyScanCorrect(e: seq<string>, a: seq<string>, matched: nat)
    requires matched <= |e|
    ensures GreedyScan(e, a, matched) == |e| <==> IsSubsequence(e[matched..], a)
    decreases |a|
  {
    if |a| == 0 {
      if matched == |e| {
        assert Embedding(e[matched..], a, []);
      } else {
        NoEmbeddingIntoEmpty(e[matched..], a);
      }
    } else if matched < |e| && a[0] == e[matched] {
      GreedyScanCorrect(e, a[1..], matched + 1);
      SubsequenceTake(e, a, matched);
    } else {
      GreedyScanCorrect(e, a[1..], matched);
      SubsequenceSkip(e, a, matched);
    }
  }

  /** The five trajectory metrics. */
  datatype TrajectoryMetrics = TrajectoryMetrics(
    exactMatch: real, inOrderMatch: real, anyOrderMatch: real, precision: real, recall: real)

  function Indicator(b: bool): (r: real)
    ensures r in {0.0, 1.0} && (r == 1.0 <==> b)
  {
    if b then 1.0 else 0.0
  }

  /** Every name of `e` occurs in `a` (`all(name in a for name in e)`). */
  predicate AllIn(e: seq<string>, a: seq<string>) {
    forall i :: 0 <= i < |e| ==> e[i] in a
  }

  lemma TrajectoryFacts(e: seq<string>, a: seq<string>)
    requires |e| > 0 && |a| > 0
    ensures GreedyScan(e, a, 0) == |e| <==> IsSubsequence(e, a)
    ensures InUnit(Ratio(CountPresent(a, e), |a|)) && InUnit(Ratio(CountPresent(e, a), |e|))
  {
    GreedyScanCorrect(e, a, 0);
    assert e[0..] == e;
    RatioFacts(CountPresent(a, e), |a|);
    RatioFacts(CountPresent(e, a), |e|);
  }

  lemma NamesOf(expected: seq<ExpectedCall>, actual: seq<ActualCall>)
    ensures AllIn(ExpectedNames(expected), ActualNames(actual)) <==> AllNamesCalled(expected, actual)
  {
    var e := ExpectedNames(expected);
    assert forall i :: 0 <= i < |expected| ==> e[i] == expected[i].toolName;
  }

  /** `compute_trajectory_metrics` */
  function ComputeTrajectoryMetrics(expected: seq<ExpectedCall>, actual: seq<ActualCall>): (m: TrajectoryMetrics)
    ensures |expected| == 0 ==> m == TrajectoryMetrics(1.0, 1.0, 1.0, 1.0, 1.0)
    ensures |expected| > 0 && |actual| == 0 ==> m == TrajectoryMetrics(0.0, 0.0, 0.0, 0.0, 0.0)
    ensures m.exactMatch in {0.0, 1.0} && m.inOrderMatch in {0.0, 1.0} && m.anyOrderMatch in {0.0, 1.0}
    ensures InUnit(m.precision) && InUnit(m.recall)
    ensures m.exactMatch == 1.0 <==> |expected| == 0 || ExpectedNames(expected) == ActualNames(actual)
    ensures m.inOrderMatch == 1.0 <==> IsSubsequence(ExpectedNames(expected), ActualNames(actual))
    ensures m.anyOrderMatch == 1.0 <==> AllNamesCalled(expected, actual)
  {
    var e := ExpectedNames(expected);
    var a := ActualNames(actual);
    NamesOf(expected, actual);
    if |expected| == 0 then
      assert Embedding(e, a, []);
      TrajectoryMetrics(1.0, 1.0, 1.0, 1.0, 1.0)
    else if |actual| == 0 then
      NoEmbeddingIntoEmpty(e, a);
      assert !(e[0] in a);
      TrajectoryMetrics(0.0, 0.0, 0.0, 0.0, 0.0)
    else
      TrajectoryFacts(e, a);
      TrajectoryMetrics(
        Indicator(e == a),
        Indicator(GreedyScan(e, a, 0) == |e|),
        Indicator(AllIn(e, a)),
        Ratio(CountPresent(a, e), |a|),
        Ratio(CountPresent(e, a), |e|))
  }

  /** Precision is the share of actual calls whose name was expected; recall the
      share of expected names that were called. */
  lemma TrajectoryFractions(expected: seq<ExpectedCall>, actual: seq<ActualCall>)
    requires |expected| > 0 && |actual| > 0
    ensures ComputeTrajectoryMetrics(expected, actual).precision * (|actual| as real)
            == CountPresent(ActualNames(actual), ExpectedNames(expected)) as real
    ensures ComputeTrajectoryMetrics(expected, actual).recall * (|expected| as real)
            == CountPresent(ExpectedNames(expected), ActualNames(actual)) as real
  {
    RatioTimesTotal(CountPresent(ActualNames(actual), ExpectedNames(expected)), |actual|);
    RatioTimesTotal(CountPresent(ExpectedNames(expected), ActualNames(actual)), |expected|);
  }

  /** Equal name sequences are a subsequence of each other (the identity embedding). */
  lemma EqualIsSubsequence(e: seq<string>)
    ensures IsSubsequence(e, e)
  {
    var idx := seq(|e|, k requires 0 <= k < |e| => k);
    assert Embedding(e, e, idx);
  }

  /** Every element of a subsequence occurs in the sequence. */
  lemma SubsequenceElements(e: seq<string>, a: seq<string>)
    requires IsSubsequence(e, a)
    ensures forall i :: 0 <= i < |e| ==> e[i] in a
  {
    var idx :| Embedding(e, a, idx);
    forall i | 0 <= i < |e|
      ensures e[i] in a
    {
      assert a[idx[i]] == e[i];
    }
  }

  /** The three match metrics are ordered: exact => in order => any order. */
  lemma TrajectoryMatchOrdering(expected: seq<ExpectedCall>, actual: seq<ActualCall>)
    ensures ComputeTrajectoryMetrics(expected, actual).exactMatch
            <= ComputeTrajectoryMetrics(expected, actual).inOrderMatch
            <= ComputeTrajectoryMetrics(expected, actual).anyOrderMatch
  {
    var m := ComputeTrajectoryMetrics(expected, actual);
    var e := ExpectedNames(expected);
    var a := ActualNames(actual);
    if m.exactMatch == 1.0 && |expected| > 0 {
      EqualIsSubsequence(e);
    }
    if m.inOrderMatch == 1.0 {
      SubsequenceElements(e, a);
      NamesOf(expected, actual);
    }
  }

  /** Any-order match is 1.0 exactly when recall is 1.0. */
  lemma AnyOrderIffFullRecall(expected: seq<ExpectedCall>, actual: seq<ActualCall>)
    ensures ComputeTrajectoryMetrics(expected, actual).anyOrderMatch == 1.0
            <==> ComputeTrajectoryMetrics(expected, actual).recall == 1.0
  {
    var e := ExpectedNames(expected);
    var a := ActualNames(actual);
    NamesOf(expected, actual);
    if |expected| > 0 && |actual| > 0 {
      CountAllIff(e, x => x in a);
      RatioFacts(CountPresent(e, a), |e|);
    }
  }

  /** Trajectory recall and tool name match are the same number. */
  lemma RecallIsNameMatch(expected: seq<ExpectedCall>, actual: seq<ActualCall>)
    ensures ComputeTrajectoryMetrics(expected, actual).recall
            == ComputeToolMetrics(expected, actual).nameMatch
  {
  }

  // ---------------------------------------------------------------------------
  // Response keyword score
  // ---------------------------------------------------------------------------

  /** `keyword.lower() in agent_response.lower()` */
  predicate MentionsKeyword(response: string, keyword: string) {
    Contains(Lower(response), Lower(keyword))
  }

  /** How many of the keywords the response mentions, duplicates counted. */
  function MentionedCount(keywords: seq<string>, response: string): (n: nat)
    ensures n <= |keywords|
  {
    Count(keywords, kw => MentionsKeyword(response, kw))
  }

  /** The count reaches the number of keywords exactly when all are mentioned, and
      is 0 exactly when none is. */
  lemma MentionedCountFacts(keywords: seq<string>, response: string)
    ensures MentionedCount(keywords, response) == |keywords|
            <==> forall k :: 0 <= k < |keywords| ==> MentionsKeyword(response, keywords[k])
    ensures MentionedCount(keywords, response) == 0
            <==> forall k :: 0 <= k < |keywords| ==> !MentionsKeyword(response, keywords[k])
  {
    var mentioned := kw => MentionsKeyword(response, kw);
    CountAllIff(keywords, mentioned);
    CountNoneIff(keywords, mentioned);
    assert forall k :: 0 <= k < |keywords| ==> mentioned(keywords[k]) == MentionsKeyword(response, keywords[k]);
  }

  /** The share of expected keywords the response contains, ignoring case;
      1.0 when no keyword is expected. */
  function KeywordMatchScore(keywords: seq<string>, response: string): (score: real)
    ensures |keywords| == 0 ==> score == 1.0
    ensures InUnit(score)
    ensures |keywords| > 0 ==> score * (|keywords| as real) == MentionedCount(keywords, response) as real
    ensures score == 1.0 <==> forall k :: 0 <= k < |keywords| ==> MentionsKeyword(response, keywords[k])
    ensures score == 0.0 <==> |keywords| > 0 && forall k :: 0 <= k < |keywords| ==> !MentionsKeyword(response, keywords[k])
  {
    if |keywords| == 0 then 1.0
    else
      var hits := MentionedCount(keywords, response);
      MentionedCountFacts(keywords, response);
      RatioFacts(hits, |keywords|);
      RatioTimesTotal(hits, |keywords|);
      Ratio(hits, |keywords|)
  }
}

=== FILE: billing_service.dfy ===
/** The billing tools served over A2A (chapter-4/05_a2a_server/agent.py). Random ids
    and the clock are parameters. */
module BillingService {
  import opened Common

  // ---------------------------------------------------------------------------
  // Billing history
  // ---------------------------------------------------------------------------

  datatype BillItem = BillItem(invoiceId: string, date: string, amount: real, description: string, flagged: bool)

  const Subscription: string := "Monthly Smart Home Subscription"

  const RegularInvoices: seq<BillItem> := [
    BillItem("INV-2024-001", "2024-12-01", 89.99, Subscription, false),
    BillItem("INV-2024-002", "2024-11-01", 89.99, Subscription, false),
    BillItem("INV-2024-003", "2024-10-01", 89.99, Subscription, false)]

  const OverageCharge: BillItem := BillItem("INV-2024-SPECIAL", "2024-11-15", 47.00, "Energy overage charge", true)

  /** The anomalies found for a customer: only CUST-001 has one. */
  function Anomalies(customerId: string): (a: seq<BillItem>)
    ensures customerId == "CUST-001" ==> a == [OverageCharge]
    ensures customerId != "CUST-001" ==> a == []
  {
    if customerId == "CUST-001" then [OverageCharge] else []
  }

  function Amounts(items: seq<BillItem>): (xs: seq<real>)
    ensures |xs| == |items|
    ensures forall k :: 0 <= k < |items| ==> xs[k] == items[k].amount
  {
    seq(|items|, k requires 0 <= k < |items| => items[k].amount)
  }

  datatype History = History(customerId: string, monthsRetrieved: int, invoices: seq<BillItem>,
                             totalBilled: real, anomaliesFound: nat)

  /** `query_billing_history`: the three regular invoices, then the anomalies; the
      total covers both. */
  function QueryBillingHistory(customerId: string, months: int): (h: History)
    ensures h.customerId == customerId && h.monthsRetrieved == months
    ensures |h.invoices| >= 3 && h.invoices[..3] == RegularInvoices
    ensures h.anomaliesFound == |h.invoices| - 3
    ensures h.anomaliesFound == (if customerId == "CUST-001" then 1 else 0)
    ensures forall k :: 3 <= k < |h.invoices| ==> h.invoices[k].flagged
    ensures h.totalBilled == Sum(Amounts(h.invoices))
    ensures h.totalBilled == 3.0 * 89.99 + (if customerId == "CUST-001" then 47.00 else 0.0)
  {
    var anomalies := Anomalies(customerId);
    var all := RegularInvoices + anomalies;
    assert all[..3] == RegularInvoices;
    RegularTotal();
    SumAppend(Amounts(RegularInvoices), Amounts(anomalies));
    assert Amounts(all) == Amounts(RegularInvoices) + Amounts(anomalies);
    assert Sum(Amounts(anomalies)) == if customerId == "CUST-001" then 47.00 else 0.0 by {
      if customerId == "CUST-001" {
        assert Amounts(anomalies) == [47.00];
        assert Amounts(anomalies)[..0] == [];
      } else {
        assert Amounts(anomalies) == [];
      }
    }
    History(customerId, months, all, Sum(Amounts(all)), |anomalies|)
  }

  lemma RegularTotal()
    ensures Sum(Amounts(RegularInvoices)) == 3.0 * 89.99
  {
    var xs := Amounts(RegularInvoices);
    assert xs[..2][..1] == xs[..1] && xs[..1][..0] == [];
    assert xs[..3][..2] == xs[..2];
    assert xs[..3] == xs;
    assert Sum(xs[..1]) == 89.99;
    assert Sum(xs[..2]) == 2.0 * 89.99;
  }

  // ---------------------------------------------------------------------------
  // Refund calculation
  // ---------------------------------------------------------------------------

  /** The invoice amounts known to the refund tool (0 for an unknown invoice). */
  function InvoiceAmount(invoiceId: string): (amount: real)
    ensures amount >= 0.0
    ensures amount > 0.0 <==> invoiceId in {"INV-2024-001", "INV-2024-002", "INV-2024-003", "INV-2024-SPECIAL"}
  {
    if invoiceId in {"INV-2024-001", "INV-2024-002", "INV-2024-003"} then 89.99
    else if invoiceId == "INV-2024-SPECIAL" then 47.00
    else 0.0
  }

  const ApprovalThreshold: real := 50.0

  datatype RefundCalculation = RefundCalculation(
    invoiceId: string, originalAmount: real, refundPercentage: real, refundAmount: real,
    reason: string, approvalRequired: bool)

  /** `calculate_refund_amount` (the reported amount is the unrounded one here). */
  function CalculateRefundAmount(invoiceId: string, reason: string, partialPercentage: real): (r: RefundCalculation)
    ensures r.originalAmount == InvoiceAmount(invoiceId) && r.refundPercentage == partialPercentage
    ensures r.refundAmount * 100.0 == r.originalAmount * partialPercentage
    ensures r.approvalRequired <==> r.refundAmount > ApprovalThreshold
    ensures r.originalAmount == 0.0 ==> r.refundAmount == 0.0 && !r.approvalRequired
    ensures 0.0 <= partialPercentage <= 100.0 ==> 0.0 <= r.refundAmount <= r.originalAmount
  {
    var original := InvoiceAmount(invoiceId);
    var refund := original * (partialPercentage / 100.0);
    RefundCalculation(invoiceId, original, partialPercentage, refund, reason, refund > ApprovalThreshold)
  }

  /** Only the three subscription invoices can need approval, and only above about
      55.6 percent; the overage charge never does below 100 percent. */
  lemma {:induction false} ApprovalNeedsLargeRefund(invoiceId: string, reason: string, pct: real)
    requires 0.0 <= pct <= 100.0
    ensures CalculateRefundAmount(invoiceId, reason, pct).approvalRequired
            <==> invoiceId in {"INV-2024-001", "INV-2024-002", "INV-2024-003"} && 89.99 * pct > 5000.0
  {
    var r := CalculateRefundAmount(invoiceId, reason, pct);
    if invoiceId == "INV-2024-SPECIAL" {
      assert r.refundAmount * 100.0 == 47.00 * pct;
      assert r.refundAmount <= 47.00;
    }
  }

  // ---------------------------------------------------------------------------
  // Payment status
  // ---------------------------------------------------------------------------

  datatype PaymentStatus = Paid(paidDate: string, paymentMethod: string) | NotFound

  const Payments: map<string, PaymentStatus> := map[
    "INV-2024-001" := Paid("2024-12-05", "credit_card"),
    "INV-2024-002" := Paid("2024-11-03", "bank_transfer"),
    "INV-2024-003" := Paid("2024-10-02", "credit_card"),
    "INV-2024-SPECIAL" := Paid("2024-11-18", "auto_charge")]

  /** `check_payment_status`: the status stored for the invoice, else not found. */
  function CheckPaymentStatus(invoiceId: string): (s: PaymentStatus)
    ensures s == NotFound <==> invoiceId !in Payments
    ensures invoiceId in Payments ==> s == Payments[invoiceId]
  {
    if invoiceId in Payments then Payments[invoiceId] else NotFound
  }

  /** Every invoice the refund tool knows has a payment on record, and vice versa. */
  lemma {:induction false} PaymentsMatchRefundable(invoiceId: string)
    ensures CheckPaymentStatus(invoiceId).Paid? <==> InvoiceAmount(invoiceId) > 0.0
  {
    assert Payments.Keys == {"INV-2024-001", "INV-2024-002", "INV-2024-003", "INV-2024-SPECIAL"};
  }

  // ---------------------------------------------------------------------------
  // Credits
  // ---------------------------------------------------------------------------

  const CreditApprovalLimit: real := 100.0

  datatype Credit = Credit(creditId: string, customerId: string, amount: real, reason: string, approved: bool,
                           processedAt: Instant)

  /** `process_credit`: approved outright up to 100, otherwise pending approval. */
  function ProcessCredit(customerId: string, amount: real, reason: string, creditId: string, now: Instant): (c: Credit)
    ensures c.customerId == customerId && c.amount == amount && c.reason == reason
    ensures c.approved <==> amount <= CreditApprovalLimit
  {
    Credit(creditId, customerId, amount, reason, amount <= CreditApprovalLimit, now)
  }

  /** A smaller credit is approved whenever a larger one is. */
  lemma CreditApprovalMonotone(customerId: string, a: real, b: real, reason: string, id: string, now: Instant)
    requires a <= b
    ensures ProcessCredit(customerId, b, reason, id, now).approved ==> ProcessCredit(customerId, a, reason, id, now).approved
  {
  }

  // ---------------------------------------------------------------------------
  // Invoice generation
  // ---------------------------------------------------------------------------

  datatype LineItem = LineItem(description: string, amount: Option<real>)

  const Placeholder: LineItem := LineItem("Service charge", Some(0.0))
  const TaxRate: real := 0.08

  function ItemAmounts(items: seq<LineItem>): (xs: seq<real>)
    ensures |xs| == |items|
    ensures forall k :: 0 <= k < |items| ==> xs[k] == items[k].amount.GetOr(0.0)
  {
    seq(|items|, k requires 0 <= k < |items| => items[k].amount.GetOr(0.0))
  }

  datatype GeneratedInvoice = GeneratedInvoice(
    invoiceId: string, customerId: string, items: seq<LineItem>, subtotal: real, tax: real, total: real,
    dueDate: string, status: string)

  /** `generate_invoice` (tax and total before rounding to cents). */
  function GenerateInvoice(customerId: string, items: seq<LineItem>, dueDate: string, invoiceId: string): (inv: GeneratedInvoice)
    ensures inv.customerId == customerId && inv.dueDate == dueDate && inv.status == "pending"
    ensures |items| > 0 ==> inv.items == items
    ensures |items| == 0 ==> inv.items == [Placeholder] && inv.subtotal == 0.0
    ensures inv.subtotal == Sum(ItemAmounts(inv.items))
    ensures inv.tax == TaxRate * inv.subtotal
    ensures inv.total == inv.subtotal + inv.tax
  {
    var subtotal := if |items| > 0 then Sum(ItemAmounts(items)) else 0.0;
    assert |items| == 0 ==> Sum(ItemAmounts([Placeholder])) == 0.0 by {
      assert ItemAmounts([Placeholder])[..0] == [];
    }
    GeneratedInvoice(invoiceId, customerId, if |items| > 0 then items else [Placeholder],
                     subtotal, subtotal * TaxRate, subtotal * 1.08, dueDate, "pending")
  }

  /** Adding a line to an invoice raises the subtotal by that line's amount (a
      missing amount adds nothing). */
  lemma {:induction false} InvoiceLineAdds(customerId: string, items: seq<LineItem>, extra: LineItem, dueDate: string, id: string)
    requires |items| > 0
    ensures GenerateInvoice(customerId, items + [extra], dueDate, id).subtotal
            == GenerateInvoice(customerId, items, dueDate, id).subtotal + extra.amount.GetOr(0.0)
  {
    assert ItemAmounts(items + [extra]) == ItemAmounts(items) + [extra.amount.GetOr(0.0)];
    SumAppend(ItemAmounts(items), [extra.amount.GetOr(0.0)]);
    assert [extra.amount.GetOr(0.0)][..0] == [];
  }
}

=== FILE: common.dfy ===
/** Shared vocabulary: an optional value (a dictionary key that may be missing)
    and sums and means of real-valued scores and amounts. */
module Common {

  /** A value that may be absent, as with `dict.get(key)` returning `None`. */
  datatype Option<T> = None | Some(value: T) {
    /** `dict.get(key, default)`: the value when present, otherwise the default. */
    function GetOr(default: T): T {
      match this
      case Some(v) => v
      case None => default
    }
  }

  /** Python's `sum` over a list of numbers (addition is exact on reals). */
  function Sum(xs: seq<real>): real {
    if |xs| == 0 then 0.0 else Sum(xs[..|xs| - 1]) + xs[|xs| - 1]
  }

  /** `sum(xs) / len(xs) if xs else 0`, the arithmetic mean used by every aggregate score. */
  function Mean(xs: seq<real>): real {
    if |xs| == 0 then 0.0 else Sum(xs) / (|xs| as real)
  }

  /** Fraction `count / total` as the source computes it with true division. */
  function Ratio(count: nat, total: nat): real
    requires total > 0
  {
    (count as real) / (total as real)
  }

  lemma {:induction false} SumAppend(xs: seq<real>, ys: seq<real>)
    ensures Sum(xs + ys) == Sum(xs) + Sum(ys)
    decreases |ys|
  {
    if |ys| == 0 {
      assert xs + ys == xs;
    } else {
      var ys' := ys[..|ys| - 1];
      assert (xs + ys)[..|xs + ys| - 1] == xs + ys';
      SumAppend(xs, ys');
    }
  }

  /** Every element within `[lo, hi]` bounds the sum by `lo * n` and `hi * n`. */
  lemma {:induction false} SumBounds(xs: seq<real>, lo: real, hi: real)
    requires forall i :: 0 <= i < |xs| ==> lo <= xs[i] <= hi
    ensures lo * (|xs| as real) <= Sum(xs) <= hi * (|xs| as real)
    decreases |xs|
  {
    if |xs| > 0 {
      var init := xs[..|xs| - 1];
      assert forall i :: 0 <= i < |init| ==> init[i] == xs[i];
      SumBounds(init, lo, hi);
    }
  }

  /** A pointwise smaller sequence has a smaller sum. */
  lemma {:induction false} SumMonotone(xs: seq<real>, ys: seq<real>)
    requires |xs| == |ys|
    requires forall i :: 0 <= i < |xs| ==> xs[i] <= ys[i]
    ensures Sum(xs) <= Sum(ys)
    decreases |xs|
  {
    if |xs| > 0 {
      var n := |xs| - 1;
      assert forall i :: 0 <= i < n ==> xs[..n][i] == xs[i] && ys[..n][i] == ys[i];
      SumMonotone(xs[..n], ys[..n]);
    }
  }

  /** The mean of values in `[lo, hi]` (with `lo <= 0 <= hi` covering the empty case) stays there. */
  lemma MeanBounds(xs: seq<real>, lo: real, hi: real)
    requires lo <= 0.0 <= hi
    requires forall i :: 0 <= i < |xs| ==> lo <= xs[i] <= hi
    ensures lo <= Mean(xs) <= hi
  {
    if |xs| > 0 {
      SumBounds(xs, lo, hi);
      var n := |xs| as real;
      assert Sum(xs) / n <= hi by {
        assert Sum(xs) <= hi * n;
      }
      assert lo <= Sum(xs) / n by {
        assert lo * n <= Sum(xs);
      }
    }
  }

  /** The mean is monotone in each element. */
  lemma MeanMonotone(xs: seq<real>, ys: seq<real>)
    requires |xs| == |ys|
    requires forall i :: 0 <= i < |xs| ==> xs[i] <= ys[i]
    ensures Mean(xs) <= Mean(ys)
  {
    if |xs| > 0 {
      SumMonotone(xs, ys);
      var n := |xs| as real;
      assert Sum(xs) / n <= Sum(ys) / n;
    }
  }

  /** A mean is 1 exactly when every element is 1, for elements bounded by 1. */
  lemma MeanIsOneIff(xs: seq<real>)
    requires |xs| > 0
    requires forall i :: 0 <= i < |xs| ==> xs[i] <= 1.0
    ensures Mean(xs) == 1.0 <==> forall i :: 0 <= i < |xs| ==> xs[i] == 1.0
  {
    if forall i :: 0 <= i < |xs| ==> xs[i] == 1.0 {
      SumBounds(xs, 1.0, 1.0);
    } else {
      var k :| 0 <= k < |xs| && xs[k] != 1.0;
      SumBelow(xs, k);
    }
  }

  /** Every element at most `hi` bounds the sum by `hi * n`. */
  lemma {:induction false} SumAtMost(xs: seq<real>, hi: real)
    requires forall i :: 0 <= i < |xs| ==> xs[i] <= hi
    ensures Sum(xs) <= hi * (|xs| as real)
    decreases |xs|
  {
    if |xs| > 0 {
      var init := xs[..|xs| - 1];
      assert forall i :: 0 <= i < |init| ==> init[i] == xs[i];
      SumAtMost(init, hi);
    }
  }

  lemma {:induction false} SumBelow(xs: seq<real>, k: nat)
    requires k < |xs|
    requires forall i :: 0 <= i < |xs| ==> xs[i] <= 1.0
    requires xs[k] < 1.0
    ensures Sum(xs) < |xs| as real
    decreases |xs|
  {
    var n := |xs| - 1;
    var init := xs[..n];
    assert forall i :: 0 <= i < |init| ==> init[i] == xs[i];
    if k == n {
      SumAtMost(init, 1.0);
    } else {
      SumBelow(init, k);
    }
  }

  /** Every element at least `lo` bounds the sum from below by `lo * n`. */
  lemma {:induction false} SumAtLeast(xs: seq<real>, lo: real)
    requires forall i :: 0 <= i < |xs| ==> lo <= xs[i]
    ensures lo * (|xs| as real) <= Sum(xs)
    decreases |xs|
  {
    if |xs| > 0 {
      var init := xs[..|xs| - 1];
      assert forall i :: 0 <= i < |init| ==> init[i] == xs[i];
      SumAtLeast(init, lo);
    }
  }

  lemma {:induction false} SumAbove(xs: seq<real>, k: nat)
    requires k < |xs|
    requires forall i :: 0 <= i < |xs| ==> 1.0 <= xs[i]
    requires xs[k] > 1.0
    ensures Sum(xs) > |xs| as real
    decreases |xs|
  {
    var n := |xs| - 1;
    var init := xs[..n];
    assert forall i :: 0 <= i < |init| ==> init[i] == xs[i];
    if k == n {
      SumAtLeast(init, 1.0);
    } else {
      SumAbove(init, k);
    }
  }

  /** Values of at least 1, one of them above 1, average to more than 1. */
  lemma MeanAboveOne(xs: seq<real>, k: nat)
    requires k < |xs|
    requires forall i :: 0 <= i < |xs| ==> 1.0 <= xs[i]
    requires xs[k] > 1.0
    ensures Mean(xs) > 1.0
  {
    SumAbove(xs, k);
    var n := |xs| as real;
    assert Sum(xs) / n > 1.0 by {
      assert Sum(xs) > n;
    }
  }

  /** How many elements satisfy `p` (`sum(1 for x in xs if p(x))`). */
  function Count<T>(xs: seq<T>, p: T -> bool): (n: nat)
    ensures n <= |xs|
  {
    if |xs| == 0 then 0 else Count(xs[..|xs| - 1], p) + (if p(xs[|xs| - 1]) then 1 else 0)
  }

  /** The count reaches the length exactly when every element satisfies `p`. */
  lemma {:induction false} CountAllIff<T>(xs: seq<T>, p: T -> bool)
    ensures Count(xs, p) == |xs| <==> forall i :: 0 <= i < |xs| ==> p(xs[i])
    decreases |xs|
  {
    if |xs| > 0 {
      var init := xs[..|xs| - 1];
      CountAllIff(init, p);
      assert forall i :: 0 <= i < |init| ==> init[i] == xs[i];
    }
  }

  /** The count is zero exactly when no element satisfies `p`. */
  lemma {:induction false} CountNoneIff<T>(xs: seq<T>, p: T -> bool)
    ensures Count(xs, p) == 0 <==> forall i :: 0 <= i < |xs| ==> !p(xs[i])
    decreases |xs|
  {
    if |xs| > 0 {
      var init := xs[..|xs| - 1];
      CountNoneIff(init, p);
      assert forall i :: 0 <= i < |init| ==> init[i] == xs[i];
    }
  }

  /** A ratio of a count to a larger-or-equal total lies in [0, 1], is 1 exactly
      when the count is the total, and 0 exactly when the count is 0. */
  lemma RatioFacts(count: nat, total: nat)
    requires 0 < total && count <= total
    ensures 0.0 <= Ratio(count, total) <= 1.0
    ensures Ratio(count, total) == 1.0 <==> count == total
    ensures Ratio(count, total) == 0.0 <==> count == 0
  {
    var c := count as real;
    var t := total as real;
    assert c / t * t == c;
    if c / t == 1.0 {
      assert c == t;
    }
  }

  /** Ratios over the same total are ordered like their counts. */
  lemma RatioMonotone(c1: nat, c2: nat, total: nat)
    requires 0 < total && c1 <= c2
    ensures Ratio(c1, total) <= Ratio(c2, total)
  {
  }

  /** A ratio times its total gives back the count. */
  lemma RatioTimesTotal(count: nat, total: nat)
    requires 0 < total
    ensures Ratio(count, total) * (total as real) == count as real
  {
  }

  /** `round(x, 2)` on an exact real: the nearest whole hundredth, a half rounded up. */
  function RoundCents(x: real): (r: real)
    ensures x - 0.005 < r <= x + 0.005
    ensures (r * 100.0).Floor as real == r * 100.0
  {
    ((x * 100.0 + 0.5).Floor as real) / 100.0
  }

  /** The whole hundredth within half a cent of `x` is its rounding. */
  lemma RoundCentsNearest(x: real, cents: int)
    requires x - 0.005 < cents as real / 100.0 <= x + 0.005
    ensures RoundCents(x) == cents as real / 100.0
  {
    var f := (RoundCents(x) * 100.0).Floor;
    assert RoundCents(x) * 100.0 == f as real;
    assert x * 100.0 - 0.5 < f as real <= x * 100.0 + 0.5;
    assert x * 100.0 - 0.5 < cents as real <= x * 100.0 + 0.5;
    assert f == cents;
  }

  /** A subset has no more elements than its superset; equal size means equal sets. */
  lemma SubsetCardinality<T>(a: set<T>, b: set<T>)
    requires a <= b
    ensures |a| <= |b|
    ensures |a| == |b| ==> a == b
  {
    assert b == a + (b - a);
    assert |b| == |a| + |b - a|;
    if |a| == |b| {
      assert |b - a| == 0;
    }
  }

  // ---------------------------------------------------------------------------
  // Clock values
  // ---------------------------------------------------------------------------

  /** A `datetime` as a count of microseconds on one fixed time line. */
  type Instant = int

  const MicrosPerSecond: int := 1_000_000
  const MicrosPerDay: int := 86_400 * MicrosPerSecond

  /** `(later - earlier).days`: whole days, rounded towards minus infinity as
      `timedelta` normalises negative spans. */
  function ElapsedDays(earlier: Instant, later: Instant): (d: int)
    ensures d * MicrosPerDay <= later - earlier < (d + 1) * MicrosPerDay
    ensures later >= earlier ==> d >= 0
    ensures later < earlier ==> d < 0
  {
    (later - earlier) / MicrosPerDay
  }
}

=== FILE: damage_reports.dfy ===
/** The damage-report tools of the multimodal agent (chapter-3/06_multimodal_agent/agent.py).
    The report list kept under `user:damage_reports` is an explicit sequence; the
    artifact store's version number, the random case number and the clock are
    parameters. */
module DamageReports {
  import opened Common
  import opened Text

  // ---------------------------------------------------------------------------
  // Warranty assessment from a damage description
  // ---------------------------------------------------------------------------

  const CoveredTerms: seq<string> := ["component failure", "electrical", "defect", "malfunction"]
  const ExcludedTerms: seq<string> := ["water damage", "physical abuse", "dropped", "cracked screen"]

  datatype Coverage = NotCovered | Covered | PendingReview

  function CoverageText(c: Coverage): string {
    match c
    case NotCovered => "Not covered - physical damage or user error"
    case Covered => "Covered under warranty"
    case PendingReview => "Pending review"
  }

  function RecommendedAction(c: Coverage): string {
    match c
    case NotCovered => "Paid repair or replacement options available"
    case Covered => "Free replacement or repair"
    case PendingReview => "Additional inspection may be required"
  }

  datatype Assessment = Assessment(productType: string, damageDescription: string, coverage: Coverage,
                                   warrantyCoverage: string, recommendedAction: string)

  /** `assess_warranty_from_image`: an exclusion term wins over a covered term; a
      description with neither is left for review. */
  function AssessWarranty(productType: string, damageDescription: string): (a: Assessment)
    ensures a.productType == productType && a.damageDescription == damageDescription
    ensures a.coverage == NotCovered <==> ContainsAny(Lower(damageDescription), ExcludedTerms)
    ensures a.coverage == Covered
            <==> (!ContainsAny(Lower(damageDescription), ExcludedTerms) && ContainsAny(Lower(damageDescription), CoveredTerms))
    ensures a.coverage == PendingReview
            <==> (!ContainsAny(Lower(damageDescription), ExcludedTerms) && !ContainsAny(Lower(damageDescription), CoveredTerms))
    ensures a.warrantyCoverage == CoverageText(a.coverage) && a.recommendedAction == RecommendedAction(a.coverage)
  {
    var damage := Lower(damageDescription);
    var c := if ContainsAny(damage, ExcludedTerms) then NotCovered
             else if ContainsAny(damage, CoveredTerms) then Covered
             else PendingReview;
    Assessment(productType, damageDescription, c, CoverageText(c), RecommendedAction(c))
  }

  /** A description naming both a defect and a drop is not covered. */
  lemma {:induction false} ExclusionWins(productType: string)
    ensures AssessWarranty(productType, "Dropped, now has a defect").coverage == NotCovered
  {
    var damage := Lower("Dropped, now has a defect");
    assert damage == "dropped, now has a defect";
    assert OccursAt(damage, ExcludedTerms[2], 0);
  }

  /** Coverage does not depend on the case the description is written in. */
  lemma AssessmentIgnoresCase(productType: string, damageDescription: string)
    ensures AssessWarranty(productType, Upper(damageDescription)).coverage == AssessWarranty(productType, damageDescription).coverage
  {
    CaseMappingIdempotent(damageDescription);
  }

  // ---------------------------------------------------------------------------
  // The per-user report list
  // ---------------------------------------------------------------------------

  datatype ReportEntry = ReportEntry(caseNumber: string, filename: string, version: Option<int>, date: Instant)

  function CaseNumber(n: nat): (c: string)
    ensures |c| > 4 && c[..4] == "DMG-"
    ensures AllDigits(c[4..]) && DecimalValue(c[4..]) == n
  {
    var c := "DMG-" + NatToString(n);
    assert c[4..] == NatToString(n);
    NatToStringRoundTrip(n);
    c
  }

  function ReportFilename(caseNumber: string): string {
    "user:damage_report_" + caseNumber + ".json"
  }

  datatype DamageReply = DamageReply(caseNumber: string, reportFilename: string, reportVersion: int, message: string)

  /** `analyze_product_damage_with_report`: the report is stored under a new case
      number and one entry is appended to the user's report list. `caseSeed`
      stands for the random five-digit number, `version` for the artifact store's
      answer and `now` for the clock. */
  function AnalyzeProductDamage(reports: seq<ReportEntry>, caseSeed: nat, version: int, now: Instant)
    : (out: (seq<ReportEntry>, DamageReply))
    ensures |out.0| == |reports| + 1 && out.0[..|reports|] == reports
    ensures out.0[|reports|] == ReportEntry(CaseNumber(caseSeed), ReportFilename(CaseNumber(caseSeed)), Some(version), now)
    ensures out.1.caseNumber == CaseNumber(caseSeed) && out.1.reportVersion == version
  {
    var caseNumber := CaseNumber(caseSeed);
    var filename := ReportFilename(caseNumber);
    var entry := ReportEntry(caseNumber, filename, Some(version), now);
    assert (reports + [entry])[..|reports|] == reports;
    (reports + [entry],
     DamageReply(caseNumber, filename, version, "Damage report saved. Case number: " + caseNumber))
  }

  datatype Documents = NoDocuments | Listed(totalDocuments: nat, documents: seq<ReportEntry>)

  /** `list_user_documents` */
  function ListUserDocuments(reports: seq<ReportEntry>): (d: Documents)
    ensures d == NoDocuments <==> |reports| == 0
    ensures d.Listed? ==> d.totalDocuments == |reports| && d.documents == reports
  {
    if |reports| == 0 then NoDocuments else Listed(|reports|, reports)
  }

  /** After a save the listing holds every earlier report and then the new one. */
  lemma ListAfterSave(reports: seq<ReportEntry>, caseSeed: nat, version: int, now: Instant)
    ensures ListUserDocuments(AnalyzeProductDamage(reports, caseSeed, version, now).0)
            == Listed(|reports| + 1, AnalyzeProductDamage(reports, caseSeed, version, now).0)
    ensures ListUserDocuments(AnalyzeProductDamage(reports, caseSeed, version, now).0).documents[..|reports|] == reports
  {
  }

  /** Index of the first report filed under `caseNumber`, if any. */
  function FirstReport(reports: seq<ReportEntry>, caseNumber: string): (i: Option<nat>)
    ensures i.Some? ==> i.value < |reports| && reports[i.value].caseNumber == caseNumber
    ensures i.Some? ==> forall k :: 0 <= k < i.value ==> reports[k].caseNumber != caseNumber
    ensures i.None? <==> forall k :: 0 <= k < |reports| ==> reports[k].caseNumber != caseNumber
  {
    if |reports| == 0 then None
    else if reports[0].caseNumber == caseNumber then Some(0)
    else match FirstReport(reports[1..], caseNumber)
         case None => None
         case Some(j) => Some(j + 1)
  }

  datatype Retrieval =
    | ContextUnavailable
    | NotFound
    | Found(caseNumber: string, filename: string, createdDate: Instant, version: int)

  /** `retrieve_damage_report`: the first report with that case number, its
      version read as 0 when none was recorded. `hasContext` is false when the
      tool is called without a tool context. */
  function RetrieveDamageReport(reports: seq<ReportEntry>, caseNumber: string, hasContext: bool): (r: Retrieval)
    ensures !hasContext <==> r == ContextUnavailable
    ensures hasContext ==> (r == NotFound <==> forall k :: 0 <= k < |reports| ==> reports[k].caseNumber != caseNumber)
    ensures r.Found? ==> r.caseNumber == caseNumber
                         && exists k :: 0 <= k < |reports| && reports[k].caseNumber == caseNumber
                                        && (forall j :: 0 <= j < k ==> reports[j].caseNumber != caseNumber)
                                        && r.filename == reports[k].filename && r.createdDate == reports[k].date
                                        && r.version == reports[k].version.GetOr(0)
  {
    if !hasContext then ContextUnavailable
    else match FirstReport(reports, caseNumber)
         case None => NotFound
         case Some(i) =>
           var e := reports[i];
           Found(caseNumber, e.filename, e.date, e.version.GetOr(0))
  }

  /** A report saved under a fresh case number can be retrieved with exactly the
      file name and version it was saved with; an earlier report under the same
      number would shadow it. */
  lemma {:induction false} RetrieveAfterSave(reports: seq<ReportEntry>, caseSeed: nat, version: int, now: Instant)
    requires forall k :: 0 <= k < |reports| ==> reports[k].caseNumber != CaseNumber(caseSeed)
    ensures RetrieveDamageReport(AnalyzeProductDamage(reports, caseSeed, version, now).0, CaseNumber(caseSeed), true)
            == Found(CaseNumber(caseSeed), ReportFilename(CaseNumber(caseSeed)), now, version)
  {
    var after := AnalyzeProductDamage(reports, caseSeed, version, now).0;
    assert after[|reports|].caseNumber == CaseNumber(caseSeed);
    assert forall k :: 0 <= k < |reports| ==> after[k] == reports[k];
    var i := FirstReport(after, CaseNumber(caseSeed));
    assert i == Some(|reports|);
  }

  /** Saving more reports never hides an earlier one. */
  lemma {:induction false} SaveKeepsEarlierReports(reports: seq<ReportEntry>, caseNumber: string, caseSeed: nat, version: int, now: Instant)
    requires RetrieveDamageReport(reports, caseNumber, true).Found?
    ensures RetrieveDamageReport(AnalyzeProductDamage(reports, caseSeed, version, now).0, caseNumber, true)
            == RetrieveDamageReport(reports, caseNumber, true)
  {
    var after := AnalyzeProductDamage(reports, caseSeed, version, now).0;
    var i := FirstReport(reports, caseNumber);
    assert forall k :: 0 <= k < |reports| ==> after[k] == reports[k];
    assert FirstReport(after, caseNumber) == i by {
      FirstReportPrefix(reports, after, caseNumber);
    }
  }

  lemma {:induction false} FirstReportPrefix(reports: seq<ReportEntry>, longer: seq<ReportEntry>, caseNumber: string)
    requires |reports| <= |longer| && longer[..|reports|] == reports
    requires FirstReport(reports, caseNumber).Some?
    ensures FirstReport(longer, caseNumber) == FirstReport(reports, caseNumber)
  {
    var i := FirstReport(reports, caseNumber).value;
    assert forall k :: 0 <= k <= i ==> longer[k] == reports[k];
  }

  // ---------------------------------------------------------------------------
  // Visual troubleshooting guides
  // ---------------------------------------------------------------------------

  datatype Guide = Guide(key: string, product: string, issues: seq<string>)

  const Guides: seq<Guide> := [
    Guide("doorbell", "SmartHome Doorbell Pro", ["No power", "Poor video", "Connection lost"]),
    Guide("thermostat", "Smart Thermostat", ["Blank screen", "Wrong reading", "Not heating"])]

  datatype GuideReply = Specific(guide: Guide) | GeneralTips(message: string)

  /** Index of the first guide whose key occurs in `name`. */
  function FirstGuide(name: string, from: nat): (i: Option<nat>)
    requires from <= |Guides|
    ensures i.Some? ==> from <= i.value < |Guides| && Contains(name, Guides[i.value].key)
    ensures i.Some? ==> forall k :: from <= k < i.value ==> !Contains(name, Guides[k].key)
    ensures i.None? <==> forall k :: from <= k < |Guides| ==> !Contains(name, Guides[k].key)
    decreases |Guides| - from
  {
    if from == |Guides| then None
    else if Contains(name, Guides[from].key) then Some(from)
    else FirstGuide(name, from + 1)
  }

  /** `get_product_visual_guide`: the first guide, in table order, whose key occurs
      in the lower-cased product name; otherwise the general tips. */
  function GetProductVisualGuide(productName: string): (r: GuideReply)
    ensures r.GeneralTips? <==> forall k :: 0 <= k < |Guides| ==> !Contains(Lower(productName), Guides[k].key)
    ensures r.Specific? ==> r.guide in Guides && Contains(Lower(productName), r.guide.key)
    ensures r.Specific? && Contains(Lower(productName), Guides[0].key) ==> r.guide == Guides[0]
    ensures r.GeneralTips? ==> r.message == "No specific guide for " + productName
  {
    match FirstGuide(Lower(productName), 0)
    case Some(i) => Specific(Guides[i])
    case None => GeneralTips("No specific guide for " + productName)
  }

  /** The lookup ignores the case of the product name. */
  lemma GuideIgnoresCase(productName: string)
    ensures GetProductVisualGuide(Upper(productName)).Specific? <==> GetProductVisualGuide(productName).Specific?
  {
    CaseMappingIdempotent(productName);
  }
}

=== FILE: device_support.dfy ===
/** The device tools of the agent under evaluation (chapter-5/01_agent_eval/agent.py). */
module DeviceSupport {
  import opened Common
  import opened Text

  // ---------------------------------------------------------------------------
  // Device status
  // ---------------------------------------------------------------------------

  datatype Device = Device(deviceId: string, deviceType: string, status: string)

  const Devices: map<string, Device> := map[
    "thermostat" := Device("THERM-001", "thermostat", "online"),
    "camera" := Device("CAM-001", "camera", "online"),
    "light" := Device("LIGHT-001", "light", "online"),
    "doorbell" := Device("DOOR-001", "doorbell", "online")]

  datatype StatusReply = FoundDevice(device: Device) | UnknownDevice(error: string)

  /** `check_device_status`: looked up by the lower-cased type. */
  function CheckDeviceStatus(deviceType: string): (r: StatusReply)
    ensures r.FoundDevice? <==> Lower(deviceType) in Devices
    ensures r.FoundDevice? ==> r.device == Devices[Lower(deviceType)] && r.device.deviceType == Lower(deviceType)
    ensures r.UnknownDevice? ==> r.error == "Unknown device type: " + deviceType
  {
    var key := Lower(deviceType);
    if key in Devices then FoundDevice(Devices[key]) else UnknownDevice("Unknown device type: " + deviceType)
  }

  // ---------------------------------------------------------------------------
  // Settings
  // ---------------------------------------------------------------------------

  const ValidSettings: map<string, seq<string>> := map[
    "thermostat" := ["target_temp", "mode", "schedule"],
    "camera" := ["recording", "motion_sensitivity", "night_vision"],
    "light" := ["power", "brightness", "color"],
    "doorbell" := ["volume", "motion_alerts", "chime_type"]]

  function SettingsFor(deviceType: string): (s: seq<string>)
    ensures Lower(deviceType) !in ValidSettings ==> s == []
    ensures Lower(deviceType) in ValidSettings ==> s == ValidSettings[Lower(deviceType)]
  {
    var key := Lower(deviceType);
    if key in ValidSettings then ValidSettings[key] else []
  }

  datatype SettingReply =
    | SettingRejected(error: string, validSettings: seq<string>)
    | SettingApplied(deviceType: string, setting: string, newValue: string, message: string)

  /** `set_device_setting`: accepted iff the setting is listed (exactly as spelt)
      for the lower-cased device type; the reply echoes the request. */
  function SetDeviceSetting(deviceType: string, settingName: string, settingValue: string): (r: SettingReply)
    ensures r.SettingApplied? <==> settingName in SettingsFor(deviceType)
    ensures r.SettingApplied? ==> r.deviceType == deviceType && r.setting == settingName && r.newValue == settingValue
    ensures r.SettingRejected? ==> r.validSettings == SettingsFor(deviceType)
  {
    var allowed := SettingsFor(deviceType);
    if settingName !in allowed then
      SettingRejected("Invalid setting '" + settingName + "' for " + deviceType, allowed)
    else
      SettingApplied(deviceType, settingName, settingValue,
                     "Successfully set " + settingName + " to " + settingValue)
  }

  /** An unknown device type accepts no setting at all and lists none. */
  lemma UnknownDeviceRejectsEverything(deviceType: string, settingName: string, settingValue: string)
    requires Lower(deviceType) !in ValidSettings
    ensures SetDeviceSetting(deviceType, settingName, settingValue) == SettingRejected(
              "Invalid setting '" + settingName + "' for " + deviceType, [])
  {
  }

  /** The device type is matched case-insensitively, the setting name is not. */
  lemma {:induction false} SettingNameIsCaseSensitive()
    ensures SetDeviceSetting("THERMOSTAT", "mode", "cooling").SettingApplied?
    ensures SetDeviceSetting("thermostat", "Mode", "cooling").SettingRejected?
  {
    assert Lower("THERMOSTAT") == "thermostat";
    assert "Mode" !in ValidSettings["thermostat"];
  }

  /** Every device whose status can be read can also be configured, and the other
      way round. */
  lemma StatusAndSettingsCoverSameDevices(deviceType: string)
    ensures CheckDeviceStatus(deviceType).FoundDevice? <==> |SettingsFor(deviceType)| > 0
  {
    assert Devices.Keys == ValidSettings.Keys;
  }

  // ---------------------------------------------------------------------------
  // Troubleshooting
  // ---------------------------------------------------------------------------

  datatype IssueGuide = IssueGuide(issue: string, steps: seq<string>)

  const TroubleshootingGuides: map<string, seq<IssueGuide>> := map[
    "thermostat" := [
      IssueGuide("not_cooling", ["Check if the mode is set to 'cooling'",
                                 "Verify the target temperature is below current temperature",
                                 "Ensure HVAC system breaker is on",
                                 "Check air filter - replace if dirty"]),
      IssueGuide("not_responding", ["Check Wi-Fi connection", "Power cycle the thermostat",
                                    "Verify the C-wire connection", "Factory reset if issues persist"])],
    "camera" := [
      IssueGuide("offline", ["Check Wi-Fi signal strength", "Power cycle the camera",
                             "Verify camera is within router range", "Check for firmware updates"]),
      IssueGuide("poor_quality", ["Clean the camera lens", "Adjust camera position for better lighting",
                                  "Check bandwidth - reduce other network usage",
                                  "Lower video quality settings if bandwidth limited"])]]

  /** Index of the first guide whose issue key occurs in `text`. */
  function FirstIssue(guides: seq<IssueGuide>, text: string): (i: Option<nat>)
    ensures i.Some? ==> i.value < |guides| && Contains(text, guides[i.value].issue)
    ensures i.Some? ==> forall k :: 0 <= k < i.value ==> !Contains(text, guides[k].issue)
    ensures i.None? <==> forall k :: 0 <= k < |guides| ==> !Contains(text, guides[k].issue)
  {
    if |guides| == 0 then None
    else if Contains(text, guides[0].issue) then Some(0)
    else match FirstIssue(guides[1..], text)
         case None => None
         case Some(j) => Some(j + 1)
  }

  function GuidesFor(deviceType: string): seq<IssueGuide> {
    var key := Lower(deviceType);
    if key in TroubleshootingGuides then TroubleshootingGuides[key] else []
  }

  datatype TroubleshootReply =
    | GuideFound(deviceType: string, issue: string, steps: seq<string>)
    | NoGuide(deviceType: string)

  /** `troubleshoot_device`: the first issue, in guide order, whose key occurs in the
      lower-cased description; nothing for an unknown device. */
  function TroubleshootDevice(deviceType: string, issueDescription: string): (r: TroubleshootReply)
    ensures r.deviceType == deviceType
    ensures r.NoGuide? <==> forall k :: 0 <= k < |GuidesFor(deviceType)| ==> !Contains(Lower(issueDescription), GuidesFor(deviceType)[k].issue)
    ensures r.GuideFound? ==> Contains(Lower(issueDescription), r.issue)
                              && IssueGuide(r.issue, r.steps) in GuidesFor(deviceType)
    ensures r.GuideFound? ==>
      exists i :: 0 <= i < |GuidesFor(deviceType)| && GuidesFor(deviceType)[i] == IssueGuide(r.issue, r.steps)
                  && forall k :: 0 <= k < i ==> !Contains(Lower(issueDescription), GuidesFor(deviceType)[k].issue)
    ensures Lower(deviceType) !in TroubleshootingGuides ==> r.NoGuide?
  {
    var guides := GuidesFor(deviceType);
    match FirstIssue(guides, Lower(issueDescription))
    case None => NoGuide(deviceType)
    case Some(i) =>
      assert guides[i] == IssueGuide(guides[i].issue, guides[i].steps);
      GuideFound(deviceType, guides[i].issue, guides[i].steps)
  }

  /** The device type is looked up ignoring case. */
  lemma TroubleshootIgnoresDeviceCase(a: string, b: string, issueDescription: string)
    requires Lower(a) == Lower(b)
    ensures TroubleshootDevice(a, issueDescription).NoGuide? == TroubleshootDevice(b, issueDescription).NoGuide?
    ensures TroubleshootDevice(a, issueDescription).GuideFound? ==>
      TroubleshootDevice(a, issueDescription).steps == TroubleshootDevice(b, issueDescription).steps
  {
  }

  /** The issue keys are written with underscores, so a description in plain words
      ("not cooling") finds no guide while the key itself does. */
  lemma {:induction false} UnderscoredKeysNeedExactWording()
    ensures TroubleshootDevice("thermostat", "Not cooling").NoGuide?
    ensures TroubleshootDevice("thermostat", "Not_Cooling").GuideFound?
  {
    var plain := Lower("Not cooling");
    assert plain == "not cooling";
    var guides := TroubleshootingGuides["thermostat"];
    assert GuidesFor("thermostat") == guides by { assert Lower("thermostat") == "thermostat"; }
    assert guides[0].issue == "not_cooling" && |plain| == |guides[0].issue|;
    assert plain[3] != guides[0].issue[3];
    assert !OccursAt(plain, guides[0].issue, 0) by {
      assert plain[0..|guides[0].issue|][3] == plain[3];
    }
    assert !Contains(plain, guides[0].issue);
    assert |guides[1].issue| > |plain|;
    var keyed := Lower("Not_Cooling");
    assert keyed == "not_cooling";
    assert OccursAt(keyed, guides[0].issue, 0);
  }
}

=== FILE: financial_advisor.dfy ===
/** The financial advisor's tools (chapter-5/02_custom_eval/agent.py): portfolio
    lookup, investment analysis, recommendation generation and the regulatory
    compliance check the agent runs on its own recommendations. */
module FinancialAdvisor {
  import opened Common
  import opened Text

  // ---------------------------------------------------------------------------
  // Client portfolios
  // ---------------------------------------------------------------------------

  datatype Position = Position(symbol: string, name: string, percentage: int, value: int)

  datatype Portfolio = Portfolio(
    clientId: string, name: string, riskProfile: string, maxRiskTolerance: int,
    holdings: seq<Position>, totalValue: int, lastRebalance: string)

  const Portfolios: map<string, Portfolio> := map[
    "CLIENT-001" := Portfolio("CLIENT-001", "John Doe", "moderate", 6, [
      Position("VTI", "Total Stock Market ETF", 40, 80000),
      Position("VXUS", "International Stock ETF", 20, 40000),
      Position("BND", "Total Bond Market ETF", 30, 60000),
      Position("VTIP", "Inflation-Protected Securities", 10, 20000)], 200000, "2024-10-15"),
    "CLIENT-002" := Portfolio("CLIENT-002", "Jane Smith", "aggressive", 9, [
      Position("QQQ", "Nasdaq 100 ETF", 50, 150000),
      Position("ARKK", "Innovation ETF", 30, 90000),
      Position("SOXX", "Semiconductor ETF", 20, 60000)], 300000, "2024-11-01")]

  function PercentTotal(hs: seq<Position>): int {
    if |hs| == 0 then 0 else PercentTotal(hs[..|hs| - 1]) + hs[|hs| - 1].percentage
  }

  function ValueTotal(hs: seq<Position>): int {
    if |hs| == 0 then 0 else ValueTotal(hs[..|hs| - 1]) + hs[|hs| - 1].value
  }

  /** A stored portfolio is consistent: it is filed under its own id, its
      percentages add up to 100 and its position values add up to its total. */
  predicate ConsistentPortfolio(id: string, p: Portfolio) {
    && p.clientId == id
    && PercentTotal(p.holdings) == 100
    && ValueTotal(p.holdings) == p.totalValue
    && 1 <= p.maxRiskTolerance <= 10
  }

  /** `get_portfolio_allocation`: `None` is the "Client not found" reply. */
  function GetPortfolioAllocation(clientId: string): (r: Option<Portfolio>)
    ensures r.Some? <==> clientId == "CLIENT-001" || clientId == "CLIENT-002"
    ensures r.Some? ==> ConsistentPortfolio(clientId, r.value)
  {
    if clientId in Portfolios then
      PortfoliosConsistent(clientId);
      Some(Portfolios[clientId])
    else None
  }

  lemma PortfoliosConsistent(id: string)
    requires id in Portfolios
    ensures ConsistentPortfolio(id, Portfolios[id])
  {
    var hs := Portfolios[id].holdings;
    if id == "CLIENT-001" {
      assert PercentTotal(hs[..1]) == 40 && ValueTotal(hs[..1]) == 80000 by { assert hs[..1][..0] == []; }
      assert PercentTotal(hs[..2]) == 60 && ValueTotal(hs[..2]) == 120000 by { assert hs[..2][..1] == hs[..1]; }
      assert PercentTotal(hs[..3]) == 90 && ValueTotal(hs[..3]) == 180000 by { assert hs[..3][..2] == hs[..2]; }
      assert hs[..4] == hs;
    } else {
      assert PercentTotal(hs[..1]) == 50 && ValueTotal(hs[..1]) == 150000 by { assert hs[..1][..0] == []; }
      assert PercentTotal(hs[..2]) == 80 && ValueTotal(hs[..2]) == 240000 by { assert hs[..2][..1] == hs[..1]; }
      assert hs[..3] == hs;
    }
  }

  // ---------------------------------------------------------------------------
  // Investment analysis
  // ---------------------------------------------------------------------------

  datatype Investment = Investment(
    symbol: string, name: string, kind: string, riskScore: int, expenseRatio: real,
    diversification: string, recommendation: string)

  const Investments: map<string, Investment> := map[
    "VTI" := Investment("VTI", "Vanguard Total Stock Market ETF", "ETF", 5, 0.03,
                        "High - 4000+ US stocks", "Core holding for most portfolios"),
    "QQQ" := Investment("QQQ", "Invesco QQQ Trust", "ETF", 7, 0.20,
                        "Medium - Top 100 Nasdaq stocks", "Growth-oriented, higher volatility"),
    "ARKK" := Investment("ARKK", "ARK Innovation ETF", "ETF", 9, 0.75,
                         "Low - Concentrated in disruptive tech", "High risk, suitable for aggressive investors only"),
    "BND" := Investment("BND", "Vanguard Total Bond Market ETF", "ETF", 2, 0.03,
                        "High - Broad US bond market", "Income and stability, lower returns")]

  /** Projected annual returns under the three scenarios. */
  datatype Projection = Projection(conservative: real, moderate: real, optimistic: real)

  datatype Analysis = Analysis(investment: Investment, amount: real, projected: Projection)

  const ConservativeRate: real := 0.04
  const ModerateRate: real := 0.07
  const OptimisticRate: real := 0.12

  /** `analyze_investment`: the symbol is looked up upper-cased; `None` is the
      "Investment not found" reply. */
  function AnalyzeInvestment(symbol: string, amount: real): (r: Option<Analysis>)
    ensures r.Some? <==> Upper(symbol) in Investments
    ensures r.Some? ==> r.value.investment == Investments[Upper(symbol)] && r.value.investment.symbol == Upper(symbol)
    ensures r.Some? ==> r.value.amount == amount
    ensures r.Some? ==>
      r.value.projected == Projection(amount * ConservativeRate, amount * ModerateRate, amount * OptimisticRate)
    ensures r.Some? ==> 1 <= r.value.investment.riskScore <= 10
    ensures r.Some? && amount >= 0.0 ==>
      0.0 <= r.value.projected.conservative <= r.value.projected.moderate <= r.value.projected.optimistic <= amount
    ensures r.Some? && amount < 0.0 ==>
      r.value.projected.optimistic <= r.value.projected.moderate <= r.value.projected.conservative < 0.0
  {
    var key := Upper(symbol);
    if key in Investments then
      Some(Analysis(Investments[key], amount,
        Projection(amount * ConservativeRate, amount * ModerateRate, amount * OptimisticRate)))
    else None
  }

  /** The lookup ignores the letter case of the symbol. */
  lemma AnalyzeInvestmentCaseInsensitive(s: string, t: string, amount: real)
    requires Upper(s) == Upper(t)
    ensures AnalyzeInvestment(s, amount) == AnalyzeInvestment(t, amount)
  {
  }

  /** The projected returns are linear in the amount invested. */
  lemma AnalyzeInvestmentAdditive(symbol: string, a: real, b: real)
    requires AnalyzeInvestment(symbol, a).Some?
    ensures AnalyzeInvestment(symbol, a + b).Some? && AnalyzeInvestment(symbol, b).Some?
    ensures AnalyzeInvestment(symbol, a + b).value.projected.moderate
            == AnalyzeInvestment(symbol, a).value.projected.moderate + AnalyzeInvestment(symbol, b).value.projected.moderate
    ensures AnalyzeInvestment(symbol, a + b).value.projected.conservative
            == AnalyzeInvestment(symbol, a).value.projected.conservative + AnalyzeInvestment(symbol, b).value.projected.conservative
    ensures AnalyzeInvestment(symbol, a + b).value.projected.optimistic
            == AnalyzeInvestment(symbol, a).value.projected.optimistic + AnalyzeInvestment(symbol, b).value.projected.optimistic
  {
  }

  // ---------------------------------------------------------------------------
  // Recommendation generation
  // ---------------------------------------------------------------------------

  datatype Allocation = Allocation(assetClass: string, percentage: int, suggestedEtf: string)

  datatype Strategy = Strategy(name: string, riskScore: int, allocation: seq<Allocation>)

  datatype GeneratedRecommendation = GeneratedRecommendation(
    clientId: string, goal: string, timelineYears: int, currentRiskProfile: string,
    strategy: Strategy, disclosures: seq<string>, disclosureIncluded: bool)

  const GrowthFocused: Strategy := Strategy("Growth-focused", 7, [
    Allocation("US Stocks", 50, "VTI"),
    Allocation("International Stocks", 25, "VXUS"),
    Allocation("Bonds", 15, "BND"),
    Allocation("Alternatives", 10, "VNQ")])

  const BalancedGrowth: Strategy := Strategy("Balanced Growth", 5, [
    Allocation("US Stocks", 40, "VTI"),
    Allocation("International Stocks", 20, "VXUS"),
    Allocation("Bonds", 30, "BND"),
    Allocation("Cash/Short-term", 10, "VTIP")])

  const CapitalPreservation: Strategy := Strategy("Capital Preservation", 3, [
    Allocation("US Stocks", 25, "VTI"),
    Allocation("Bonds", 50, "BND"),
    Allocation("Short-term Bonds", 15, "VCSH"),
    Allocation("Cash", 10, "VMFXX")])

  const Disclosures: seq<string> := [
    "Past performance does not guarantee future results.",
    "Investments are subject to market risk, including possible loss of principal.",
    "This is not personalized investment advice. Consult a qualified advisor.",
    "ETF expense ratios and holdings may change. Check current prospectus."]

  function AllocationTotal(xs: seq<Allocation>): int {
    if |xs| == 0 then 0 else AllocationTotal(xs[..|xs| - 1]) + xs[|xs| - 1].percentage
  }

  lemma FourAllocationsTotal(xs: seq<Allocation>)
    requires |xs| == 4
    ensures AllocationTotal(xs) == xs[0].percentage + xs[1].percentage + xs[2].percentage + xs[3].percentage
  {
    assert AllocationTotal(xs[..1]) == xs[0].percentage by { assert xs[..1][..0] == []; }
    assert AllocationTotal(xs[..2]) == AllocationTotal(xs[..1]) + xs[1].percentage by { assert xs[..2][..1] == xs[..1]; }
    assert AllocationTotal(xs[..3]) == AllocationTotal(xs[..2]) + xs[2].percentage by { assert xs[..3][..2] == xs[..2]; }
    assert AllocationTotal(xs) == AllocationTotal(xs[..3]) + xs[3].percentage;
  }

  /** The strategy for a horizon: more than 20 years grows, more than 10 balances,
      anything shorter preserves capital. */
  function StrategyFor(timelineYears: int): (s: Strategy)
    ensures timelineYears > 20 ==> s.name == "Growth-focused" && s.riskScore == 7
    ensures 10 < timelineYears <= 20 ==> s.name == "Balanced Growth" && s.riskScore == 5
    ensures timelineYears <= 10 ==> s.name == "Capital Preservation" && s.riskScore == 3
    ensures AllocationTotal(s.allocation) == 100 && |s.allocation| == 4
  {
    FourAllocationsTotal(GrowthFocused.allocation);
    FourAllocationsTotal(BalancedGrowth.allocation);
    FourAllocationsTotal(CapitalPreservation.allocation);
    if timelineYears > 20 then GrowthFocused
    else if timelineYears > 10 then BalancedGrowth
    else CapitalPreservation
  }

  /** `generate_recommendation`: `None` is the "Client not found" reply; the
      client's profile is reported but does not influence the strategy. */
  function GenerateRecommendation(clientId: string, goal: string, timelineYears: int): (r: Option<GeneratedRecommendation>)
    ensures r.Some? <==> GetPortfolioAllocation(clientId).Some?
    ensures r.Some? ==>
      && r.value.clientId == clientId && r.value.goal == goal && r.value.timelineYears == timelineYears
      && r.value.currentRiskProfile == GetPortfolioAllocation(clientId).value.riskProfile
      && r.value.disclosureIncluded && r.value.disclosures == Disclosures
      && r.value.strategy == StrategyFor(timelineYears)
      && AllocationTotal(r.value.strategy.allocation) == 100
  {
    match GetPortfolioAllocation(clientId)
    case None => None
    case Some(p) =>
      Some(GeneratedRecommendation(clientId, goal, timelineYears, p.riskProfile,
                                   StrategyFor(timelineYears), Disclosures, true))
  }

  /** A longer horizon never yields a less risky strategy. */
  lemma RiskGrowsWithTimeline(t1: int, t2: int)
    requires t1 <= t2
    ensures StrategyFor(t1).riskScore <= StrategyFor(t2).riskScore
  {
  }

  // ---------------------------------------------------------------------------
  // Regulatory compliance check
  // ---------------------------------------------------------------------------

  /** An allocation entry as received by the check; keys may be missing. */
  datatype AllocationEntry = AllocationEntry(assetClass: Option<string>, percentage: Option<int>)

  /** The nested `recommendation` object as received by the check. */
  datatype StrategyEntry = StrategyEntry(allocation: Option<seq<AllocationEntry>>, riskScore: Option<int>)

  /** The recommendation as received by the check. */
  datatype ComplianceInput = ComplianceInput(disclosureIncluded: Option<bool>, recommendation: Option<StrategyEntry>)

  datatype Issue =
    | MissingDisclosures
    | ConcentrationWarning(assetClass: string, percentage: int)
    | HighRiskUndocumented

  /** The check's verdict; `MissingAssetClass` is the `KeyError` raised when an
      over-limit entry has no `asset_class`. */
  datatype ComplianceCheck = Checked(compliant: bool, issues: seq<Issue>) | MissingAssetClass

  const SingleSecurityLimit: int := 25
  const DocumentationRiskThreshold: int := 8

  /** An entry above the single-security limit; a missing percentage counts as 0. */
  predicate OverSingleLimit(x: AllocationEntry) {
    x.percentage.GetOr(0) > SingleSecurityLimit
  }

  /** The warning for an over-limit entry, naming its asset class and percentage. */
  function WarningFor(x: AllocationEntry): Issue
    requires x.assetClass.Some? && x.percentage.Some?
  {
    ConcentrationWarning(x.assetClass.value, x.percentage.value)
  }

  /** Issues for the allocation entries over 25%, in order; `None` when one of them
      lacks its asset class. */
  function ConcentrationIssues(xs: seq<AllocationEntry>): (r: Option<seq<Issue>>)
    ensures r.None? <==> exists i :: 0 <= i < |xs| && OverSingleLimit(xs[i]) && xs[i].assetClass.None?
    ensures r.Some? ==> |r.value| == Count(xs, OverSingleLimit)
    ensures r.Some? ==> forall k :: 0 <= k < |r.value| ==> r.value[k].ConcentrationWarning? && r.value[k].percentage > SingleSecurityLimit
  {
    if |xs| == 0 then Some([])
    else
      var x := xs[|xs| - 1];
      var rest := ConcentrationIssues(xs[..|xs| - 1]);
      assert forall i :: 0 <= i < |xs| - 1 ==> xs[..|xs| - 1][i] == xs[i];
      if !OverSingleLimit(x) then rest
      else if x.assetClass.None? || rest.None? then None
      else Some(rest.value + [WarningFor(x)])
  }

  /** The concentration issues are exactly the warnings for the over-limit entries. */
  lemma {:induction false} ConcentrationIssuesMembers(xs: seq<AllocationEntry>)
    requires ConcentrationIssues(xs).Some?
    ensures forall i :: 0 <= i < |xs| && OverSingleLimit(xs[i]) ==>
              xs[i].assetClass.Some? && WarningFor(xs[i]) in ConcentrationIssues(xs).value
    ensures forall w :: w in ConcentrationIssues(xs).value ==>
              exists i :: 0 <= i < |xs| && OverSingleLimit(xs[i]) && xs[i].assetClass.Some? && w == WarningFor(xs[i])
    decreases |xs|
  {
    if |xs| > 0 {
      var init := xs[..|xs| - 1];
      assert forall i :: 0 <= i < |init| ==> init[i] == xs[i];
      ConcentrationIssuesMembers(init);
    }
  }

  /** The allocation the check reads: absent keys give no entries. */
  function AllocationOf(input: ComplianceInput): seq<AllocationEntry> {
    input.recommendation.GetOr(StrategyEntry(None, None)).allocation.GetOr([])
  }

  /** The risk score the check reads: an absent key gives 0. */
  function RiskOf(input: ComplianceInput): int {
    input.recommendation.GetOr(StrategyEntry(None, None)).riskScore.GetOr(0)
  }

  /** `check_regulatory_compliance`: a missing-disclosure issue, then the
      concentration warnings in allocation order, then the high-risk issue. */
  function CheckRegulatoryCompliance(input: ComplianceInput): (r: ComplianceCheck)
    ensures r.Checked? ==> (r.compliant <==> |r.issues| == 0)
    ensures r.Checked? ==> (MissingDisclosures in r.issues <==> !input.disclosureIncluded.GetOr(false))
    ensures r.Checked? ==>
      (HighRiskUndocumented in r.issues
       <==> input.recommendation.Some? && input.recommendation.value.riskScore.GetOr(0) > DocumentationRiskThreshold)
    ensures r.MissingAssetClass? <==>
              && input.recommendation.Some? && input.recommendation.value.allocation.Some?
              && ConcentrationIssues(input.recommendation.value.allocation.value).None?
    ensures r.Checked? <==> ConcentrationIssues(AllocationOf(input)).Some?
  {
    var strategy := input.recommendation.GetOr(StrategyEntry(None, None));
    var allocation := strategy.allocation.GetOr([]);
    match ConcentrationIssues(allocation)
    case None => MissingAssetClass
    case Some(concentration) =>
      var disclosure := if !input.disclosureIncluded.GetOr(false) then [MissingDisclosures] else [];
      var risk := if strategy.riskScore.GetOr(0) > DocumentationRiskThreshold then [HighRiskUndocumented] else [];
      var issues := disclosure + concentration + risk;
      assert forall k :: 0 <= k < |concentration| ==> concentration[k] != MissingDisclosures && concentration[k] != HighRiskUndocumented;
      assert forall i :: i in issues <==> i in disclosure || i in concentration || i in risk;
      Checked(|issues| == 0, issues)
  }

  /** A checked recommendation's issues: one per missing disclosure, over-limit entry
      and undocumented high risk, with the concentration warnings exactly those for
      the over-limit entries. */
  lemma {:induction false} CheckedIssues(input: ComplianceInput)
    requires CheckRegulatoryCompliance(input).Checked?
    ensures |CheckRegulatoryCompliance(input).issues|
            == (if input.disclosureIncluded.GetOr(false) then 0 else 1)
               + Count(AllocationOf(input), OverSingleLimit)
               + (if RiskOf(input) > DocumentationRiskThreshold then 1 else 0)
    ensures forall i :: 0 <= i < |AllocationOf(input)| && OverSingleLimit(AllocationOf(input)[i]) ==>
              AllocationOf(input)[i].assetClass.Some?
              && WarningFor(AllocationOf(input)[i]) in CheckRegulatoryCompliance(input).issues
    ensures forall w :: w in CheckRegulatoryCompliance(input).issues && w.ConcentrationWarning? ==>
              exists i :: 0 <= i < |AllocationOf(input)| && OverSingleLimit(AllocationOf(input)[i])
                          && AllocationOf(input)[i].assetClass.Some? && w == WarningFor(AllocationOf(input)[i])
  {
    var xs := AllocationOf(input);
    ConcentrationIssuesMembers(xs);
    var concentration := ConcentrationIssues(xs).value;
    var disclosure := if !input.disclosureIncluded.GetOr(false) then [MissingDisclosures] else [];
    var risk := if RiskOf(input) > DocumentationRiskThreshold then [HighRiskUndocumented] else [];
    assert CheckRegulatoryCompliance(input).issues == disclosure + concentration + risk;
  }

  /** A checked recommendation is compliant exactly when its disclosures are
      included, no entry exceeds 25% and its risk score is at most 8. */
  lemma {:induction false} CompliantIffWithinRules(input: ComplianceInput)
    requires CheckRegulatoryCompliance(input).Checked?
    ensures CheckRegulatoryCompliance(input).compliant
            <==> && input.disclosureIncluded.GetOr(false)
                 && (forall i :: 0 <= i < |AllocationOf(input)| ==> !OverSingleLimit(AllocationOf(input)[i]))
                 && RiskOf(input) <= DocumentationRiskThreshold
  {
    CheckedIssues(input);
    CountNoneIff(AllocationOf(input), OverSingleLimit);
  }

  /** A strategy's allocation as the entries the check reads. */
  function Entries(a: seq<Allocation>): (xs: seq<AllocationEntry>)
    ensures |xs| == |a|
    ensures forall i :: 0 <= i < |a| ==> xs[i] == AllocationEntry(Some(a[i].assetClass), Some(a[i].percentage))
  {
    seq(|a|, i requires 0 <= i < |a| => AllocationEntry(Some(a[i].assetClass), Some(a[i].percentage)))
  }

  /** The generated recommendation in the shape the check reads. */
  function AsComplianceInput(g: GeneratedRecommendation): (input: ComplianceInput)
    ensures input.disclosureIncluded == Some(g.disclosureIncluded)
    ensures input.recommendation.Some? && input.recommendation.value.riskScore == Some(g.strategy.riskScore)
    ensures input.recommendation.value.allocation.Some? && |input.recommendation.value.allocation.value| == |g.strategy.allocation|
  {
    ComplianceInput(Some(g.disclosureIncluded), Some(StrategyEntry(Some(Entries(g.strategy.allocation)), Some(g.strategy.riskScore))))
  }

  /** The entries each strategy puts over the limit, in allocation order. */
  function OverLimitEntries(timelineYears: int): seq<Issue> {
    if timelineYears > 20 then [ConcentrationWarning("US Stocks", 50)]
    else if timelineYears > 10 then [ConcentrationWarning("US Stocks", 40), ConcentrationWarning("Bonds", 30)]
    else [ConcentrationWarning("Bonds", 50)]
  }

  /** One more entry of `ConcentrationIssues` over a prefix. */
  lemma ConcentrationIssuesStep(xs: seq<AllocationEntry>, n: nat)
    requires n < |xs| && xs[n].assetClass.Some? && xs[n].percentage.Some?
    requires ConcentrationIssues(xs[..n]).Some?
    ensures ConcentrationIssues(xs[..n + 1])
            == if xs[n].percentage.value <= SingleSecurityLimit then ConcentrationIssues(xs[..n])
               else Some(ConcentrationIssues(xs[..n]).value + [ConcentrationWarning(xs[n].assetClass.value, xs[n].percentage.value)])
  {
    assert xs[..n + 1][..n] == xs[..n];
    assert xs[..n + 1][n] == xs[n];
  }

  lemma GrowthConcentration()
    ensures ConcentrationIssues(Entries(GrowthFocused.allocation)) == Some([ConcentrationWarning("US Stocks", 50)])
  {
    var xs := Entries(GrowthFocused.allocation);
    assert xs[..0] == [] && xs[..4] == xs;
    ConcentrationIssuesStep(xs, 0);
    assert [] + [ConcentrationWarning("US Stocks", 50)] == [ConcentrationWarning("US Stocks", 50)];
    ConcentrationIssuesStep(xs, 1);
    ConcentrationIssuesStep(xs, 2);
    ConcentrationIssuesStep(xs, 3);
  }

  lemma BalancedConcentration()
    ensures ConcentrationIssues(Entries(BalancedGrowth.allocation))
            == Some([ConcentrationWarning("US Stocks", 40), ConcentrationWarning("Bonds", 30)])
  {
    var xs := Entries(BalancedGrowth.allocation);
    var us40, bonds30 := ConcentrationWarning("US Stocks", 40), ConcentrationWarning("Bonds", 30);
    assert xs[..0] == [] && xs[..4] == xs;
    ConcentrationIssuesStep(xs, 0);
    assert [] + [us40] == [us40];
    ConcentrationIssuesStep(xs, 1);
    ConcentrationIssuesStep(xs, 2);
    assert [us40] + [bonds30] == [us40, bonds30];
    ConcentrationIssuesStep(xs, 3);
  }

  lemma PreservationConcentration()
    ensures ConcentrationIssues(Entries(CapitalPreservation.allocation)) == Some([ConcentrationWarning("Bonds", 50)])
  {
    var xs := Entries(CapitalPreservation.allocation);
    assert xs[..0] == [] && xs[..4] == xs;
    ConcentrationIssuesStep(xs, 0);
    ConcentrationIssuesStep(xs, 1);
    assert [] + [ConcentrationWarning("Bonds", 50)] == [ConcentrationWarning("Bonds", 50)];
    ConcentrationIssuesStep(xs, 2);
    ConcentrationIssuesStep(xs, 3);
  }

  /** Each strategy's over-limit entries, as the concentration check lists them. */
  lemma StrategyConcentration(timelineYears: int)
    ensures ConcentrationIssues(Entries(StrategyFor(timelineYears).allocation)) == Some(OverLimitEntries(timelineYears))
  {
    if timelineYears > 20 { GrowthConcentration(); }
    else if timelineYears > 10 { BalancedConcentration(); }
    else { PreservationConcentration(); }
  }

  /** Every strategy the generator offers puts more than 25% into US stocks or
      bonds, so the check flags every generated recommendation, with exactly those
      entries as its issues. */
  lemma {:induction false} GeneratedRecommendationsAreFlagged(clientId: string, goal: string, timelineYears: int)
    requires GenerateRecommendation(clientId, goal, timelineYears).Some?
    ensures CheckRegulatoryCompliance(AsComplianceInput(GenerateRecommendation(clientId, goal, timelineYears).value))
            == Checked(false, OverLimitEntries(timelineYears))
  {
    var g := GenerateRecommendation(clientId, goal, timelineYears).value;
    StrategyConcentration(timelineYears);
    assert g.strategy == StrategyFor(timelineYears);
  }
}

=== FILE: guardrails.dfy ===
/** The guardrail callbacks and the account tools of the customer-support agent
    (chapter-3/08_guardrails_agent/agent.py). Regular-expression search and
    substitution are not modelled: the callbacks take them as function
    parameters, `search(pattern, text)` for `re.search(..., re.IGNORECASE)` and
    `substitute(pattern, replacement, text)` for `re.sub`. */
module Guardrails {
  import opened Common
  import opened Text

  // ---------------------------------------------------------------------------
  // Configuration
  // ---------------------------------------------------------------------------

  const BlockedInputPatterns: seq<string> := [
    "\\b(hack|exploit|bypass)\\b",
    "\\b(password|credential|secret)\\s*(is|:)",
    "ignore\\s+(previous|all)\\s+instructions"]

  datatype Redaction = Redaction(pattern: string, replacement: string)

  const SsnPattern: string := "\\b\\d{3}-\\d{2}-\\d{4}\\b"

  const OutputRedactions: seq<Redaction> := [
    Redaction(SsnPattern, "[SSN REDACTED]"),
    Redaction("\\b\\d{16}\\b", "[CARD REDACTED]"),
    Redaction("\\b[A-Za-z0-9._%+-]+@[A-Za-z0-9.-]+\\.[A-Z|a-z]{2,}\\b", "[EMAIL REDACTED]")]

  const SensitiveTools: seq<string> := ["process_refund", "update_account"]
  const MaxInputLength: nat := 2000
  const RefundApprovalLimit: real := 500.0

  type Search = (string, string) -> bool
  type Substitute = (string, string, string) -> string

  // ---------------------------------------------------------------------------
  // Model requests and responses
  // ---------------------------------------------------------------------------

  /** A content part: its text (absent on function-call, function-response or
      media parts) and whatever else it carries. */
  datatype Part = Part(text: Option<string>, payload: Option<string>)

  datatype Content = Content(role: string, parts: Option<seq<Part>>)

  datatype ModelResponse = ModelResponse(content: Option<Content>)

  const TooLongMessage: string :=
    "I apologize, but your message is too long. Please limit your message to 2000 characters."
  const BlockedMessage: string :=
    "I'm sorry, but I can't process that request. If you have a legitimate customer service question, please rephrase it and I'll be happy to help."

  function RefusalResponse(message: string): ModelResponse {
    ModelResponse(Some(Content("model", Some([Part(Some(message), None)]))))
  }

  /** The callback's verdict: let the request through, answer in the model's
      place, or fail with the exception the callback raises. */
  datatype Verdict = Continue | Answer(response: ModelResponse) | Raises

  /** The text of the parts that carry text, concatenated in order. */
  function TextOf(parts: seq<Part>): (t: string)
    ensures (forall i :: 0 <= i < |parts| ==> parts[i].text.None?) ==> t == ""
  {
    if |parts| == 0 then ""
    else TextOf(parts[..|parts| - 1]) + parts[|parts| - 1].text.GetOr("")
  }

  predicate MatchesBlockedPattern(search: Search, text: string) {
    exists k :: 0 <= k < |BlockedInputPatterns| && search(BlockedInputPatterns[k], text)
  }

  /** The refusal decided from the user's text: length first, then the patterns
      searched in the lower-cased text. */
  function Screen(search: Search, text: string): (v: Verdict)
    ensures v != Raises
    ensures |text| > MaxInputLength ==> v == Answer(RefusalResponse(TooLongMessage))
    ensures |text| <= MaxInputLength ==>
      (v == Answer(RefusalResponse(BlockedMessage)) <==> MatchesBlockedPattern(search, Lower(text)))
    ensures v == Continue <==> |text| <= MaxInputLength && !MatchesBlockedPattern(search, Lower(text))
  {
    if |text| > MaxInputLength then Answer(RefusalResponse(TooLongMessage))
    else if MatchesBlockedPattern(search, Lower(text)) then Answer(RefusalResponse(BlockedMessage))
    else Continue
  }

  /** Some part carries no text. */
  predicate HasTextlessPart(parts: seq<Part>) {
    exists i :: 0 <= i < |parts| && parts[i].text.None?
  }

  /** `before_model_callback` as written: every part passes the `hasattr(part, 'text')`
      test, because the SDK's part type always has that attribute, so a part whose
      text is `None` makes `user_text += part.text` raise. */
  function BeforeModelAsWritten(search: Search, contents: seq<Content>): (v: Verdict)
    ensures |contents| == 0 ==> v == Continue
    ensures |contents| > 0 && (contents[|contents| - 1].parts.None? || contents[|contents| - 1].parts == Some([])) ==> v == Continue
    ensures v == Raises <==>
      |contents| > 0 && contents[|contents| - 1].parts.Some? && HasTextlessPart(contents[|contents| - 1].parts.value)
  {
    if |contents| == 0 then Continue
    else
      var last := contents[|contents| - 1];
      if last.parts.None? || |last.parts.value| == 0 then Continue
      else if HasTextlessPart(last.parts.value) then Raises
      else Screen(search, TextOf(last.parts.value))
  }

  /** `before_model_callback` with text-less parts skipped, as the attribute test
      intends: no contents or no parts pass through; otherwise the concatenated
      text is screened. */
  function BeforeModel(search: Search, contents: seq<Content>): (v: Verdict)
    ensures v != Raises
    ensures |contents| == 0 ==> v == Continue
    ensures |contents| > 0 && (contents[|contents| - 1].parts.None? || contents[|contents| - 1].parts == Some([])) ==> v == Continue
    ensures |contents| > 0 && contents[|contents| - 1].parts.Some? && |contents[|contents| - 1].parts.value| > 0 ==>
      v == Screen(search, TextOf(contents[|contents| - 1].parts.value))
  {
    if |contents| == 0 then Continue
    else
      var last := contents[|contents| - 1];
      if last.parts.None? || |last.parts.value| == 0 then Continue
      else Screen(search, TextOf(last.parts.value))
  }

  /** The length check comes first: an over-long message is refused the same way
      whatever the patterns would say. */
  lemma LengthCheckFirst(s1: Search, s2: Search, contents: seq<Content>)
    requires |contents| > 0 && contents[|contents| - 1].parts.Some?
    requires |TextOf(contents[|contents| - 1].parts.value)| > MaxInputLength
    ensures BeforeModel(s1, contents) == BeforeModel(s2, contents) == Answer(RefusalResponse(TooLongMessage))
  {
  }

  /** Both versions agree whenever every part of the last message has text. */
  lemma BeforeModelVersionsAgree(search: Search, contents: seq<Content>)
    requires |contents| > 0 && contents[|contents| - 1].parts.Some?
    requires !HasTextlessPart(contents[|contents| - 1].parts.value)
    ensures BeforeModelAsWritten(search, contents) == BeforeModel(search, contents)
  {
  }

  /** A message ending in a function-response part (no text) makes the callback
      as written raise, while the intended callback screens the remaining text. */
  lemma FunctionResponseMakesCallbackRaise(search: Search)
    ensures BeforeModelAsWritten(search, [Content("user", Some([Part(None, Some("function_response"))]))]) == Raises
    ensures BeforeModel(search, [Content("user", Some([Part(None, Some("function_response"))]))]) == Screen(search, "")
  {
    var parts := [Part(None, Some("function_response"))];
    assert parts[0].text.None?;
  }

  // ---------------------------------------------------------------------------
  // Output redaction
  // ---------------------------------------------------------------------------

  /** The redactions applied one after another; `changed` records whether some
      step changed the text it was given. */
  datatype Redacted = Redacted(text: string, changed: bool)

  function RedactChain(substitute: Substitute, rules: seq<Redaction>, text: string): (r: Redacted)
    ensures |rules| == 0 ==> r == Redacted(text, false)
    ensures !r.changed ==> r.text == text
    decreases |rules|
  {
    if |rules| == 0 then Redacted(text, false)
    else
      var step := substitute(rules[0].pattern, rules[0].replacement, text);
      var rest := RedactChain(substitute, rules[1..], step);
      Redacted(rest.text, rest.changed || step != text)
  }

  /** The parts after redaction: each part with non-empty text is rebuilt from its
      redacted text alone; other parts are kept. */
  function RedactParts(substitute: Substitute, parts: seq<Part>): (r: (seq<Part>, bool))
    ensures |r.0| == |parts|
    ensures forall i :: 0 <= i < |parts| && (parts[i].text.None? || parts[i].text == Some("")) ==> r.0[i] == parts[i]
    ensures forall i :: 0 <= i < |parts| && parts[i].text.Some? && parts[i].text != Some("") ==>
      r.0[i] == Part(Some(RedactChain(substitute, OutputRedactions, parts[i].text.value).text), None)
    ensures r.1 <==> exists i :: 0 <= i < |parts| && parts[i].text.Some? && parts[i].text != Some("")
                              && RedactChain(substitute, OutputRedactions, parts[i].text.value).changed
  {
    if |parts| == 0 then ([], false)
    else
      var (init, changed) := RedactParts(substitute, parts[..|parts| - 1]);
      var p := parts[|parts| - 1];
      assert forall i :: 0 <= i < |parts| - 1 ==> parts[..|parts| - 1][i] == parts[i];
      if p.text.Some? && p.text != Some("") then
        var red := RedactChain(substitute, OutputRedactions, p.text.value);
        (init + [Part(Some(red.text), None)], changed || red.changed)
      else (init + [p], changed)
  }

  /** `after_model_callback`: the parts are replaced by their redacted versions
      only if some redaction changed some text; otherwise the response is
      returned as it came. */
  function AfterModel(substitute: Substitute, response: ModelResponse): (r: ModelResponse)
    ensures response.content.None? || response.content.value.parts.None? || response.content.value.parts == Some([]) ==> r == response
    ensures r.content.Some? <==> response.content.Some?
    ensures r.content.Some? ==> r.content.value.role == response.content.value.role
    ensures r != response ==>
      && response.content.value.parts.Some?
      && r.content.value.parts == Some(RedactParts(substitute, response.content.value.parts.value).0)
      && RedactParts(substitute, response.content.value.parts.value).1
    ensures response.content.Some? && response.content.value.parts.Some? ==>
      var redacted := RedactParts(substitute, response.content.value.parts.value);
      (redacted.1 ==> r == ModelResponse(Some(response.content.value.(parts := Some(redacted.0)))))
      && (!redacted.1 ==> r == response)
  {
    match response.content
    case None => response
    case Some(c) =>
      if c.parts.None? || |c.parts.value| == 0 then response
      else
        var (parts, modified) := RedactParts(substitute, c.parts.value);
        if modified then ModelResponse(Some(c.(parts := Some(parts)))) else response
  }

  /** When no substitution changes anything, responses pass through untouched. */
  lemma {:induction false} AfterModelIdentity(substitute: Substitute, response: ModelResponse)
    requires forall p, rep, t :: substitute(p, rep, t) == t
    ensures AfterModel(substitute, response) == response
  {
    if response.content.Some? && response.content.value.parts.Some? {
      var parts := response.content.value.parts.value;
      forall i | 0 <= i < |parts| && parts[i].text.Some? && parts[i].text != Some("")
        ensures !RedactChain(substitute, OutputRedactions, parts[i].text.value).changed
      {
        ChainIdentity(substitute, OutputRedactions, parts[i].text.value);
      }
    }
  }

  lemma {:induction false} ChainIdentity(substitute: Substitute, rules: seq<Redaction>, text: string)
    requires forall p, rep, t :: substitute(p, rep, t) == t
    ensures RedactChain(substitute, rules, text) == Redacted(text, false)
    decreases |rules|
  {
    if |rules| > 0 {
      ChainIdentity(substitute, rules[1..], text);
    }
  }

  // ---------------------------------------------------------------------------
  // Tool callbacks
  // ---------------------------------------------------------------------------

  const RefundApprovalMessage: string :=
    "Refunds over $500 require manager approval. Please contact support at 1-800-EXAMPLE."

  /** `before_tool_callback`: `Some(error)` skips the tool. Only refunds above
      $500 are stopped; a missing amount counts as 0. */
  function BeforeTool(toolName: string, amount: Option<real>): (r: Option<string>)
    ensures r.Some? <==> toolName == "process_refund" && amount.GetOr(0.0) > RefundApprovalLimit
    ensures r.Some? ==> r.value == RefundApprovalMessage && toolName in SensitiveTools
  {
    if toolName in SensitiveTools && toolName == "process_refund" && amount.GetOr(0.0) > RefundApprovalLimit
    then Some(RefundApprovalMessage)
    else None
  }

  /** A refund the callback stops stays stopped for any larger amount. */
  lemma BeforeToolMonotone(toolName: string, a: real, b: real)
    requires a <= b && BeforeTool(toolName, Some(a)).Some?
    ensures BeforeTool(toolName, Some(b)) == BeforeTool(toolName, Some(a))
  {
  }

  /** A tool result value: a string, or anything else (left alone by redaction). */
  datatype ResultValue = Str(s: string) | NonString(repr: string)

  type ToolResult = map<string, ResultValue>

  /** `after_tool_callback` as written: each pattern is substituted into the
      original value and stored, so only the last redaction takes effect. */
  function AfterToolAsWritten(substitute: Substitute, result: ToolResult): (r: ToolResult)
    ensures r.Keys == result.Keys
    ensures forall k :: k in result && result[k].NonString? ==> r[k] == result[k]
    ensures forall k :: k in result && result[k].Str? ==>
      r[k] == Str(substitute(OutputRedactions[2].pattern, OutputRedactions[2].replacement, result[k].s))
  {
    map k | k in result ::
      if result[k].Str? then Str(LastOnly(substitute, OutputRedactions, result[k].s)) else result[k]
  }

  /** The effect of the source's inner loop: every rule is applied to the same
      original value and each write replaces the previous one. */
  function LastOnly(substitute: Substitute, rules: seq<Redaction>, value: string): (r: string)
    ensures |rules| == 0 ==> r == value
    ensures |rules| > 0 ==> r == substitute(rules[|rules| - 1].pattern, rules[|rules| - 1].replacement, value)
  {
    if |rules| == 0 then value
    else substitute(rules[|rules| - 1].pattern, rules[|rules| - 1].replacement, value)
  }

  /** `after_tool_callback` with the redactions chained, as `after_model_callback`
      does: every string value goes through all three substitutions in turn. */
  function AfterTool(substitute: Substitute, result: ToolResult): (r: ToolResult)
    ensures r.Keys == result.Keys
    ensures forall k :: k in result && result[k].NonString? ==> r[k] == result[k]
    ensures forall k :: k in result && result[k].Str? ==>
      r[k] == Str(RedactChain(substitute, OutputRedactions, result[k].s).text)
  {
    map k | k in result ::
      if result[k].Str? then Str(RedactChain(substitute, OutputRedactions, result[k].s).text) else result[k]
  }

  /** A stand-in for `re.sub` that knows one fact: the SSN pattern turns the bare
      string "123-45-6789" into its replacement, and no other pattern changes it. */
  function SsnOnlySubstitute(pattern: string, replacement: string, text: string): string {
    if pattern == SsnPattern && text == "123-45-6789" then replacement else text
  }

  /** With the callback as written, an SSN in a tool result is returned in the
      clear; with the chained callback it is redacted. */
  lemma SsnSurvivesAfterToolAsWritten()
    ensures AfterToolAsWritten(SsnOnlySubstitute, map["ssn" := Str("123-45-6789")])["ssn"] == Str("123-45-6789")
    ensures AfterTool(SsnOnlySubstitute, map["ssn" := Str("123-45-6789")])["ssn"] == Str("[SSN REDACTED]")
  {
    var rules := OutputRedactions;
    assert rules[2].pattern != SsnPattern;
    SsnOnlyLeavesOtherText(rules[1..], "[SSN REDACTED]");
  }

  lemma {:induction false} SsnOnlyLeavesOtherText(rules: seq<Redaction>, text: string)
    requires text != "123-45-6789"
    ensures RedactChain(SsnOnlySubstitute, rules, text).text == text
    decreases |rules|
  {
    if |rules| > 0 {
      SsnOnlyLeavesOtherText(rules[1..], text);
    }
  }

  // ---------------------------------------------------------------------------
  // Account tools
  // ---------------------------------------------------------------------------

  const AllowedFields: seq<string> := ["email", "phone", "address", "name"]

  datatype UpdateReply = FieldNotAllowed(field: string) | Updated(field: string)

  /** `update_account`: the field name is matched ignoring case and stored
      lower-cased in the `user:account` record; a refused field changes nothing. */
  function UpdateAccount(account: map<string, string>, field: string, newValue: string): (r: (map<string, string>, UpdateReply))
    ensures r.1.Updated? <==> Lower(field) in AllowedFields
    ensures r.1.FieldNotAllowed? ==> r.0 == account
    ensures r.1.Updated? ==>
      && r.1.field == field
      && Lower(field) in r.0 && r.0[Lower(field)] == newValue
      && r.0.Keys == account.Keys + {Lower(field)}
      && forall k :: k in account && k != Lower(field) ==> r.0[k] == account[k]
  {
    if Lower(field) !in AllowedFields then (account, FieldNotAllowed(field))
    else (account[Lower(field) := newValue], Updated(field))
  }

  /** Updating "Email" and "EMAIL" writes the same stored key. */
  lemma UpdateAccountIgnoresCase(account: map<string, string>, f: string, g: string, v: string)
    requires Lower(f) == Lower(g)
    ensures UpdateAccount(account, f, v).0 == UpdateAccount(account, g, v).0
  {
  }

  /** Repeating an update changes nothing more. */
  lemma UpdateAccountIdempotent(account: map<string, string>, field: string, v: string)
    ensures UpdateAccount(UpdateAccount(account, field, v).0, field, v) == UpdateAccount(account, field, v)
  {
    var once := UpdateAccount(account, field, v).0;
    if Lower(field) in AllowedFields {
      assert once[Lower(field) := v] == once;
    }
  }

  datatype DeleteReply = ConfirmationRequired(dataType: string) | Deleted(dataType: string, at: Instant)

  /** `delete_account_data`: nothing is deleted without `confirm`. */
  function DeleteAccountData(dataType: string, confirm: bool, now: Instant): (r: DeleteReply)
    ensures r.ConfirmationRequired? <==> !confirm
    ensures r.dataType == dataType
    ensures r.Deleted? ==> r.at == now
  {
    if !confirm then ConfirmationRequired(dataType) else Deleted(dataType, now)
  }

  /** An unconfirmed request is refused the same way whenever it arrives. */
  lemma UnconfirmedDeleteIgnoresClock(dataType: string, t1: Instant, t2: Instant)
    ensures DeleteAccountData(dataType, false, t1) == DeleteAccountData(dataType, false, t2) == ConfirmationRequired(dataType)
  {
  }
}

=== FILE: portfolio_metrics.dfy ===
/** Computation-based portfolio metrics and the judge-score helpers
    (chapter-5/02_custom_eval/custom_metrics.py): compliance rules with tiered
    scores, a diversification score, a risk-appropriateness score, parsing of
    a judge model's rating, and the aggregate of several metric scores. */
module PortfolioMetrics {
  import opened Common
  import opened Text

  // ---------------------------------------------------------------------------
  // Portfolio compliance
  // ---------------------------------------------------------------------------

  /** A holding dictionary: `symbol`, `percentage` and `asset_class` may be missing. */
  datatype Holding = Holding(symbol: Option<string>, percentage: Option<real>, assetClass: Option<string>)

  /** The recommendation fields the metrics read; a missing key is `None`. */
  datatype Recommendation = Recommendation(
    riskScore: Option<int>, holdings: Option<seq<Holding>>, disclosureIncluded: Option<bool>)
  {
    /** `recommendation.get("holdings", [])` */
    function Holdings(): seq<Holding> {
      holdings.GetOr([])
    }
  }

  /** The client fields the metrics read; a missing key is `None`. */
  datatype ClientContext = ClientContext(
    maxRiskTolerance: Option<int>, riskProfile: Option<string>, timelineYears: Option<int>)

  /** The four kinds of compliance violation, carrying what the message reports. */
  datatype Violation =
    | RiskAboveTolerance(risk: int, tolerance: int)
    | ConcentrationExceeded(symbol: string, percentage: real)
    | MissingDisclosure
    | UnsuitableForConservative(symbol: string)

  /** The two kinds of compliance warning. */
  datatype Warning =
    | NearConcentrationLimit(symbol: string, percentage: real)
    | AllocationNotWhole(total: real)

  datatype ComplianceReport = ComplianceReport(
    score: real, compliant: bool, violations: seq<Violation>, warnings: seq<Warning>)

  const DefaultRiskScore: int := 0
  const DefaultMaxRiskTolerance: int := 7
  /** SEC-style single-position limit, in percent. */
  const ConcentrationLimit: real := 25.0
  /** Positions above this (and not above the limit) only warn. */
  const ConcentrationWarningLevel: real := 20.0
  const HighRiskSymbols: seq<string> := ["ARKK", "MEME", "SPAC"]
  const AllocationTolerance: real := 0.1

  function Pct(h: Holding): real {
    h.percentage.GetOr(0.0)
  }

  /** How a single position relates to the concentration limit. */
  datatype Concentration = WithinLimit | NearLimit | OverLimit

  function ClassifyPosition(h: Holding): (c: Concentration)
    ensures c == OverLimit <==> Pct(h) > ConcentrationLimit
    ensures c == NearLimit <==> ConcentrationWarningLevel < Pct(h) <= ConcentrationLimit
    ensures c == WithinLimit <==> Pct(h) <= ConcentrationWarningLevel
  {
    if Pct(h) > ConcentrationLimit then OverLimit
    else if Pct(h) > ConcentrationWarningLevel then NearLimit
    else WithinLimit
  }

  predicate IsOverLimit(h: Holding) {
    ClassifyPosition(h) == OverLimit
  }

  predicate IsNearLimit(h: Holding) {
    ClassifyPosition(h) == NearLimit
  }

  /** A holding's symbol defaults to "Unknown" in the concentration messages. */
  function OverLimitViolation(h: Holding): Violation {
    ConcentrationExceeded(h.symbol.GetOr("Unknown"), Pct(h))
  }

  function NearLimitWarning(h: Holding): Warning {
    NearConcentrationLimit(h.symbol.GetOr("Unknown"), Pct(h))
  }

  /** One violation per position over the limit, in holding order. */
  function ConcentrationViolations(hs: seq<Holding>): (vs: seq<Violation>)
    ensures |vs| == Count(hs, IsOverLimit)
    ensures forall v :: v in vs ==> v.ConcentrationExceeded?
  {
    if |hs| == 0 then []
    else
      var h := hs[|hs| - 1];
      ConcentrationViolations(hs[..|hs| - 1]) + (if IsOverLimit(h) then [OverLimitViolation(h)] else [])
  }

  /** The concentration violations are exactly those of the over-limit holdings. */
  lemma {:induction false} ConcentrationViolationsMembers(hs: seq<Holding>)
    ensures forall i :: 0 <= i < |hs| && IsOverLimit(hs[i]) ==> OverLimitViolation(hs[i]) in ConcentrationViolations(hs)
    ensures forall v :: v in ConcentrationViolations(hs) ==>
              exists i :: 0 <= i < |hs| && IsOverLimit(hs[i]) && v == OverLimitViolation(hs[i])
    decreases |hs|
  {
    if |hs| > 0 {
      var init := hs[..|hs| - 1];
      ConcentrationViolationsMembers(init);
      assert forall i :: 0 <= i < |init| ==> init[i] == hs[i];
    }
  }

  /** One warning per position near (but not over) the limit, in holding order. */
  function NearLimitWarnings(hs: seq<Holding>): (ws: seq<Warning>)
    ensures |ws| == Count(hs, IsNearLimit)
    ensures forall w :: w in ws ==> w.NearConcentrationLimit?
  {
    if |hs| == 0 then []
    else
      var h := hs[|hs| - 1];
      NearLimitWarnings(hs[..|hs| - 1]) + (if IsNearLimit(h) then [NearLimitWarning(h)] else [])
  }

  /** The near-limit warnings are exactly those of the holdings in (20, 25]. */
  lemma {:induction false} NearLimitWarningsMembers(hs: seq<Holding>)
    ensures forall i :: 0 <= i < |hs| && IsNearLimit(hs[i]) ==> NearLimitWarning(hs[i]) in NearLimitWarnings(hs)
    ensures forall w :: w in NearLimitWarnings(hs) ==>
              exists i :: 0 <= i < |hs| && IsNearLimit(hs[i]) && w == NearLimitWarning(hs[i])
    decreases |hs|
  {
    if |hs| > 0 {
      var init := hs[..|hs| - 1];
      NearLimitWarningsMembers(init);
      assert forall i :: 0 <= i < |init| ==> init[i] == hs[i];
    }
  }

  /** A missing symbol reads as "" for the high-risk test, so it is never high-risk. */
  predicate IsHighRisk(h: Holding) {
    h.symbol.GetOr("") in HighRiskSymbols
  }

  function HighRiskViolation(h: Holding): Violation {
    UnsuitableForConservative(h.symbol.GetOr(""))
  }

  /** One violation per high-risk holding (only applied to conservative clients). */
  function HighRiskViolations(hs: seq<Holding>): (vs: seq<Violation>)
    ensures |vs| == Count(hs, IsHighRisk)
    ensures forall v :: v in vs ==> v.UnsuitableForConservative?
  {
    if |hs| == 0 then []
    else
      var h := hs[|hs| - 1];
      HighRiskViolations(hs[..|hs| - 1]) + (if IsHighRisk(h) then [HighRiskViolation(h)] else [])
  }

  /** The high-risk violations are exactly those of the ARKK, MEME and SPAC holdings. */
  lemma {:induction false} HighRiskViolationsMembers(hs: seq<Holding>)
    ensures forall i :: 0 <= i < |hs| && IsHighRisk(hs[i]) ==> HighRiskViolation(hs[i]) in HighRiskViolations(hs)
    ensures forall v :: v in HighRiskViolations(hs) ==>
              exists i :: 0 <= i < |hs| && IsHighRisk(hs[i]) && v == HighRiskViolation(hs[i])
    decreases |hs|
  {
    if |hs| > 0 {
      var init := hs[..|hs| - 1];
      HighRiskViolationsMembers(init);
      assert forall i :: 0 <= i < |init| ==> init[i] == hs[i];
    }
  }

  function Percentages(hs: seq<Holding>): seq<real> {
    seq(|hs|, i requires 0 <= i < |hs| => Pct(hs[i]))
  }

  function Abs(x: real): real {
    if x < 0.0 then -x else x
  }

  /** The recommendation's risk score (default 0) exceeds the client's tolerance (default 7). */
  predicate RiskExceeded(rec: Recommendation, client: ClientContext) {
    rec.riskScore.GetOr(DefaultRiskScore) > client.maxRiskTolerance.GetOr(DefaultMaxRiskTolerance)
  }

  predicate IsConservative(client: ClientContext) {
    client.riskProfile == Some("conservative")
  }

  function Indicator(b: bool): nat {
    if b then 1 else 0
  }

  /** The violations in the order the rules are checked: risk, concentration,
      disclosure, then (for conservative clients) high-risk holdings. */
  function Violations(rec: Recommendation, client: ClientContext): (vs: seq<Violation>)
    ensures |vs| == Indicator(RiskExceeded(rec, client)) + Count(rec.Holdings(), IsOverLimit)
                    + Indicator(!rec.disclosureIncluded.GetOr(false))
                    + (if IsConservative(client) then Count(rec.Holdings(), IsHighRisk) else 0)
    ensures (exists v :: v in vs && v.RiskAboveTolerance?) <==> RiskExceeded(rec, client)
    ensures MissingDisclosure in vs <==> !rec.disclosureIncluded.GetOr(false)
    ensures !IsConservative(client) ==> forall v :: v in vs ==> !v.UnsuitableForConservative?
  {
    var risk := rec.riskScore.GetOr(DefaultRiskScore);
    var tolerance := client.maxRiskTolerance.GetOr(DefaultMaxRiskTolerance);
    var riskPart := if risk > tolerance then [RiskAboveTolerance(risk, tolerance)] else [];
    var concentrationPart := ConcentrationViolations(rec.Holdings());
    var disclosurePart := if !rec.disclosureIncluded.GetOr(false) then [MissingDisclosure] else [];
    var highRiskPart := if IsConservative(client) then HighRiskViolations(rec.Holdings()) else [];
    var vs := riskPart + concentrationPart + disclosurePart + highRiskPart;
    assert forall v :: v in vs <==> v in riskPart || v in concentrationPart || v in disclosurePart || v in highRiskPart;
    if risk > tolerance then
      assert RiskAboveTolerance(risk, tolerance) in vs;
      vs
    else
      assert forall v :: v in vs ==> !v.RiskAboveTolerance?;
      vs
  }

  /** The total of the percentages is more than 0.1 away from 100. */
  predicate AllocationOff(rec: Recommendation) {
    Abs(Sum(Percentages(rec.Holdings())) - 100.0) > AllocationTolerance
  }

  /** The warnings: positions near the limit, then an allocation not summing to 100%. */
  function Warnings(rec: Recommendation): (ws: seq<Warning>)
    ensures |ws| == Count(rec.Holdings(), IsNearLimit) + Indicator(AllocationOff(rec))
    ensures (exists w :: w in ws && w.AllocationNotWhole?) <==> AllocationOff(rec)
  {
    var total := Sum(Percentages(rec.Holdings()));
    var nearPart := NearLimitWarnings(rec.Holdings());
    var totalPart := if AllocationOff(rec) then [AllocationNotWhole(total)] else [];
    var ws := nearPart + totalPart;
    assert forall w :: w in ws <==> w in nearPart || w in totalPart;
    if AllocationOff(rec) then
      assert AllocationNotWhole(total) in ws;
      ws
    else
      assert forall w :: w in ws ==> !w.AllocationNotWhole?;
      ws
  }

  /** Each over-limit holding has its concentration violation and, for a
      conservative client, each high-risk holding its suitability violation; every
      such violation comes from one of those holdings. */
  lemma {:induction false} ViolationsMembers(rec: Recommendation, client: ClientContext)
    ensures forall i :: 0 <= i < |rec.Holdings()| && IsOverLimit(rec.Holdings()[i]) ==>
              OverLimitViolation(rec.Holdings()[i]) in Violations(rec, client)
    ensures forall v :: v in Violations(rec, client) && v.ConcentrationExceeded? ==>
              exists i :: 0 <= i < |rec.Holdings()| && IsOverLimit(rec.Holdings()[i]) && v == OverLimitViolation(rec.Holdings()[i])
    ensures IsConservative(client) ==>
              forall i :: 0 <= i < |rec.Holdings()| && IsHighRisk(rec.Holdings()[i]) ==>
                HighRiskViolation(rec.Holdings()[i]) in Violations(rec, client)
    ensures forall v :: v in Violations(rec, client) && v.UnsuitableForConservative? ==>
              && IsConservative(client)
              && exists i :: 0 <= i < |rec.Holdings()| && IsHighRisk(rec.Holdings()[i]) && v == HighRiskViolation(rec.Holdings()[i])
  {
    ConcentrationViolationsMembers(rec.Holdings());
    HighRiskViolationsMembers(rec.Holdings());
    var vs := Violations(rec, client);
    var risk := rec.riskScore.GetOr(DefaultRiskScore);
    var tolerance := client.maxRiskTolerance.GetOr(DefaultMaxRiskTolerance);
    var riskPart := if risk > tolerance then [RiskAboveTolerance(risk, tolerance)] else [];
    var disclosurePart := if !rec.disclosureIncluded.GetOr(false) then [MissingDisclosure] else [];
    var highRiskPart := if IsConservative(client) then HighRiskViolations(rec.Holdings()) else [];
    assert vs == riskPart + ConcentrationViolations(rec.Holdings()) + disclosurePart + highRiskPart;
    assert forall v :: v in vs <==>
      v in riskPart || v in ConcentrationViolations(rec.Holdings()) || v in disclosurePart || v in highRiskPart;
  }

  /** Each near-limit holding has its warning, and every near-limit warning comes
      from one of them. */
  lemma {:induction false} WarningsMembers(rec: Recommendation)
    ensures forall i :: 0 <= i < |rec.Holdings()| && IsNearLimit(rec.Holdings()[i]) ==>
              NearLimitWarning(rec.Holdings()[i]) in Warnings(rec)
    ensures forall w :: w in Warnings(rec) && w.NearConcentrationLimit? ==>
              exists i :: 0 <= i < |rec.Holdings()| && IsNearLimit(rec.Holdings()[i]) && w == NearLimitWarning(rec.Holdings()[i])
  {
    NearLimitWarningsMembers(rec.Holdings());
    var total := Sum(Percentages(rec.Holdings()));
    var totalPart := if AllocationOff(rec) then [AllocationNotWhole(total)] else [];
    assert Warnings(rec) == NearLimitWarnings(rec.Holdings()) + totalPart;
    assert forall w :: w in Warnings(rec) <==> w in NearLimitWarnings(rec.Holdings()) || w in totalPart;
  }

  /** `evaluate_portfolio_compliance`: any violation scores 0, warnings alone 0.75,
      a clean portfolio 1. */
  function EvaluatePortfolioCompliance(rec: Recommendation, client: ClientContext): (r: ComplianceReport)
    ensures r.violations == Violations(rec, client) && r.warnings == Warnings(rec)
    ensures r.compliant <==> |r.violations| == 0
    ensures r.score == 0.0 <==> |r.violations| > 0
    ensures r.score == 0.75 <==> |r.violations| == 0 && |r.warnings| > 0
    ensures r.score == 1.0 <==> |r.violations| == 0 && |r.warnings| == 0
  {
    var violations := Violations(rec, client);
    var warnings := Warnings(rec);
    var score := if |violations| > 0 then 0.0 else if |warnings| > 0 then 0.75 else 1.0;
    ComplianceReport(score, |violations| == 0, violations, warnings)
  }

  /** A recommendation is compliant exactly when it respects the risk tolerance,
      carries the disclosure, has no position above the concentration limit and,
      for a conservative client, holds none of the high-risk symbols. */
  lemma {:induction false} CompliantIffWithinLimits(rec: Recommendation, client: ClientContext)
    ensures EvaluatePortfolioCompliance(rec, client).compliant <==>
              && rec.riskScore.GetOr(DefaultRiskScore) <= client.maxRiskTolerance.GetOr(DefaultMaxRiskTolerance)
              && rec.disclosureIncluded.GetOr(false)
              && (forall i :: 0 <= i < |rec.Holdings()| ==> Pct(rec.Holdings()[i]) <= ConcentrationLimit)
              && (IsConservative(client) ==> forall i :: 0 <= i < |rec.Holdings()| ==> !IsHighRisk(rec.Holdings()[i]))
  {
    CountNoneIff(rec.Holdings(), IsOverLimit);
    CountNoneIff(rec.Holdings(), IsHighRisk);
  }

  // ---------------------------------------------------------------------------
  // Diversification
  // ---------------------------------------------------------------------------

  /** A holding's diversification bucket: `asset_class`, else `symbol`, else "Unknown". */
  function AssetClassOf(h: Holding): string {
    h.assetClass.GetOr(h.symbol.GetOr("Unknown"))
  }

  function AssetClasses(hs: seq<Holding>): (classes: set<string>)
    ensures forall i :: 0 <= i < |hs| ==> AssetClassOf(hs[i]) in classes
    ensures forall c :: c in classes ==> exists i :: 0 <= i < |hs| && AssetClassOf(hs[i]) == c
    ensures |classes| <= |hs|
    ensures |hs| > 0 ==> |classes| >= 1
  {
    if |hs| == 0 then {}
    else
      var rest := AssetClasses(hs[..|hs| - 1]);
      assert forall i :: 0 <= i < |hs| - 1 ==> hs[..|hs| - 1][i] == hs[i];
      rest + {AssetClassOf(hs[|hs| - 1])}
  }

  /** The running maximum of the percentages, starting from 0. */
  function MaxPosition(hs: seq<Holding>): (m: real)
    ensures m >= 0.0
    ensures forall i :: 0 <= i < |hs| ==> Pct(hs[i]) <= m
    ensures m == 0.0 || exists i :: 0 <= i < |hs| && Pct(hs[i]) == m
  {
    if |hs| == 0 then 0.0
    else
      var rest := MaxPosition(hs[..|hs| - 1]);
      assert forall i :: 0 <= i < |hs| - 1 ==> hs[..|hs| - 1][i] == hs[i];
      if Pct(hs[|hs| - 1]) > rest then Pct(hs[|hs| - 1]) else rest
  }

  function MinReal(a: real, b: real): real {
    if a <= b then a else b
  }

  function MaxReal(a: real, b: real): real {
    if a >= b then a else b
  }

  datatype Diversification = Diversification(
    score: real, numAssetClasses: nat, numHoldings: nat, maxSinglePosition: real,
    assetClassScore: real, concentrationScore: real, holdingsScore: real)

  /** Diversification of an empty portfolio, or the three component scores and their mean. */
  datatype DiversificationResult = NoHoldings | Scored(d: Diversification)
  {
    /** The reported score: 0 for an empty portfolio. */
    function Score(): real {
      if NoHoldings? then 0.0 else d.score
    }
  }

  /** The concentration score as written: no cap, so positions under 25% score above 1. */
  function ConcentrationScoreAsWritten(maxPos: real): (c: real)
    ensures c >= 0.0
    ensures c == 1.0 <==> maxPos == 25.0
    ensures c > 1.0 <==> maxPos < 25.0
    ensures c == 0.0 <==> maxPos >= 100.0
    ensures maxPos >= 0.0 ==> c <= 4.0 / 3.0
  {
    MaxReal(0.0, 1.0 - (maxPos - 25.0) / 75.0)
  }

  /** The concentration score capped at 1, like the other two components. */
  function ConcentrationScore(maxPos: real): (c: real)
    ensures 0.0 <= c <= 1.0
    ensures c == 1.0 <==> maxPos <= 25.0
    ensures c == 0.0 <==> maxPos >= 100.0
    ensures maxPos >= 25.0 ==> c == ConcentrationScoreAsWritten(maxPos)
  {
    MinReal(1.0, ConcentrationScoreAsWritten(maxPos))
  }

  /** The shared shape of both diversification variants; `concentration` scores the
      largest position. */
  function Diversify(hs: seq<Holding>, concentration: real -> real): (r: DiversificationResult)
    ensures r.NoHoldings? <==> |hs| == 0
    ensures r.Scored? ==>
      && r.d.assetClassScore == MinReal(r.d.numAssetClasses as real / 4.0, 1.0)
      && r.d.holdingsScore == MinReal(|hs| as real / 5.0, 1.0)
      && 0.0 <= r.d.assetClassScore <= 1.0
      && 0.0 <= r.d.holdingsScore <= 1.0
      && (r.d.assetClassScore == 1.0 <==> r.d.numAssetClasses >= 4)
      && (r.d.holdingsScore == 1.0 <==> |hs| >= 5)
      && r.d.maxSinglePosition == MaxPosition(hs)
      && r.d.concentrationScore == concentration(MaxPosition(hs))
      && r.d.score * 3.0 == r.d.assetClassScore + r.d.concentrationScore + r.d.holdingsScore
      && r.d.numAssetClasses == |AssetClasses(hs)|
      && 1 <= r.d.numAssetClasses <= r.d.numHoldings == |hs|
  {
    if |hs| == 0 then NoHoldings
    else
      var classes := |AssetClasses(hs)|;
      var maxPos := MaxPosition(hs);
      var classScore := MinReal(classes as real / 4.0, 1.0);
      var concentrationScore := concentration(maxPos);
      var holdingsScore := MinReal(|hs| as real / 5.0, 1.0);
      Scored(Diversification(
        (classScore + concentrationScore + holdingsScore) / 3.0,
        classes, |hs|, maxPos, classScore, concentrationScore, holdingsScore))
  }

  /** The largest score the uncapped formula can give: (1 + 4/3 + 1) / 3, approached
      by ever more, ever smaller positions. */
  const AsWrittenCeiling: real := 10.0 / 9.0

  /** `evaluate_diversification` as written (scores before rounding to two decimals). */
  function EvaluateDiversificationAsWritten(hs: seq<Holding>): (r: DiversificationResult)
    ensures r.NoHoldings? <==> |hs| == 0
    ensures r.Scored? ==>
      && r.d.numAssetClasses == |AssetClasses(hs)|
      && r.d.numHoldings == |hs|
      && r.d.maxSinglePosition == MaxPosition(hs)
      && r.d.assetClassScore == MinReal(r.d.numAssetClasses as real / 4.0, 1.0)
      && r.d.holdingsScore == MinReal(|hs| as real / 5.0, 1.0)
      && r.d.concentrationScore == ConcentrationScoreAsWritten(r.d.maxSinglePosition)
      && r.d.score * 3.0 == r.d.assetClassScore + r.d.concentrationScore + r.d.holdingsScore
    ensures 0.0 <= r.Score() <= AsWrittenCeiling
  {
    Diversify(hs, ConcentrationScoreAsWritten)
  }

  /** `evaluate_diversification` with the concentration component capped at 1, which
      keeps the overall score in [0, 1]. */
  function EvaluateDiversification(hs: seq<Holding>): (r: DiversificationResult)
    ensures r.NoHoldings? <==> |hs| == 0
    ensures 0.0 <= r.Score() <= 1.0
    ensures r.Scored? ==>
      && r.d.numAssetClasses == |AssetClasses(hs)|
      && r.d.numHoldings == |hs|
      && r.d.maxSinglePosition == MaxPosition(hs)
      && r.d.assetClassScore == MinReal(r.d.numAssetClasses as real / 4.0, 1.0)
      && r.d.holdingsScore == MinReal(|hs| as real / 5.0, 1.0)
      && r.d.concentrationScore == ConcentrationScore(r.d.maxSinglePosition)
      && r.d.score * 3.0 == r.d.assetClassScore + r.d.concentrationScore + r.d.holdingsScore
      && (r.d.score == 1.0 <==> r.d.numAssetClasses >= 4 && |hs| >= 5 && r.d.maxSinglePosition <= 25.0)
  {
    Diversify(hs, ConcentrationScore)
  }

  /** Both variants agree once the largest position is at least 25%. */
  lemma DiversificationVariantsAgree(hs: seq<Holding>)
    requires |hs| > 0 && MaxPosition(hs) >= 25.0
    ensures EvaluateDiversification(hs) == EvaluateDiversificationAsWritten(hs)
  {
  }

  /** Five holdings of 20% in five asset classes: each component is at least 1 and
      the concentration component is 16/15, so the uncapped score exceeds 1. */
  const FiveEqualHoldings: seq<Holding> := [
    Holding(Some("VTI"), Some(20.0), Some("us_equity")),
    Holding(Some("VXUS"), Some(20.0), Some("intl_equity")),
    Holding(Some("BND"), Some(20.0), Some("bonds")),
    Holding(Some("VNQ"), Some(20.0), Some("real_estate")),
    Holding(Some("GLD"), Some(20.0), Some("commodities"))]

  /** Without the cap, a well-spread portfolio of five or more holdings in four or
      more classes, none reaching 25%, scores above 1. */
  lemma AsWrittenScoreAboveOne(hs: seq<Holding>)
    requires |hs| >= 5 && |AssetClasses(hs)| >= 4 && MaxPosition(hs) < 25.0
    ensures EvaluateDiversificationAsWritten(hs).d.score > 1.0
    ensures EvaluateDiversification(hs).d.score == 1.0
  {
  }

  lemma FiveEqualHoldingsMax()
    ensures MaxPosition(FiveEqualHoldings) == 20.0
  {
    var hs := FiveEqualHoldings;
    assert forall i :: 0 <= i < |hs| ==> Pct(hs[i]) == 20.0;
  }

  lemma FiveEqualHoldingsClasses()
    ensures |AssetClasses(FiveEqualHoldings)| >= 4
  {
    var hs := FiveEqualHoldings;
    assert AssetClassOf(hs[0]) == "us_equity";
    assert AssetClassOf(hs[1]) == "intl_equity";
    assert AssetClassOf(hs[2]) == "bonds";
    assert AssetClassOf(hs[3]) == "real_estate";
    FourDistinctClasses(hs);
  }

  lemma DiversificationAsWrittenExceedsOne()
    ensures EvaluateDiversificationAsWritten(FiveEqualHoldings).d.score > 1.0
    ensures EvaluateDiversification(FiveEqualHoldings).d.score == 1.0
  {
    FiveEqualHoldingsMax();
    FiveEqualHoldingsClasses();
    AsWrittenScoreAboveOne(FiveEqualHoldings);
  }

  // ---------------------------------------------------------------------------
  // Risk appropriateness
  // ---------------------------------------------------------------------------

  /** The acceptable risk range of a profile (unknown profiles accept 1..10). */
  function BaseRiskRange(profile: string): (int, int) {
    if profile == "conservative" then (1, 4)
    else if profile == "moderate" then (3, 7)
    else if profile == "aggressive" then (5, 10)
    else (1, 10)
  }

  /** The range after the timeline adjustment: short horizons cap the maximum at 5,
      long horizons lower the minimum by one (not below 1). */
  function RiskRange(profile: string, timelineYears: int): (range: (int, int))
    ensures 1 <= range.0 <= range.1 <= 10
    ensures timelineYears < 5 ==> range == (BaseRiskRange(profile).0, MinInt(BaseRiskRange(profile).1, 5))
    ensures timelineYears > 20 ==> range == (MaxInt(1, BaseRiskRange(profile).0 - 1), BaseRiskRange(profile).1)
    ensures 5 <= timelineYears <= 20 ==> range == BaseRiskRange(profile)
  {
    var (lo, hi) := BaseRiskRange(profile);
    if timelineYears < 5 then (lo, MinInt(hi, 5))
    else if timelineYears > 20 then (MaxInt(1, lo - 1), hi)
    else (lo, hi)
  }

  function MinInt(a: int, b: int): int {
    if a <= b then a else b
  }

  function MaxInt(a: int, b: int): int {
    if a >= b then a else b
  }

  datatype RiskStatus = Appropriate | TooConservative | TooAggressive

  datatype RiskVerdict = RiskVerdict(score: real, status: RiskStatus, minRisk: int, maxRisk: int)

  /** `evaluate_risk_appropriateness` (score before rounding) */
  function EvaluateRiskAppropriateness(risk: int, profile: string, timelineYears: int): (v: RiskVerdict)
    ensures (v.minRisk, v.maxRisk) == RiskRange(profile, timelineYears)
    ensures 0.0 <= v.score <= 1.0
    ensures v.status == Appropriate <==> v.minRisk <= risk <= v.maxRisk
    ensures v.status == TooConservative <==> risk < v.minRisk
    ensures v.status == TooAggressive <==> risk > v.maxRisk
    ensures v.status == Appropriate ==> v.score == 1.0
    ensures v.status == TooConservative ==> v.score == 0.75
    ensures v.status == TooAggressive ==> v.score == MaxReal(0.0, 1.0 - 0.25 * (risk - v.maxRisk) as real)
  {
    var (lo, hi) := RiskRange(profile, timelineYears);
    if lo <= risk <= hi then RiskVerdict(1.0, Appropriate, lo, hi)
    else if risk < lo then RiskVerdict(0.75, TooConservative, lo, hi)
    else RiskVerdict(MaxReal(0.0, 1.0 - 0.25 * (risk - hi) as real), TooAggressive, lo, hi)
  }

  /** A riskier recommendation never scores better once it is past the range. */
  lemma AggressiveScoreDecreases(r1: int, r2: int, profile: string, timelineYears: int)
    requires RiskRange(profile, timelineYears).1 < r1 <= r2
    ensures EvaluateRiskAppropriateness(r2, profile, timelineYears).score
            <= EvaluateRiskAppropriateness(r1, profile, timelineYears).score
  {
  }

  // ---------------------------------------------------------------------------
  // Judge rating and aggregate score
  // ---------------------------------------------------------------------------

  /** The ratings looked for, in the order they are tried. */
  const RatingTexts: seq<string> := ["1.0", "0.75", "0.5", "0.25", "0.0"]
  const RatingValues: seq<real> := [1.0, 0.75, 0.5, 0.25, 0.0]
  const DefaultRating: real := 0.5
  /** Only the start of the judge's text is searched. */
  const RatingWindow: nat := 20

  function Head(s: string, n: nat): string {
    if |s| <= n then s else s[..n]
  }

  /** Index of the first rating text that occurs in `window`, from `from` on. */
  function FirstRating(window: string, from: nat): (r: Option<nat>)
    requires from <= |RatingTexts|
    ensures r.Some? ==> from <= r.value < |RatingTexts| && Contains(window, RatingTexts[r.value])
    ensures r.Some? ==> forall j :: from <= j < r.value ==> !Contains(window, RatingTexts[j])
    ensures r.None? ==> forall j :: from <= j < |RatingTexts| ==> !Contains(window, RatingTexts[j])
    decreases |RatingTexts| - from
  {
    if from == |RatingTexts| then None
    else if Contains(window, RatingTexts[from]) then Some(from)
    else FirstRating(window, from + 1)
  }

  /** The rating parsed from a judge model's reply: the first of 1.0, 0.75, 0.5,
      0.25, 0.0 found in the first 20 characters, else 0.5. */
  function ParseRating(text: string): (score: real)
    ensures score in RatingValues
    ensures (forall j :: 0 <= j < |RatingTexts| ==> !Contains(Head(text, RatingWindow), RatingTexts[j]))
            ==> score == DefaultRating
    ensures forall j :: 0 <= j < |RatingTexts| ==>
              (Contains(Head(text, RatingWindow), RatingTexts[j])
               && (forall i :: 0 <= i < j ==> !Contains(Head(text, RatingWindow), RatingTexts[i])))
              ==> score == RatingValues[j]
  {
    match FirstRating(Head(text, RatingWindow), 0)
    case None => DefaultRating
    case Some(i) => RatingValues[i]
  }

  /** The scores that are present (a failed judge call reports `None`), in order. */
  function PresentScores(scores: seq<Option<real>>): (r: seq<real>)
    ensures |r| == Count(scores, IsPresent)
  {
    if |scores| == 0 then []
    else
      var last := scores[|scores| - 1];
      PresentScores(scores[..|scores| - 1]) + (if last.Some? then [last.value] else [])
  }

  /** The present scores are exactly the values of the `Some` entries. */
  lemma {:induction false} PresentScoresMembers(scores: seq<Option<real>>)
    ensures forall x :: x in PresentScores(scores) ==> Some(x) in scores
    ensures forall k :: 0 <= k < |scores| && scores[k].Some? ==> scores[k].value in PresentScores(scores)
    decreases |scores|
  {
    if |scores| > 0 {
      var init := scores[..|scores| - 1];
      PresentScoresMembers(init);
      assert forall k :: 0 <= k < |init| ==> init[k] == scores[k];
    }
  }

  predicate IsPresent(s: Option<real>) {
    s.Some?
  }

  /** Every present score lies in [0, hi]. */
  predicate ScoresWithin(scores: seq<Option<real>>, hi: real) {
    forall k :: 0 <= k < |scores| && scores[k].Some? ==> 0.0 <= scores[k].value <= hi
  }

  lemma PresentScoresWithin(scores: seq<Option<real>>, hi: real)
    requires ScoresWithin(scores, hi)
    ensures forall i :: 0 <= i < |PresentScores(scores)| ==> 0.0 <= PresentScores(scores)[i] <= hi
  {
    var present := PresentScores(scores);
    PresentScoresMembers(scores);
    forall i | 0 <= i < |present|
      ensures 0.0 <= present[i] <= hi
    {
      assert present[i] in present;
      var k :| 0 <= k < |scores| && scores[k] == Some(present[i]);
    }
  }

  /** Scores in [0, 1] average to 1 exactly when some score is present and every
      present score is 1. */
  lemma {:induction false} MeanOfPresentIsOneIff(scores: seq<Option<real>>)
    requires ScoresWithin(scores, 1.0)
    ensures Mean(PresentScores(scores)) == 1.0
            <==> (exists k :: 0 <= k < |scores| && scores[k].Some?)
                 && forall k :: 0 <= k < |scores| && scores[k].Some? ==> scores[k].value == 1.0
  {
    var present := PresentScores(scores);
    CountNoneIff(scores, IsPresent);
    PresentScoresWithin(scores, 1.0);
    PresentScoresMembers(scores);
    if |present| > 0 {
      MeanIsOneIff(present);
      forall k | 0 <= k < |scores| && scores[k].Some? ensures scores[k].value in present { }
      forall i | 0 <= i < |present| ensures Some(present[i]) in scores { assert present[i] in present; }
    }
  }

  /** The aggregate of scores in [0, hi] stays in [0, hi]. */
  lemma AggregateWithin(scores: seq<Option<real>>, hi: real)
    ensures hi >= 0.0 && ScoresWithin(scores, hi) ==> 0.0 <= Mean(PresentScores(scores)) <= hi
  {
    if hi >= 0.0 && ScoresWithin(scores, hi) {
      PresentScoresWithin(scores, hi);
      MeanBounds(PresentScores(scores), 0.0, hi);
    }
  }

  /** The aggregate of `run_full_evaluation` before rounding: the mean of the present
      scores, 0 when there are none. */
  function AggregateScore(scores: seq<Option<real>>): (agg: real)
    ensures (forall k :: 0 <= k < |scores| ==> scores[k].None?) ==> agg == 0.0
    ensures ScoresWithin(scores, 1.0) ==> 0.0 <= agg <= 1.0
    ensures ScoresWithin(scores, AsWrittenCeiling) ==> 0.0 <= agg <= AsWrittenCeiling
    ensures |PresentScores(scores)| > 0 ==> agg * (|PresentScores(scores)| as real) == Sum(PresentScores(scores))
  {
    CountNoneIff(scores, IsPresent);
    AggregateWithin(scores, 1.0);
    AggregateWithin(scores, AsWrittenCeiling);
    Mean(PresentScores(scores))
  }

  /** Scores in [0, 1] aggregate to 1 exactly when some score is present and every
      present score is 1. */
  lemma AggregateIsOneIff(scores: seq<Option<real>>)
    requires ScoresWithin(scores, 1.0)
    ensures AggregateScore(scores) == 1.0
            <==> (exists k :: 0 <= k < |scores| && scores[k].Some?)
                 && forall k :: 0 <= k < |scores| && scores[k].Some? ==> scores[k].value == 1.0
  {
    MeanOfPresentIsOneIff(scores);
  }

  // ---------------------------------------------------------------------------
  // Combined evaluation
  // ---------------------------------------------------------------------------

  const DefaultRiskProfile: string := "moderate"
  const DefaultTimelineYears: int := 10

  predicate InUnitOrAbsent(score: Option<real>) {
    score.Some? ==> 0.0 <= score.value <= 1.0
  }

  /** The bound on every collected score: 1 with the capped diversification score,
      10/9 with the score as written. */
  function Ceiling(capped: bool): (hi: real)
    ensures hi >= 1.0
  {
    if capped then 1.0 else AsWrittenCeiling
  }

  /** Bounded scores stay bounded when two lists are put together. */
  lemma {:induction false} ScoresWithinConcat(a: seq<Option<real>>, b: seq<Option<real>>, hi: real)
    ensures ScoresWithin(a, hi) && ScoresWithin(b, hi) ==> ScoresWithin(a + b, hi)
  {
    if ScoresWithin(a, hi) && ScoresWithin(b, hi) {
      forall k | 0 <= k < |a + b| && (a + b)[k].Some?
        ensures 0.0 <= (a + b)[k].value <= hi
      {
        if k < |a| { assert (a + b)[k] == a[k]; } else { assert (a + b)[k] == b[k - |a|]; }
      }
    }
  }

  /** The compliance score is one of 0, 0.75 and 1. */
  lemma ComplianceScoreInUnit(r: Recommendation, c: ClientContext)
    ensures 0.0 <= EvaluatePortfolioCompliance(r, c).score <= 1.0
  {
    var report := EvaluatePortfolioCompliance(r, c);
    assert report.score == 0.0 || report.score == 0.75 || report.score == 1.0;
  }

  /** The diversification score, present exactly when holdings are given; `capped`
      chooses the corrected score over the one `evaluate_diversification` computes. */
  function DiversificationScores(r: Recommendation, capped: bool): (scores: seq<Option<real>>)
    ensures |scores| == (if r.holdings.Some? then 1 else 0)
    ensures forall k :: 0 <= k < |scores| ==> scores[k].Some?
    ensures ScoresWithin(scores, Ceiling(capped))
  {
    if r.holdings.Some?
    then [Some(if capped then EvaluateDiversification(r.holdings.value).Score()
               else EvaluateDiversificationAsWritten(r.holdings.value).Score())]
    else []
  }

  /** The risk-appropriateness score, present exactly when a risk score is given; the
      client's profile and timeline default to moderate and 10 years. */
  function RiskScores(r: Recommendation, c: ClientContext): (scores: seq<Option<real>>)
    ensures |scores| == (if r.riskScore.Some? then 1 else 0)
    ensures forall k :: 0 <= k < |scores| ==> scores[k].Some?
    ensures ScoresWithin(scores, 1.0)
  {
    if r.riskScore.Some?
    then [Some(EvaluateRiskAppropriateness(
            r.riskScore.value, c.riskProfile.GetOr(DefaultRiskProfile), c.timelineYears.GetOr(DefaultTimelineYears)).score)]
    else []
  }

  /** The scores computed without a judge once both the recommendation and the client
      are known: compliance always, diversification when holdings are given, risk
      appropriateness when a risk score is given. */
  function ComputedScores(r: Recommendation, c: ClientContext, capped: bool): (scores: seq<Option<real>>)
    ensures |scores| == 1 + (if r.holdings.Some? then 1 else 0) + (if r.riskScore.Some? then 1 else 0)
    ensures forall k :: 0 <= k < |scores| ==> scores[k].Some?
    ensures ScoresWithin(scores, Ceiling(capped))
  {
    var compliance := [Some(EvaluatePortfolioCompliance(r, c).score)];
    var diversification := DiversificationScores(r, capped);
    var risk := RiskScores(r, c);
    ComplianceScoreInUnit(r, c);
    assert ScoresWithin(compliance, Ceiling(capped)) && ScoresWithin(risk, Ceiling(capped));
    ScoresWithinConcat(compliance, diversification, Ceiling(capped));
    ScoresWithinConcat(compliance + diversification, risk, Ceiling(capped));
    assert forall k :: 0 <= k < |compliance + diversification| ==> (compliance + diversification)[k].Some?;
    compliance + diversification + risk
  }

  /** Which computed score sits where: compliance first, the diversification score
      next when holdings are given, the risk-appropriateness score last when a risk
      score is given, judged against the client's profile and timeline or the
      moderate, 10-year defaults. */
  lemma {:induction false} ComputedScoresContents(r: Recommendation, c: ClientContext, capped: bool)
    ensures ComputedScores(r, c, capped)[0] == Some(EvaluatePortfolioCompliance(r, c).score)
    ensures r.holdings.Some? ==>
      ComputedScores(r, c, capped)[1]
      == Some(if capped then EvaluateDiversification(r.holdings.value).Score()
              else EvaluateDiversificationAsWritten(r.holdings.value).Score())
    ensures r.riskScore.Some? ==>
      ComputedScores(r, c, capped)[|ComputedScores(r, c, capped)| - 1]
      == Some(EvaluateRiskAppropriateness(r.riskScore.value,
                                          c.riskProfile.GetOr(DefaultRiskProfile),
                                          c.timelineYears.GetOr(DefaultTimelineYears)).score)
  {
    var compliance := [Some(EvaluatePortfolioCompliance(r, c).score)];
    var diversification := DiversificationScores(r, capped);
    var risk := RiskScores(r, c);
    var scores := ComputedScores(r, c, capped);
    assert scores == compliance + diversification + risk;
    assert scores[0] == compliance[0];
    if r.holdings.Some? {
      assert scores[1] == diversification[0];
    }
    if r.riskScore.Some? {
      assert scores[|scores| - 1] == risk[0];
    }
  }

  /** The scores `run_full_evaluation` collects: the two judge scores (`None` when the
      judge call failed), then, when both the recommendation and the client are
      given, compliance, diversification if holdings are given, and risk
      appropriateness if a risk score is given. */
  function MetricScores(helpfulness: Option<real>, complianceLanguage: Option<real>,
                        rec: Option<Recommendation>, client: Option<ClientContext>, capped: bool): (scores: seq<Option<real>>)
    ensures |scores| >= 2 && scores[0] == helpfulness && scores[1] == complianceLanguage
    ensures rec.None? || client.None? ==> |scores| == 2
    ensures rec.Some? && client.Some? ==>
      |scores| == 3 + (if rec.value.holdings.Some? then 1 else 0) + (if rec.value.riskScore.Some? then 1 else 0)
  {
    var judged := [helpfulness, complianceLanguage];
    if rec.None? || client.None? then judged
    else judged + ComputedScores(rec.value, client.value, capped)
  }

  /** With both a recommendation and a client, the computed scores follow the two
      judge scores in the order of `ComputedScoresContents`. */
  lemma {:induction false} MetricScoresContents(helpfulness: Option<real>, complianceLanguage: Option<real>,
                                                r: Recommendation, c: ClientContext, capped: bool)
    ensures MetricScores(helpfulness, complianceLanguage, Some(r), Some(c), capped)[2]
            == Some(EvaluatePortfolioCompliance(r, c).score)
    ensures r.holdings.Some? ==>
      MetricScores(helpfulness, complianceLanguage, Some(r), Some(c), capped)[3]
      == Some(if capped then EvaluateDiversification(r.holdings.value).Score()
              else EvaluateDiversificationAsWritten(r.holdings.value).Score())
    ensures r.riskScore.Some? ==>
      var scores := MetricScores(helpfulness, complianceLanguage, Some(r), Some(c), capped);
      scores[|scores| - 1]
      == Some(EvaluateRiskAppropriateness(r.riskScore.value,
                                          c.riskProfile.GetOr(DefaultRiskProfile),
                                          c.timelineYears.GetOr(DefaultTimelineYears)).score)
  {
    var computed := ComputedScores(r, c, capped);
    var scores := MetricScores(helpfulness, complianceLanguage, Some(r), Some(c), capped);
    ComputedScoresContents(r, c, capped);
    assert scores == [helpfulness, complianceLanguage] + computed;
    assert scores[2] == computed[0];
    if r.holdings.Some? {
      assert scores[3] == computed[1];
    }
    if r.riskScore.Some? {
      assert scores[|scores| - 1] == computed[|computed| - 1];
    }
  }

  /** Every score after the two judge scores is present. */
  lemma {:induction false} ComputedScoresPresent(helpfulness: Option<real>, complianceLanguage: Option<real>,
                                                 rec: Option<Recommendation>, client: Option<ClientContext>, capped: bool)
    ensures forall k :: 2 <= k < |MetricScores(helpfulness, complianceLanguage, rec, client, capped)| ==>
              MetricScores(helpfulness, complianceLanguage, rec, client, capped)[k].Some?
  {
    if rec.Some? && client.Some? {
      PresentAfter([helpfulness, complianceLanguage], ComputedScores(rec.value, client.value, capped));
    }
  }

  lemma {:induction false} PresentAfter(judged: seq<Option<real>>, extra: seq<Option<real>>)
    requires forall k :: 0 <= k < |extra| ==> extra[k].Some?
    ensures forall k :: |judged| <= k < |judged + extra| ==> (judged + extra)[k].Some?
  {
    forall k | |judged| <= k < |judged + extra| ensures (judged + extra)[k].Some? {
      assert (judged + extra)[k] == extra[k - |judged|];
    }
  }

  /** All collected scores lie in [0, 1], or in [0, 10/9] with the uncapped
      diversification score, when the judges' scores lie in [0, 1]. */
  lemma {:induction false} MetricScoresWithin(helpfulness: Option<real>, complianceLanguage: Option<real>,
                                              rec: Option<Recommendation>, client: Option<ClientContext>, capped: bool)
    ensures InUnitOrAbsent(helpfulness) && InUnitOrAbsent(complianceLanguage) ==>
              ScoresWithin(MetricScores(helpfulness, complianceLanguage, rec, client, capped), Ceiling(capped))
  {
    var judged := [helpfulness, complianceLanguage];
    JudgedWithin(helpfulness, complianceLanguage, Ceiling(capped));
    if rec.Some? && client.Some? {
      ScoresWithinConcat(judged, ComputedScores(rec.value, client.value, capped), Ceiling(capped));
    }
  }

  lemma JudgedWithin(helpfulness: Option<real>, complianceLanguage: Option<real>, hi: real)
    requires hi >= 1.0
    ensures InUnitOrAbsent(helpfulness) && InUnitOrAbsent(complianceLanguage) ==> ScoresWithin([helpfulness, complianceLanguage], hi)
  {
  }

  /** The mean of the judge scores that are present, 0 when neither is. */
  function JudgesMean(helpfulness: Option<real>, complianceLanguage: Option<real>): real {
    match (helpfulness, complianceLanguage)
    case (Some(x), Some(y)) => (x + y) / 2.0
    case (Some(x), None) => x
    case (None, Some(y)) => y
    case (None, None) => 0.0
  }

  /** Without a recommendation or client only the two judge scores are averaged. */
  lemma JudgesOnly(helpfulness: Option<real>, complianceLanguage: Option<real>)
    ensures AggregateScore([helpfulness, complianceLanguage]) == JudgesMean(helpfulness, complianceLanguage)
  {
    PresentOfTwo(helpfulness, complianceLanguage);
    match (helpfulness, complianceLanguage)
    case (Some(x), Some(y)) =>
      assert [x] + [y] == [x, y];
      SumTwo(x, y);
    case (Some(x), None) => SumOne(x);
    case (None, Some(y)) => SumOne(y);
    case (None, None) =>
  }

  lemma PresentOfTwo(a: Option<real>, b: Option<real>)
    ensures PresentScores([a, b]) == (if a.Some? then [a.value] else []) + (if b.Some? then [b.value] else [])
  {
    assert [a, b][..1] == [a] && [a][..0] == [];
  }

  lemma SumOne(x: real)
    ensures Sum([x]) == x
  {
    assert [x][..0] == [];
  }

  lemma SumTwo(x: real, y: real)
    ensures Sum([x, y]) == x + y
  {
    SumOne(x);
    assert [x, y][..1] == [x];
  }

  /** The aggregate score of `run_full_evaluation` (before rounding): the mean of the
      collected scores. With the uncapped diversification score it can exceed 1, but
      never 10/9, when the judges' scores lie in [0, 1]. */
  function FullEvaluationScore(helpfulness: Option<real>, complianceLanguage: Option<real>,
                               rec: Option<Recommendation>, client: Option<ClientContext>): (agg: real)
    ensures rec.None? || client.None? ==> agg == JudgesMean(helpfulness, complianceLanguage)
    ensures InUnitOrAbsent(helpfulness) && InUnitOrAbsent(complianceLanguage) ==> 0.0 <= agg <= AsWrittenCeiling
    ensures helpfulness.None? && complianceLanguage.None? && (rec.None? || client.None?) ==> agg == 0.0
  {
    JudgesOnly(helpfulness, complianceLanguage);
    MetricScoresWithin(helpfulness, complianceLanguage, rec, client, false);
    AggregateScore(MetricScores(helpfulness, complianceLanguage, rec, client, false))
  }

  /** The aggregate with the capped diversification score: in [0, 1] whenever the
      judges' scores are. */
  function FullEvaluationScoreCapped(helpfulness: Option<real>, complianceLanguage: Option<real>,
                                     rec: Option<Recommendation>, client: Option<ClientContext>): (agg: real)
    ensures rec.None? || client.None? ==> agg == JudgesMean(helpfulness, complianceLanguage)
    ensures InUnitOrAbsent(helpfulness) && InUnitOrAbsent(complianceLanguage) ==> 0.0 <= agg <= 1.0
    ensures helpfulness.None? && complianceLanguage.None? && (rec.None? || client.None?) ==> agg == 0.0
  {
    JudgesOnly(helpfulness, complianceLanguage);
    MetricScoresWithin(helpfulness, complianceLanguage, rec, client, true);
    AggregateScore(MetricScores(helpfulness, complianceLanguage, rec, client, true))
  }

  /** A fully disclosed recommendation of five 20% holdings in five classes, with no
      risk score, for a client whose context gives nothing but the defaults. */
  const SpreadRecommendation: Recommendation := Recommendation(None, Some(FiveEqualHoldings), Some(true))
  const DefaultsOnlyClient: ClientContext := ClientContext(None, None, None)

  lemma FiveEqualHoldingsCompliant()
    ensures EvaluatePortfolioCompliance(SpreadRecommendation, DefaultsOnlyClient).score == 1.0
  {
    var hs := FiveEqualHoldings;
    assert forall i :: 0 <= i < |hs| ==> Pct(hs[i]) == 20.0;
    CountNoneIff(hs, IsOverLimit);
    CountNoneIff(hs, IsNearLimit);
    assert Percentages(hs) == [20.0, 20.0, 20.0, 20.0, 20.0];
    var ps := Percentages(hs);
    assert Sum(ps[..1]) == 20.0;
    assert Sum(ps[..2]) == 40.0 by { assert ps[..2][..1] == ps[..1]; }
    assert Sum(ps[..3]) == 60.0 by { assert ps[..3][..2] == ps[..2]; }
    assert Sum(ps[..4]) == 80.0 by { assert ps[..4][..3] == ps[..3]; }
    assert Sum(ps) == 100.0 by { assert ps[..4] == ps[..|ps| - 1]; }
    assert !AllocationOff(SpreadRecommendation);
  }

  /** Scores that are all present, at least 1, with one above 1, aggregate above 1. */
  lemma {:induction false} AggregateAboveOne(scores: seq<Option<real>>, k: nat)
    requires k < |scores| && scores[k].Some? && scores[k].value > 1.0
    requires forall j :: 0 <= j < |scores| && scores[j].Some? ==> scores[j].value >= 1.0
    ensures AggregateScore(scores) > 1.0
  {
    var present := PresentScores(scores);
    PresentScoresMembers(scores);
    assert scores[k].value in present;
    var i :| 0 <= i < |present| && present[i] == scores[k].value;
    forall j | 0 <= j < |present| ensures present[j] >= 1.0 {
      assert present[j] in present;
    }
    MeanAboveOne(present, i);
  }

  /** A recommendation with holdings and no risk score contributes its compliance
      and diversification scores after the two judge scores. */
  lemma ScoresWithHoldings(helpfulness: Option<real>, complianceLanguage: Option<real>,
                           r: Recommendation, c: ClientContext, capped: bool)
    requires r.holdings.Some? && r.riskScore.None?
    ensures MetricScores(helpfulness, complianceLanguage, Some(r), Some(c), capped)
            == [helpfulness, complianceLanguage, Some(EvaluatePortfolioCompliance(r, c).score),
                Some(if capped then EvaluateDiversification(r.holdings.value).Score()
                     else EvaluateDiversificationAsWritten(r.holdings.value).Score())]
  {
    assert RiskScores(r, c) == [];
    assert ComputedScores(r, c, capped) == [Some(EvaluatePortfolioCompliance(r, c).score)] + DiversificationScores(r, capped);
  }

  /** Full judge marks on a fully compliant recommendation whose uncapped
      diversification score exceeds 1 give an aggregate above 1 as written, and
      exactly 1 once the score is capped. */
  lemma {:induction false} CompliantSpreadExceedsOne(r: Recommendation, c: ClientContext)
    requires r.holdings.Some? && r.riskScore.None?
    requires EvaluatePortfolioCompliance(r, c).score == 1.0
    requires EvaluateDiversificationAsWritten(r.holdings.value).Score() > 1.0
    requires EvaluateDiversification(r.holdings.value).Score() == 1.0
    ensures FullEvaluationScore(Some(1.0), Some(1.0), Some(r), Some(c)) > 1.0
    ensures FullEvaluationScoreCapped(Some(1.0), Some(1.0), Some(r), Some(c)) == 1.0
  {
    ScoresWithHoldings(Some(1.0), Some(1.0), r, c, false);
    ScoresWithHoldings(Some(1.0), Some(1.0), r, c, true);
    ThreeFullMarksAnd(EvaluateDiversificationAsWritten(r.holdings.value).Score());
    ThreeFullMarksAnd(1.0);
  }

  /** Three full marks and a fourth score `d` of at least 1 aggregate above 1 when
      `d` is, and to exactly 1 otherwise. */
  lemma ThreeFullMarksAnd(d: real)
    requires d >= 1.0
    ensures d > 1.0 ==> AggregateScore([Some(1.0), Some(1.0), Some(1.0), Some(d)]) > 1.0
    ensures d == 1.0 ==> AggregateScore([Some(1.0), Some(1.0), Some(1.0), Some(d)]) == 1.0
  {
    var scores := [Some(1.0), Some(1.0), Some(1.0), Some(d)];
    if d > 1.0 {
      AggregateAboveOne(scores, 3);
    } else {
      AggregateIsOneIff(scores);
      assert scores[0].Some?;
    }
  }

  /** With judges giving full marks, the aggregate as written exceeds 1 on the spread
      portfolio, while the capped aggregate is exactly 1. */
  lemma FullEvaluationExceedsOne()
    ensures FullEvaluationScore(Some(1.0), Some(1.0), Some(SpreadRecommendation), Some(DefaultsOnlyClient)) > 1.0
    ensures FullEvaluationScoreCapped(Some(1.0), Some(1.0), Some(SpreadRecommendation), Some(DefaultsOnlyClient)) == 1.0
  {
    FiveEqualHoldingsCompliant();
    DiversificationAsWrittenExceedsOne();
    CompliantSpreadExceedsOne(SpreadRecommendation, DefaultsOnlyClient);
  }

  /** Ten holdings of 10% in ten asset classes. Unlike five 20% holdings, whose
      diversification score of 1.02 averages with three full marks to 1.005 and so
      rounds back to 1.0, this spread keeps the aggregate above 1 after rounding. */
  const TenEqualHoldings: seq<Holding> := [
    Holding(Some("VTI"), Some(10.0), Some("us_equity")),
    Holding(Some("VXUS"), Some(10.0), Some("intl_equity")),
    Holding(Some("BND"), Some(10.0), Some("bonds")),
    Holding(Some("VNQ"), Some(10.0), Some("real_estate")),
    Holding(Some("GLD"), Some(10.0), Some("commodities")),
    Holding(Some("VEA"), Some(10.0), Some("developed_equity")),
    Holding(Some("VWO"), Some(10.0), Some("emerging_equity")),
    Holding(Some("BNDX"), Some(10.0), Some("intl_bonds")),
    Holding(Some("TIP"), Some(10.0), Some("inflation_bonds")),
    Holding(Some("DBC"), Some(10.0), Some("commodity_futures"))]

  const TenWaySpread: Recommendation := Recommendation(None, Some(TenEqualHoldings), Some(true))

  /** Holdings that all carry one positive percentage: the largest position is that
      percentage, and the total is their number times it. */
  lemma {:induction false} EqualHoldings(hs: seq<Holding>, p: real)
    requires |hs| > 0 && p > 0.0
    requires forall i :: 0 <= i < |hs| ==> Pct(hs[i]) == p
    ensures MaxPosition(hs) == p
    ensures Sum(Percentages(hs)) == |hs| as real * p
    decreases |hs|
  {
    var init := hs[..|hs| - 1];
    assert Percentages(hs)[..|hs| - 1] == Percentages(init);
    if |init| > 0 {
      assert forall i :: 0 <= i < |init| ==> init[i] == hs[i];
      EqualHoldings(init, p);
    }
  }

  /** A fully disclosed recommendation without a risk score, split evenly into
      positions of at most 20% that total 100, is fully compliant for any client
      that is not conservative and tolerates the default risk of 0. */
  lemma EvenSplitCompliant(r: Recommendation, c: ClientContext, p: real)
    requires r.riskScore.None? && r.disclosureIncluded == Some(true) && r.holdings.Some?
    requires !IsConservative(c) && c.maxRiskTolerance.GetOr(DefaultMaxRiskTolerance) >= DefaultRiskScore
    requires |r.holdings.value| > 0 && 0.0 < p <= ConcentrationWarningLevel
    requires forall i :: 0 <= i < |r.holdings.value| ==> Pct(r.holdings.value[i]) == p
    requires |r.holdings.value| as real * p == 100.0
    ensures EvaluatePortfolioCompliance(r, c).score == 1.0
  {
    var hs := r.holdings.value;
    EqualHoldings(hs, p);
    CountNoneIff(hs, IsOverLimit);
    CountNoneIff(hs, IsNearLimit);
    assert !AllocationOff(r);
  }

  /** Holdings whose first four asset classes differ span at least four classes. */
  lemma FourDistinctClasses(hs: seq<Holding>)
    requires |hs| >= 4
    requires AssetClassOf(hs[0]) != AssetClassOf(hs[1]) && AssetClassOf(hs[0]) != AssetClassOf(hs[2])
    requires AssetClassOf(hs[0]) != AssetClassOf(hs[3]) && AssetClassOf(hs[1]) != AssetClassOf(hs[2])
    requires AssetClassOf(hs[1]) != AssetClassOf(hs[3]) && AssetClassOf(hs[2]) != AssetClassOf(hs[3])
    ensures |AssetClasses(hs)| >= 4
  {
    var a, b, c, d := AssetClassOf(hs[0]), AssetClassOf(hs[1]), AssetClassOf(hs[2]), AssetClassOf(hs[3]);
    var two := {a} + {b};
    assert |two| == 2;
    var three := two + {c};
    assert c !in two && |three| == 3;
    var four := three + {d};
    assert d !in three && |four| == 4;
    SubsetCardinality(four, AssetClasses(hs));
  }

  lemma TenEqualHoldingsClasses()
    ensures |AssetClasses(TenEqualHoldings)| >= 4
  {
    var hs := TenEqualHoldings;
    assert AssetClassOf(hs[0]) == "us_equity";
    assert AssetClassOf(hs[1]) == "intl_equity";
    assert AssetClassOf(hs[2]) == "bonds";
    assert AssetClassOf(hs[3]) == "real_estate";
    FourDistinctClasses(hs);
  }

  /** The aggregate of four present scores is their mean. */
  lemma FourScoresMean(a: real, b: real, c: real, d: real)
    ensures AggregateScore([Some(a), Some(b), Some(c), Some(d)]) * 4.0 == a + b + c + d
  {
    var scores := [Some(a), Some(b), Some(c), Some(d)];
    assert scores[..3][..2][..1][..0] == [];
    assert PresentScores(scores[..1]) == [a];
    assert PresentScores(scores[..2]) == [a, b] by { assert scores[..2][..1] == scores[..1]; }
    assert PresentScores(scores[..3]) == [a, b, c] by { assert scores[..3][..2] == scores[..2]; }
    assert PresentScores(scores) == [a, b, c, d] by { assert scores[..3] == scores[..|scores| - 1]; }
    var ps := [a, b, c, d];
    assert Sum(ps[..1]) == a;
    assert Sum(ps[..2]) == a + b by { assert ps[..2][..1] == ps[..1]; }
    assert Sum(ps[..3]) == a + b + c by { assert ps[..3][..2] == ps[..2]; }
    assert Sum(ps) == a + b + c + d by { assert ps[..3] == ps[..|ps| - 1]; }
  }

  /** Ten 10% holdings score 16/15 as written and 1 once capped, and are fully
      compliant for a client giving only defaults. */
  lemma TenWaySpreadScores()
    ensures EvaluateDiversificationAsWritten(TenEqualHoldings).Score() == 16.0 / 15.0
    ensures EvaluateDiversification(TenEqualHoldings).Score() == 1.0
    ensures EvaluatePortfolioCompliance(TenWaySpread, DefaultsOnlyClient).score == 1.0
  {
    var hs := TenEqualHoldings;
    assert forall i :: 0 <= i < |hs| ==> Pct(hs[i]) == 10.0;
    EqualHoldings(hs, 10.0);
    TenEqualHoldingsClasses();
    assert ConcentrationScoreAsWritten(10.0) == 1.2;
    AsWrittenScoreAboveOne(hs);
    EvenSplitCompliant(TenWaySpread, DefaultsOnlyClient, 10.0);
  }

  /** With full judge marks, a fully compliant recommendation with holdings, no risk
      score and an uncapped diversification score of 16/15 keeps its excess through
      the program's two roundings to two decimals: the diversification score rounds
      to 1.07 and the aggregate 4.07 / 4 to 1.02. With the capped score the
      aggregate is exactly 1. */
  lemma {:induction false} RoundedSpreadExceedsOne(r: Recommendation, c: ClientContext)
    requires r.holdings.Some? && r.riskScore.None?
    requires EvaluatePortfolioCompliance(r, c).score == 1.0
    requires EvaluateDiversificationAsWritten(r.holdings.value).Score() == 16.0 / 15.0
    requires EvaluateDiversification(r.holdings.value).Score() == 1.0
    ensures RoundCents(EvaluateDiversificationAsWritten(r.holdings.value).Score()) == 1.07
    ensures RoundCents(AggregateScore([Some(1.0), Some(1.0), Some(EvaluatePortfolioCompliance(r, c).score),
              Some(RoundCents(EvaluateDiversificationAsWritten(r.holdings.value).Score()))])) == 1.02
    ensures RoundCents(FullEvaluationScoreCapped(Some(1.0), Some(1.0), Some(r), Some(c))) == 1.0
  {
    RoundCentsNearest(16.0 / 15.0, 107);
    FourScoresMean(1.0, 1.0, 1.0, 1.07);
    RoundCentsNearest(AggregateScore([Some(1.0), Some(1.0), Some(1.0), Some(1.07)]), 102);
    CompliantSpreadExceedsOne(r, c);
    RoundCentsNearest(1.0, 100);
  }

  /** Ten 10% holdings in ten classes, fully disclosed, with full judge marks: the
      program's rounded aggregate is 1.02, and 1.0 once the score is capped. */
  lemma RoundedEvaluationExceedsOne()
    ensures RoundCents(EvaluateDiversificationAsWritten(TenEqualHoldings).Score()) == 1.07
    ensures RoundCents(AggregateScore([Some(1.0), Some(1.0),
              Some(EvaluatePortfolioCompliance(TenWaySpread, DefaultsOnlyClient).score),
              Some(RoundCents(EvaluateDiversificationAsWritten(TenEqualHoldings).Score()))])) == 1.02
    ensures RoundCents(FullEvaluationScoreCapped(Some(1.0), Some(1.0), Some(TenWaySpread), Some(DefaultsOnlyClient))) == 1.0
  {
    TenWaySpreadScores();
    RoundedSpreadExceedsOne(TenWaySpread, DefaultsOnlyClient);
  }
}

=== FILE: production_billing.dfy ===
/** The billing tools of the production A2A agent and its two header/URL helpers
    (chapter-4/08_production_agent/agent.py). Trace logging is left out; the
    refund ids and timestamps read from the clock are parameters. */
module ProductionBilling {
  import opened Common
  import opened Text

  // ---------------------------------------------------------------------------
  // Extension activation header
  // ---------------------------------------------------------------------------

  /** The stripped comma-separated entries of an `X-A2A-Extensions` value. */
  function ActivatedExtensions(header: string): (exts: seq<string>)
    ensures |exts| == |Split(header, ',')|
    ensures forall k :: 0 <= k < |exts| ==> exts[k] == Strip(Split(header, ',')[k])
  {
    var parts := Split(header, ',');
    seq(|parts|, k requires 0 <= k < |parts| => Strip(parts[k]))
  }

  /** `check_extension_activated`: the stripped URI must equal one stripped entry of
      the header (a missing header reads as the empty string). */
  function CheckExtensionActivated(extensionUri: string, header: Option<string>): (active: bool)
    ensures active <==> Strip(extensionUri) in ActivatedExtensions(header.GetOr(""))
  {
    Strip(extensionUri) in ActivatedExtensions(header.GetOr(""))
  }

  /** Without the header the entry list is one empty string, so only a blank URI
      counts as activated. */
  lemma {:induction false} NoHeaderActivatesOnlyBlank(extensionUri: string)
    ensures CheckExtensionActivated(extensionUri, None) <==> AllSpace(extensionUri)
  {
    assert Split("", ',') == [""];
    assert ActivatedExtensions("") == [Strip("")];
    StripEmptyIff("");
    StripEmptyIff(extensionUri);
  }

  /** A header written as the comma-joined list of comma-free entries activates
      exactly the URIs that match one of those entries up to surrounding spaces. */
  lemma {:induction false} JoinedHeaderActivates(entries: seq<string>, extensionUri: string)
    requires |entries| >= 1
    requires forall k :: 0 <= k < |entries| ==> ',' !in entries[k]
    ensures CheckExtensionActivated(extensionUri, Some(Join(entries, ',')))
            <==> exists k :: 0 <= k < |entries| && Strip(entries[k]) == Strip(extensionUri)
  {
    SplitJoin(entries, ',');
    var exts := ActivatedExtensions(Join(entries, ','));
    assert forall k :: 0 <= k < |entries| ==> exts[k] == Strip(entries[k]);
    if Strip(extensionUri) in exts {
      var k :| 0 <= k < |exts| && exts[k] == Strip(extensionUri);
      assert Strip(entries[k]) == Strip(extensionUri);
    }
  }

  // ---------------------------------------------------------------------------
  // Versioned agent card URL
  // ---------------------------------------------------------------------------

  const BillingBaseUrl: string := "https://billing-service.company.com"
  const AgentCardPath: string := "/.well-known/agent-card.json"

  /** The major part of a version: the text before its first dot. */
  function MajorVersion(version: string): (major: string)
    ensures major == Split(version, '.')[0]
    ensures '.' !in major
  {
    BeforeIsFirstPart(version, '.');
    Before(version, '.')
  }

  /** `get_versioned_agent_card_url` */
  function VersionedAgentCardUrl(version: string): (url: string)
    ensures |url| == |BillingBaseUrl| + 2 + |MajorVersion(version)| + |AgentCardPath|
    ensures url[..|BillingBaseUrl| + 2] == BillingBaseUrl + "/v"
    ensures url[|BillingBaseUrl| + 2..|url| - |AgentCardPath|] == MajorVersion(version)
  {
    var url := BillingBaseUrl + "/v" + MajorVersion(version) + AgentCardPath;
    assert url[..|BillingBaseUrl| + 2] == BillingBaseUrl + "/v";
    assert url[|BillingBaseUrl| + 2..|url| - |AgentCardPath|] == MajorVersion(version);
    url
  }

  /** Two versions share an agent card exactly when their major parts agree. */
  lemma SameUrlIffSameMajor(v1: string, v2: string)
    ensures VersionedAgentCardUrl(v1) == VersionedAgentCardUrl(v2) <==> MajorVersion(v1) == MajorVersion(v2)
  {
  }

  // ---------------------------------------------------------------------------
  // Billing history
  // ---------------------------------------------------------------------------

  datatype Invoice = Invoice(invoiceId: string, amount: real, status: string, disputed: Option<bool>)

  const Invoices: seq<Invoice> := [
    Invoice("INV-2024-001", 89.99, "paid", None),
    Invoice("INV-2024-002", 89.99, "paid", None),
    Invoice("INV-2024-003", 136.99, "paid", Some(true))]

  predicate IsDisputed(inv: Invoice) {
    inv.disputed.GetOr(false)
  }

  /** The invoices not flagged as disputed, in order. */
  function Undisputed(invs: seq<Invoice>): (r: seq<Invoice>)
    ensures forall x :: x in r <==> x in invs && !IsDisputed(x)
    ensures |r| == |invs| - Count(invs, IsDisputed)
  {
    if |invs| == 0 then []
    else
      var last := invs[|invs| - 1];
      assert invs == invs[..|invs| - 1] + [last];
      Undisputed(invs[..|invs| - 1]) + (if IsDisputed(last) then [] else [last])
  }

  /** The filter distributes over concatenation, so the kept invoices stay in their
      original order. */
  lemma {:induction false} UndisputedAppend(a: seq<Invoice>, b: seq<Invoice>)
    ensures Undisputed(a + b) == Undisputed(a) + Undisputed(b)
    decreases |b|
  {
    if |b| == 0 {
      assert a + b == a;
    } else {
      var init := b[..|b| - 1];
      var last := b[|b| - 1];
      assert (a + b)[..|a + b| - 1] == a + init;
      assert (a + b)[|a + b| - 1] == last;
      UndisputedAppend(a, init);
    }
  }

  /** The disputed invoices, in order. */
  function Disputed(invs: seq<Invoice>): (r: seq<Invoice>)
    ensures forall x :: x in r <==> x in invs && IsDisputed(x)
  {
    if |invs| == 0 then []
    else
      var last := invs[|invs| - 1];
      assert invs == invs[..|invs| - 1] + [last];
      Disputed(invs[..|invs| - 1]) + (if IsDisputed(last) then [last] else [])
  }

  function AmountTotal(invs: seq<Invoice>): real {
    if |invs| == 0 then 0.0 else AmountTotal(invs[..|invs| - 1]) + invs[|invs| - 1].amount
  }

  lemma {:induction false} AmountTotalAppend(a: seq<Invoice>, b: seq<Invoice>)
    ensures AmountTotal(a + b) == AmountTotal(a) + AmountTotal(b)
    decreases |b|
  {
    if |b| > 0 {
      assert (a + b)[..|a + b| - 1] == a + b[..|b| - 1];
      AmountTotalAppend(a, b[..|b| - 1]);
    } else {
      assert a + b == a;
    }
  }

  /** Dropping the disputed invoices lowers the total by exactly their amounts. */
  lemma {:induction false} TotalSplitsByDispute(invs: seq<Invoice>)
    ensures AmountTotal(invs) == AmountTotal(Undisputed(invs)) + AmountTotal(Disputed(invs))
  {
    if |invs| > 0 {
      var init := invs[..|invs| - 1];
      var last := invs[|invs| - 1];
      TotalSplitsByDispute(init);
      assert AmountTotal([last]) == last.amount by { assert [last][..0] == []; }
      assert AmountTotal(invs) == AmountTotal(init) + last.amount;
      if IsDisputed(last) {
        assert Disputed(invs) == Disputed(init) + [last];
        assert Undisputed(invs) == Undisputed(init) + [];
        assert Undisputed(init) + [] == Undisputed(init);
        AmountTotalAppend(Disputed(init), [last]);
      } else {
        assert Undisputed(invs) == Undisputed(init) + [last];
        assert Disputed(invs) == Disputed(init) + [];
        assert Disputed(init) + [] == Disputed(init);
        AmountTotalAppend(Undisputed(init), [last]);
      }
    }
  }

  datatype BillingHistory = BillingHistory(customerId: string, months: int, invoices: seq<Invoice>, totalBilled: real)

  /** `query_billing_history`: disputed invoices are dropped unless asked for;
      the total is the sum of the invoices returned. */
  function QueryBillingHistory(customerId: string, months: int, includeDisputes: bool): (r: BillingHistory)
    ensures r.customerId == customerId && r.months == months
    ensures includeDisputes ==> r.invoices == Invoices
    ensures !includeDisputes ==> forall x :: x in r.invoices <==> x in Invoices && !IsDisputed(x)
    ensures !includeDisputes ==> r.invoices == Undisputed(Invoices) && r.invoices == Invoices[..2]
    ensures r.totalBilled == AmountTotal(r.invoices)
    ensures !includeDisputes ==> r.totalBilled + AmountTotal(Disputed(Invoices)) == AmountTotal(Invoices)
  {
    TotalSplitsByDispute(Invoices);
    var invs := if includeDisputes then Invoices else Undisputed(Invoices);
    BillingHistory(customerId, months, invs, AmountTotal(invs))
  }

  // ---------------------------------------------------------------------------
  // Refunds
  // ---------------------------------------------------------------------------

  datatype AuditTrail = AuditTrail(action: string, actor: string, approvedBy: Option<string>, timestamp: Instant)

  datatype Refund = Refund(
    refundId: string, invoiceId: string, amount: real, reason: string, status: string,
    processedAt: Instant, audit: AuditTrail)

  const FullRefundAmount: real := 89.99

  /** `process_refund`: always the full 89.99, always processed, with the approver
      recorded as given. The source reads the clock three times: `refundId` stands
      for the id formatted from the first reading, `processedAt` and `auditedAt`
      for the two later ones. */
  function ProcessRefund(invoiceId: string, reason: string, approvedBy: Option<string>, refundId: string,
                         processedAt: Instant, auditedAt: Instant): (r: Refund)
    ensures r.invoiceId == invoiceId && r.reason == reason && r.refundId == refundId
    ensures r.amount == FullRefundAmount && r.status == "processed"
    ensures r.audit == AuditTrail("refund_processed", "BillingAgent", approvedBy, auditedAt)
    ensures r.processedAt == processedAt
  {
    Refund(refundId, invoiceId, FullRefundAmount, reason, "processed", processedAt,
           AuditTrail("refund_processed", "BillingAgent", approvedBy, auditedAt))
  }

  /** The amount refunded does not depend on the reason, the approver or the clock. */
  lemma RefundAmountFixed(invoiceId: string, r1: string, r2: string, a1: Option<string>, a2: Option<string>,
                          id1: string, id2: string, p1: Instant, p2: Instant, t1: Instant, t2: Instant)
    ensures ProcessRefund(invoiceId, r1, a1, id1, p1, t1).amount == ProcessRefund(invoiceId, r2, a2, id2, p2, t2).amount
  {
  }

  datatype PartialRefund = PartialRefund(
    refundId: string, invoiceId: string, originalAmount: real, percentage: real,
    refundAmount: real, reason: string, status: string, version: string)

  /** `process_partial_refund` (amount before rounding to cents): the percentage is
      not range-checked, so only 0..100 keeps the refund within the invoice. */
  function ProcessPartialRefund(invoiceId: string, percentage: real, reason: string, refundId: string): (r: PartialRefund)
    ensures r.invoiceId == invoiceId && r.reason == reason && r.refundId == refundId
    ensures r.originalAmount == FullRefundAmount && r.percentage == percentage
    ensures r.refundAmount * 100.0 == FullRefundAmount * percentage
    ensures 0.0 <= percentage <= 100.0 ==> 0.0 <= r.refundAmount <= r.originalAmount
    ensures percentage > 100.0 ==> r.refundAmount > r.originalAmount
    ensures percentage == 100.0 ==> r.refundAmount == r.originalAmount
    ensures r.status == "processed" && r.version == "2.0.0"
  {
    PartialRefund(refundId, invoiceId, FullRefundAmount, percentage, FullRefundAmount * (percentage / 100.0),
                  reason, "processed", "2.0.0")
  }

  /** A larger percentage never refunds less. */
  lemma PartialRefundMonotone(invoiceId: string, p1: real, p2: real, reason: string, refundId: string)
    requires p1 <= p2
    ensures ProcessPartialRefund(invoiceId, p1, reason, refundId).refundAmount
            <= ProcessPartialRefund(invoiceId, p2, reason, refundId).refundAmount
  {
  }

  /** A partial refund of 100% returns what the full refund returns. */
  lemma FullPartialIsFullRefund(invoiceId: string, reason: string, approvedBy: Option<string>, refundId: string,
                                processedAt: Instant, auditedAt: Instant)
    ensures ProcessPartialRefund(invoiceId, 100.0, reason, refundId).refundAmount
            == ProcessRefund(invoiceId, reason, approvedBy, refundId, processedAt, auditedAt).amount
  {
  }
}

=== FILE: returns.dfy ===
/** The returns specialist's two policy tools (chapter-3/03_multi_agent/agent.py). */
module Returns {
  import opened Text

  const ValidReasons: seq<string> := ["defective", "wrong_item", "not_as_described", "changed_mind"]
  const FeeFreeReasons: seq<string> := ["defective", "wrong_item", "not_as_described"]
  const ReturnWindowDays: nat := 30
  const RestockingFeeRate: real := 0.15
  const UnknownOrderAmount: real := 100.00

  /** The normalised reason key: lower-cased, spaces turned into underscores. */
  function ReasonKey(reason: string): (key: string)
    ensures |key| == |reason|
    ensures ' ' !in key
  {
    ReplaceChar(Lower(reason), ' ', '_')
  }

  datatype Eligibility = Eligibility(orderId: string, eligible: bool, reason: string, returnWindowDays: nat, nextStep: string)

  /** `check_return_eligibility`: every order is eligible within the 30-day window;
      the reason key it computes is never consulted. */
  function CheckReturnEligibility(orderId: string, reason: string): (e: Eligibility)
    ensures e.eligible && e.returnWindowDays == ReturnWindowDays
    ensures e.orderId == orderId && e.reason == reason
    ensures e.nextStep == "Calculate refund amount"
  {
    Eligibility(orderId, true, reason, ReturnWindowDays, "Calculate refund amount")
  }

  /** The simulated order totals; an unknown order is taken to be 100.00. */
  function OriginalAmount(orderId: string): (amount: real)
    ensures orderId == "ORD-12345" ==> amount == 199.99
    ensures orderId == "ORD-12346" ==> amount == 149.99
    ensures orderId != "ORD-12345" && orderId != "ORD-12346" ==> amount == UnknownOrderAmount
    ensures amount > 0.0
  {
    if orderId == "ORD-12345" then 199.99
    else if orderId == "ORD-12346" then 149.99
    else UnknownOrderAmount
  }

  predicate FeeFree(reason: string) {
    Lower(reason) in FeeFreeReasons
  }

  datatype RefundQuote = RefundQuote(orderId: string, originalAmount: real, restockingFee: real, refundAmount: real)

  /** `calculate_refund_amount` (amounts before rounding to cents). */
  function CalculateRefundAmount(orderId: string, reason: string): (q: RefundQuote)
    ensures q.orderId == orderId && q.originalAmount == OriginalAmount(orderId)
    ensures q.refundAmount + q.restockingFee == q.originalAmount
    ensures FeeFree(reason) <==> q.restockingFee == 0.0
    ensures FeeFree(reason) ==> q.refundAmount == q.originalAmount
    ensures !FeeFree(reason) ==> q.restockingFee == RestockingFeeRate * q.originalAmount
    ensures 0.0 < q.refundAmount <= q.originalAmount
  {
    var original := OriginalAmount(orderId);
    if FeeFree(reason) then RefundQuote(orderId, original, 0.0, original)
    else
      var fee := RestockingFeeRate * original;
      RefundQuote(orderId, original, fee, original - fee)
  }

  /** Every order the eligibility check accepts, whatever the reason, gets a quote
      for that order refunding a positive amount no larger than what was paid. */
  lemma EligibleOrdersAreQuoted(orderId: string, reason: string)
    ensures CheckReturnEligibility(orderId, reason).eligible
    ensures CalculateRefundAmount(CheckReturnEligibility(orderId, reason).orderId, reason).orderId == orderId
    ensures 0.0 < CalculateRefundAmount(orderId, reason).refundAmount <= OriginalAmount(orderId)
  {
  }

  /** The fee decision ignores case. */
  lemma RefundIgnoresCase(orderId: string, reason: string)
    ensures CalculateRefundAmount(orderId, Upper(reason)) == CalculateRefundAmount(orderId, reason)
  {
    CaseMappingIdempotent(reason);
  }

  /** "wrong item" normalises to the listed reason `wrong_item` in the eligibility
      check, but the refund compares the reason without that normalisation and
      charges the restocking fee. */
  lemma {:induction false} SpacedReasonIsCharged(orderId: string)
    ensures ReasonKey("wrong item") in ValidReasons
    ensures CalculateRefundAmount(orderId, "wrong item").restockingFee > 0.0
  {
    assert ReasonKey("wrong item") == "wrong_item";
    assert Lower("wrong item") == "wrong item";
    assert !FeeFree("wrong item");
  }
}

=== FILE: shopping_cart.dfy ===
/** The stateful shopping-cart tools (chapter-3/04_stateful_agent/agent.py).
    The tool context's state dictionary becomes a `CartState` value: the `user:`
    keys (cart, saved cart, order counter, last order), the `temp:` keys (browse
    counter, last action, validation status) and the one `app:` policy key (saved
    cart expiry in days). Every tool maps a state to a new state and a reply. */
module ShoppingCart {
  import opened Common
  import opened Text

  // ---------------------------------------------------------------------------
  // Catalogue
  // ---------------------------------------------------------------------------

  datatype Product = Product(name: string, price: real, category: string)

  const Products: map<string, Product> := map[
    "SH-DOORBELL-PRO" := Product("SmartHome Doorbell Pro", 199.99, "Security"),
    "SH-THERMOSTAT" := Product("Smart Thermostat", 149.99, "Climate"),
    "SH-LOCK" := Product("Smart Lock", 249.99, "Security"),
    "SH-LIGHT-4PK" := Product("Smart Light Bulb 4-Pack", 49.99, "Lighting"),
    "SH-CAMERA-IN" := Product("Indoor Security Camera", 129.99, "Security"),
    "SH-CAMERA-OUT" := Product("Outdoor Security Camera", 179.99, "Security"),
    "SH-SPEAKER" := Product("Smart Speaker Hub", 99.99, "Hub")]

  // ---------------------------------------------------------------------------
  // State
  // ---------------------------------------------------------------------------

  datatype CartItem = CartItem(productId: string, name: string, price: real, quantity: int)

  /** A cart dictionary; `savedAt` is the `saved_at` stamp written when it was saved. */
  datatype Cart = Cart(items: seq<CartItem>, total: real, savedAt: Option<Instant>)

  datatype Order = Order(orderNumber: string, items: seq<CartItem>, total: real)

  datatype Validation = Failed | Succeeded

  /** The state keys the tools read and write; a missing key is `None` (or the
      default the tools read it with). */
  datatype CartState = CartState(
    cart: Option<Cart>,               // user:cart
    savedCart: Option<Cart>,          // user:saved_cart
    cartSaved: bool,                  // user:cart_saved
    cartSavedDate: Option<Instant>,   // user:cart_saved_date
    orderCount: nat,                  // user:order_count
    lastOrder: Option<Order>,         // user:last_order
    browseCount: nat,                 // temp:browse_count
    lastAction: Option<string>,       // temp:last_action
    validation: Option<Validation>,   // temp:validation_status
    expiryDays: Option<int>)          // app:saved_cart_expiry_days

  const EmptyCart: Cart := Cart([], 0.0, None)
  const DefaultExpiryDays: int := 30

  /** `state.get("user:cart", {"items": [], "total": 0.0})` */
  function CurrentCart(st: CartState): Cart {
    st.cart.GetOr(EmptyCart)
  }

  /** `sum(item["price"] * item["quantity"] for item in items)` */
  function LineTotal(items: seq<CartItem>): real {
    if |items| == 0 then 0.0
    else LineTotal(items[..|items| - 1]) + items[|items| - 1].price * items[|items| - 1].quantity as real
  }

  /** A cart whose stored total is the sum of its lines. */
  predicate TotalsAgree(c: Cart) {
    c.total == LineTotal(c.items)
  }

  /** Every cart the state holds has a consistent total. */
  predicate ValidState(st: CartState) {
    && (st.cart.Some? ==> TotalsAgree(st.cart.value))
    && (st.savedCart.Some? ==> TotalsAgree(st.savedCart.value))
    && (st.lastOrder.Some? ==> st.lastOrder.value.total == LineTotal(st.lastOrder.value.items))
  }

  lemma {:induction false} LineTotalAppend(items: seq<CartItem>, more: seq<CartItem>)
    ensures LineTotal(items + more) == LineTotal(items) + LineTotal(more)
    decreases |more|
  {
    if |more| == 0 {
      assert items + more == items;
    } else {
      var init := more[..|more| - 1];
      assert (items + more)[..|items + more| - 1] == items + init;
      LineTotalAppend(items, init);
    }
  }

  // ---------------------------------------------------------------------------
  // Browsing
  // ---------------------------------------------------------------------------

  datatype Listing = Listing(category: string, products: map<string, Product>, count: nat)

  /** `browse_products`: an empty or absent category lists everything; otherwise
      the categories are compared ignoring case. The browse counter grows by one. */
  function BrowseProducts(st: CartState, category: Option<string>): (r: (CartState, Listing))
    ensures r.0 == st.(browseCount := st.browseCount + 1, lastAction := r.0.lastAction)
    ensures r.1.count == |r.1.products|
    ensures r.1.products.Keys <= Products.Keys
    ensures forall pid :: pid in r.1.products ==> r.1.products[pid] == Products[pid]
    ensures category.None? || category == Some("") ==> r.1.products == Products && r.1.category == "all"
    ensures category.Some? && category != Some("") ==>
      forall pid :: pid in Products ==> (pid in r.1.products <==> Lower(Products[pid].category) == Lower(category.value))
  {
    var shown := if category.None? || category == Some("") then "all" else category.value;
    var st' := st.(browseCount := st.browseCount + 1, lastAction := Some("Browsed " + shown + " products"));
    if category.None? || category == Some("") then
      (st', Listing("all", Products, |Products|))
    else
      var filtered := map pid | pid in Products && Lower(Products[pid].category) == Lower(category.value) :: Products[pid];
      (st', Listing(category.value, filtered, |filtered|))
  }

  /** Browsing with the category in any letter case lists the same products. */
  lemma BrowseIgnoresCase(st: CartState, a: string, b: string)
    requires a != "" && Lower(a) == Lower(b)
    ensures BrowseProducts(st, Some(a)).1.products == BrowseProducts(st, Some(b)).1.products
  {
  }

  // ---------------------------------------------------------------------------
  // Cart edits
  // ---------------------------------------------------------------------------

  datatype AddReply = ProductNotFound(productId: string) | Added(productName: string, quantity: int, cartTotal: real)

  /** `add_to_cart`: appends one line for a catalogue product (any quantity) and
      recomputes the total. An unknown product changes nothing. */
  function AddToCart(st: CartState, productId: string, quantity: int): (r: (CartState, AddReply))
    ensures r.1.ProductNotFound? <==> productId !in Products
    ensures r.1.ProductNotFound? ==> r.0 == st
    ensures r.1.Added? ==>
      && r.0.cart == Some(CurrentCart(st).(
           items := CurrentCart(st).items + [CartItem(productId, Products[productId].name, Products[productId].price, quantity)],
           total := r.1.cartTotal))
      && TotalsAgree(r.0.cart.value)
      && r.0 == st.(cart := r.0.cart, lastAction := r.0.lastAction)
  {
    if productId !in Products then (st, ProductNotFound(productId))
    else
      var p := Products[productId];
      var c := CurrentCart(st);
      var items := c.items + [CartItem(productId, p.name, p.price, quantity)];
      var total := LineTotal(items);
      (st.(cart := Some(c.(items := items, total := total)), lastAction := Some("Added " + p.name)),
       Added(p.name, quantity, total))
  }

  /** On a consistent cart, adding grows the total by exactly price times quantity. */
  lemma {:induction false} AddToCartTotal(st: CartState, productId: string, quantity: int)
    requires ValidState(st) && productId in Products
    ensures AddToCart(st, productId, quantity).1.cartTotal
            == CurrentCart(st).total + Products[productId].price * quantity as real
    ensures ValidState(AddToCart(st, productId, quantity).0)
  {
    var p := Products[productId];
    var item := CartItem(productId, p.name, p.price, quantity);
    LineTotalAppend(CurrentCart(st).items, [item]);
    assert LineTotal([item]) == p.price * quantity as real by {
      assert [item][..0] == [];
    }
  }

  datatype ViewReply = CartEmpty | Contents(items: seq<CartItem>, total: real, itemCount: nat)

  /** `view_cart` */
  function ViewCart(st: CartState): (r: (CartState, ViewReply))
    ensures r.0 == st.(lastAction := Some("Viewed cart"))
    ensures r.1.CartEmpty? <==> |CurrentCart(st).items| == 0
    ensures r.1.Contents? ==> r.1.items == CurrentCart(st).items && r.1.itemCount == |r.1.items| && r.1.total == CurrentCart(st).total
  {
    var c := CurrentCart(st);
    var st' := st.(lastAction := Some("Viewed cart"));
    if |c.items| == 0 then (st', CartEmpty) else (st', Contents(c.items, c.total, |c.items|))
  }

  /** The lines not for `productId`, in order. */
  function WithoutProduct(items: seq<CartItem>, productId: string): (r: seq<CartItem>)
    ensures |r| <= |items|
    ensures forall x :: x in r <==> x in items && x.productId != productId
    ensures |r| == |items| <==> forall i :: 0 <= i < |items| ==> items[i].productId != productId
  {
    if |items| == 0 then []
    else
      var rest := WithoutProduct(items[..|items| - 1], productId);
      var last := items[|items| - 1];
      assert items == items[..|items| - 1] + [last];
      assert forall i :: 0 <= i < |items| - 1 ==> items[..|items| - 1][i] == items[i];
      if last.productId != productId then rest + [last] else rest
  }

  /** Every line not for `productId` is kept as many times as it occurs, and no line
      for it survives. */
  lemma {:induction false} WithoutProductCounts(items: seq<CartItem>, productId: string)
    ensures forall x :: multiset(WithoutProduct(items, productId))[x]
                        == if x.productId != productId then multiset(items)[x] else 0
  {
    if |items| > 0 {
      var init := items[..|items| - 1];
      var last := items[|items| - 1];
      WithoutProductCounts(init, productId);
      assert items == init + [last];
      assert multiset(items) == multiset(init) + multiset{last};
      if last.productId != productId {
        assert WithoutProduct(items, productId) == WithoutProduct(init, productId) + [last];
        assert multiset(WithoutProduct(items, productId)) == multiset(WithoutProduct(init, productId)) + multiset{last};
      } else {
        assert WithoutProduct(items, productId) == WithoutProduct(init, productId);
      }
    }
  }

  /** Dropping a product's lines distributes over concatenation, so the kept lines
      stay in their original order. */
  lemma {:induction false} WithoutProductAppend(a: seq<CartItem>, b: seq<CartItem>, productId: string)
    ensures WithoutProduct(a + b, productId) == WithoutProduct(a, productId) + WithoutProduct(b, productId)
    decreases |b|
  {
    if |b| == 0 {
      assert a + b == a;
    } else {
      var b' := b[..|b| - 1];
      var y := b[|b| - 1];
      assert (a + b)[..|a + b| - 1] == a + b';
      assert (a + b)[|a + b| - 1] == y;
      WithoutProductAppend(a, b', productId);
    }
  }

  datatype RemoveReply = NotInCart(productId: string) | Removed(productId: string, cartTotal: real, cartItems: nat)

  /** `remove_from_cart`: drops every line for the product; if there was none the
      state is left as it was. */
  function RemoveFromCart(st: CartState, productId: string): (r: (CartState, RemoveReply))
    ensures r.1.NotInCart? <==> forall x :: x in CurrentCart(st).items ==> x.productId != productId
    ensures r.1.NotInCart? ==> r.0 == st
    ensures r.1.Removed? ==>
      && r.0.cart.Some?
      && (forall x :: x in r.0.cart.value.items <==> x in CurrentCart(st).items && x.productId != productId)
      && (forall x :: multiset(r.0.cart.value.items)[x]
                      == if x.productId != productId then multiset(CurrentCart(st).items)[x] else 0)
      && |r.0.cart.value.items| < |CurrentCart(st).items|
      && TotalsAgree(r.0.cart.value)
      && r.1.cartItems == |r.0.cart.value.items|
      && r.1.cartTotal == r.0.cart.value.total
      && r.0 == st.(cart := r.0.cart, lastAction := r.0.lastAction)
  {
    var c := CurrentCart(st);
    var kept := WithoutProduct(c.items, productId);
    WithoutProductCounts(c.items, productId);
    if |kept| == |c.items| then (st, NotInCart(productId))
    else
      var total := LineTotal(kept);
      (st.(cart := Some(c.(items := kept, total := total)), lastAction := Some("Removed " + productId)),
       Removed(productId, total, |kept|))
  }

  /** `clear_cart` */
  function ClearCart(st: CartState): (r: CartState)
    ensures CurrentCart(r).items == [] && CurrentCart(r).total == 0.0
    ensures ValidState(st) ==> ValidState(r)
    ensures r == st.(cart := Some(EmptyCart), lastAction := Some("Cleared cart"))
  {
    st.(cart := Some(EmptyCart), lastAction := Some("Cleared cart"))
  }

  // ---------------------------------------------------------------------------
  // Checkout
  // ---------------------------------------------------------------------------

  const OrderPrefix: string := "ORD-"
  const OrderDigits: nat := 5

  /** `f"ORD-{n:05d}"` */
  function OrderNumber(n: nat): (s: string)
    ensures |s| >= |OrderPrefix| + OrderDigits && s[..|OrderPrefix|] == OrderPrefix
    ensures AllDigits(s[|OrderPrefix|..]) && DecimalValue(s[|OrderPrefix|..]) == n
  {
    PadNumberRoundTrip(n, OrderDigits);
    var s := OrderPrefix + PadNumber(n, OrderDigits);
    assert s[|OrderPrefix|..] == PadNumber(n, OrderDigits);
    s
  }

  lemma OrderNumberInjective(m: nat, n: nat)
    requires OrderNumber(m) == OrderNumber(n)
    ensures m == n
  {
  }

  datatype CheckoutReply = EmptyCartCheckout | Confirmed(orderNumber: string, totalCharged: real, itemsOrdered: nat)

  /** `checkout`: an empty cart is refused; otherwise the order counter advances,
      the order is recorded under the next number and the cart is emptied. */
  function Checkout(st: CartState): (r: (CartState, CheckoutReply))
    ensures r.1.EmptyCartCheckout? <==> |CurrentCart(st).items| == 0
    ensures r.1.EmptyCartCheckout? ==> r.0 == st
    ensures r.1.Confirmed? ==>
      && r.0.orderCount == st.orderCount + 1
      && r.1.orderNumber == OrderNumber(st.orderCount + 1)
      && r.0.lastOrder == Some(Order(r.1.orderNumber, CurrentCart(st).items, CurrentCart(st).total))
      && r.1.totalCharged == CurrentCart(st).total
      && r.1.itemsOrdered == |CurrentCart(st).items| > 0
      && r.0.cart == Some(EmptyCart)
      && r.0.lastAction == Some("Completed order " + r.1.orderNumber)
      && (ValidState(st) ==> ValidState(r.0))
    ensures r.1.Confirmed? ==>
      && r.0.savedCart == st.savedCart && r.0.cartSaved == st.cartSaved && r.0.cartSavedDate == st.cartSavedDate
      && r.0.browseCount == st.browseCount && r.0.validation == st.validation && r.0.expiryDays == st.expiryDays
  {
    var c := CurrentCart(st);
    if |c.items| == 0 then (st, EmptyCartCheckout)
    else
      var number := OrderNumber(st.orderCount + 1);
      (st.(orderCount := st.orderCount + 1, lastOrder := Some(Order(number, c.items, c.total)),
           cart := Some(EmptyCart), lastAction := Some("Completed order " + number)),
       Confirmed(number, c.total, |c.items|))
  }

  /** Two successive confirmed checkouts, with any cart edits in between, carry
      different order numbers. */
  lemma SuccessiveOrdersDiffer(st: CartState, mid: CartState)
    requires Checkout(st).1.Confirmed?
    requires mid.orderCount >= Checkout(st).0.orderCount
    requires Checkout(mid).1.Confirmed?
    ensures Checkout(st).1.orderNumber != Checkout(mid).1.orderNumber
  {
  }

  // ---------------------------------------------------------------------------
  // Saved carts
  // ---------------------------------------------------------------------------

  datatype SaveReply = NoCartToSave | Saved(savedItems: nat, expiresInDays: int)

  /** `save_cart_for_later`: stamps the cart with `now` and keeps a copy as the
      saved cart. An absent or empty cart fails and records the failed validation. */
  function SaveCartForLater(st: CartState, now: Instant): (r: (CartState, SaveReply))
    ensures r.1.NoCartToSave? <==> st.cart.None? || |st.cart.value.items| == 0
    ensures r.1.NoCartToSave? ==> r.0 == st.(validation := Some(Failed))
    ensures r.1.Saved? ==>
      && r.0.savedCart == r.0.cart == Some(st.cart.value.(savedAt := Some(now)))
      && r.0.cartSaved && r.0.cartSavedDate == Some(now)
      && r.0.validation == Some(Succeeded)
      && r.1.savedItems == |st.cart.value.items|
      && r.1.expiresInDays == st.expiryDays.GetOr(DefaultExpiryDays)
      && (ValidState(st) ==> ValidState(r.0))
    ensures r.1.Saved? ==>
      && r.0.orderCount == st.orderCount && r.0.lastOrder == st.lastOrder && r.0.browseCount == st.browseCount
      && r.0.lastAction == st.lastAction && r.0.expiryDays == st.expiryDays
  {
    if st.cart.None? || |st.cart.value.items| == 0 then (st.(validation := Some(Failed)), NoCartToSave)
    else
      var stamped := st.cart.value.(savedAt := Some(now));
      (st.(cart := Some(stamped), cartSaved := true, cartSavedDate := Some(now), savedCart := Some(stamped),
           validation := Some(Succeeded)),
       Saved(|stamped.items|, st.expiryDays.GetOr(DefaultExpiryDays)))
  }

  datatype ExpiryReply =
    | NoSavedCart
    | Expired(daysOld: int, maxDays: int)
    | Valid(daysOld: int, daysRemaining: int, itemCount: nat, total: real)
    | ValidUnstamped(items: seq<CartItem>)

  /** `check_cart_expiry`: a saved cart is expired once it is more whole days old
      than the policy allows (30 days unless the app state says otherwise). */
  function CheckCartExpiry(st: CartState, now: Instant): (r: ExpiryReply)
    ensures r.NoSavedCart? <==> st.savedCart.None?
    ensures st.savedCart.Some? && st.savedCart.value.savedAt.Some? ==>
      var age := ElapsedDays(st.savedCart.value.savedAt.value, now);
      var maxDays := st.expiryDays.GetOr(DefaultExpiryDays);
      && (r.Expired? <==> age > maxDays)
      && (r.Expired? ==> r.daysOld == age && r.maxDays == maxDays)
      && (r.Valid? ==> r.daysOld == age && r.daysRemaining == maxDays - age >= 0)
    ensures r.Valid? ==> r.itemCount == |st.savedCart.value.items| && r.total == st.savedCart.value.total
    ensures r.ValidUnstamped? <==> st.savedCart.Some? && st.savedCart.value.savedAt.None?
    ensures r.ValidUnstamped? ==> r.items == st.savedCart.value.items
  {
    match st.savedCart
    case None => NoSavedCart
    case Some(saved) =>
      var maxDays := st.expiryDays.GetOr(DefaultExpiryDays);
      match saved.savedAt
      case None => ValidUnstamped(saved.items)
      case Some(at) =>
        var age := ElapsedDays(at, now);
        if age > maxDays then Expired(age, maxDays)
        else Valid(age, maxDays - age, |saved.items|, saved.total)
  }

  /** A cart saved at `now` is valid for the whole policy period and expires the
      day after it ends (for a non-negative policy). */
  lemma {:induction false} SavedCartLifetime(st: CartState, now: Instant, later: Instant)
    requires SaveCartForLater(st, now).1.Saved?
    requires st.expiryDays.GetOr(DefaultExpiryDays) >= 0
    requires now <= later
    ensures CheckCartExpiry(SaveCartForLater(st, now).0, later).Valid?
            <==> later - now < (st.expiryDays.GetOr(DefaultExpiryDays) + 1) * MicrosPerDay
    ensures CheckCartExpiry(SaveCartForLater(st, now).0, now)
            == Valid(0, st.expiryDays.GetOr(DefaultExpiryDays), |st.cart.value.items|, st.cart.value.total)
  {
    var maxDays := st.expiryDays.GetOr(DefaultExpiryDays);
    var age := ElapsedDays(now, later);
    if later - now < (maxDays + 1) * MicrosPerDay {
      assert age * MicrosPerDay < (maxDays + 1) * MicrosPerDay;
      assert age < maxDays + 1;
    } else {
      assert (age + 1) * MicrosPerDay > (maxDays + 1) * MicrosPerDay;
      assert age > maxDays;
    }
  }

  datatype RestoreReply = NothingToRestore | Restored(itemCount: nat, total: real)

  /** `restore_saved_cart`: the saved cart becomes the current cart. */
  function RestoreSavedCart(st: CartState): (r: (CartState, RestoreReply))
    ensures r.1.NothingToRestore? <==> st.savedCart.None?
    ensures r.1.NothingToRestore? ==> r.0 == st
    ensures r.1.Restored? ==>
      && r.0.cart == st.savedCart
      && r.0 == st.(cart := st.savedCart, lastAction := Some("Restored saved cart"))
      && r.1.itemCount == |st.savedCart.value.items| && r.1.total == st.savedCart.value.total
      && (ValidState(st) ==> ValidState(r.0))
  {
    match st.savedCart
    case None => (st, NothingToRestore)
    case Some(saved) =>
      (st.(cart := Some(saved), lastAction := Some("Restored saved cart")), Restored(|saved.items|, saved.total))
  }

  /** Saving, emptying the cart and restoring brings back the saved lines and total. */
  lemma SaveClearRestore(st: CartState, now: Instant)
    requires SaveCartForLater(st, now).1.Saved?
    ensures CurrentCart(RestoreSavedCart(ClearCart(SaveCartForLater(st, now).0)).0).items == st.cart.value.items
    ensures CurrentCart(RestoreSavedCart(ClearCart(SaveCartForLater(st, now).0)).0).total == st.cart.value.total
  {
  }
}

=== FILE: support_desk.dfy ===
/** The two local tools of the MCP support agent (chapter-4/04_mcp_agent/agent.py):
    a two-year warranty check over calendar dates and support-ticket creation. The
    current time and the random ticket id are parameters. */
module SupportDesk {
  import opened Common
  import opened Text

  // ---------------------------------------------------------------------------
  // Proleptic Gregorian calendar
  // ---------------------------------------------------------------------------

  datatype Date = Date(year: int, month: int, day: int)

  predicate IsLeap(y: int) {
    y % 4 == 0 && (y % 100 != 0 || y % 400 == 0)
  }

  const DaysBeforeMonthTable: seq<int> := [0, 31, 59, 90, 120, 151, 181, 212, 243, 273, 304, 334]
  const MonthLengths: seq<int> := [31, 28, 31, 30, 31, 30, 31, 31, 30, 31, 30, 31]

  function DaysInMonth(y: int, m: int): (n: int)
    requires 1 <= m <= 12
    ensures 28 <= n <= 31
  {
    if m == 2 && IsLeap(y) then 29 else MonthLengths[m - 1]
  }

  /** The dates `datetime` can represent: years 1 to 9999. */
  predicate ValidDate(d: Date) {
    1 <= d.year <= 9999 && 1 <= d.month <= 12 && 1 <= d.day <= DaysInMonth(d.year, d.month)
  }

  function DaysBeforeYear(y: int): int
    requires y >= 1
  {
    var p := y - 1;
    365 * p + p / 4 - p / 100 + p / 400
  }

  /** `date.toordinal()`: 0001-01-01 is day 1. */
  function Ordinal(d: Date): (n: int)
    requires ValidDate(d)
    ensures n >= 1
  {
    DaysBeforeYear(d.year) + DaysBeforeMonthTable[d.month - 1]
      + (if d.month > 2 && IsLeap(d.year) then 1 else 0) + d.day
  }

  /** The ordinal of 9999-12-31, the last day `datetime` represents. */
  const MaxOrdinal: int := 3_652_059

  lemma OrdinalBounds()
    ensures Ordinal(Date(1, 1, 1)) == 1
    ensures Ordinal(Date(9999, 12, 31)) == MaxOrdinal
  {
  }

  // ---------------------------------------------------------------------------
  // YYYY-MM-DD
  // ---------------------------------------------------------------------------

  /** The `%Y-%m-%d` shape with every field written out in full. */
  predicate IsoShape(s: string) {
    |s| == 10 && s[4] == '-' && s[7] == '-'
    && AllDigits(s[..4]) && AllDigits(s[5..7]) && AllDigits(s[8..])
  }

  /** `datetime.strptime(s, "%Y-%m-%d")` on fully padded input: the fields read as
      numbers, and a date the calendar does not have is rejected. */
  function ParseDate(s: string): (r: Option<Date>)
    ensures r.Some? ==> ValidDate(r.value)
    ensures r.Some? <==> IsoShape(s)
                         && ValidDate(Date(DecimalValue(s[..4]), DecimalValue(s[5..7]), DecimalValue(s[8..])))
  {
    if !IsoShape(s) then None
    else
      var d := Date(DecimalValue(s[..4]), DecimalValue(s[5..7]), DecimalValue(s[8..]));
      if ValidDate(d) then Some(d) else None
  }

  /** `strftime("%Y-%m-%d")` */
  function FormatDate(d: Date): (s: string)
    requires ValidDate(d)
    ensures |s| == 10
  {
    assert Pow10(4) == 10000 && Pow10(2) == 100;
    PadNumberExact(d.year, 4);
    PadNumberExact(d.month, 2);
    PadNumberExact(d.day, 2);
    PadNumber(d.year, 4) + "-" + PadNumber(d.month, 2) + "-" + PadNumber(d.day, 2)
  }

  /** The three fields of a `YYYY-MM-DD` string sit at fixed positions. */
  lemma IsoFields(y: string, m: string, d: string)
    requires |y| == 4 && |m| == 2 && |d| == 2
    ensures var s := y + "-" + m + "-" + d;
            |s| == 10 && s[4] == '-' && s[7] == '-' && s[..4] == y && s[5..7] == m && s[8..] == d
  {
  }

  /** A number below `10^w` pads to exactly `w` digits that read back as the number. */
  lemma PadNumberExact(n: nat, w: nat)
    requires w >= 1 && n < Pow10(w)
    ensures |PadNumber(n, w)| == w && AllDigits(PadNumber(n, w)) && DecimalValue(PadNumber(n, w)) == n
  {
    NatToStringWidth(n, w);
    PadNumberRoundTrip(n, w);
  }

  /** Every representable date survives formatting and parsing unchanged. */
  lemma {:induction false} ParseFormatRoundTrip(d: Date)
    requires ValidDate(d)
    ensures ParseDate(FormatDate(d)) == Some(d)
  {
    var y, m, dd := PadNumber(d.year, 4), PadNumber(d.month, 2), PadNumber(d.day, 2);
    assert Pow10(4) == 10000 && Pow10(2) == 100;
    PadNumberExact(d.year, 4);
    PadNumberExact(d.month, 2);
    PadNumberExact(d.day, 2);
    IsoFields(y, m, dd);
    var s := FormatDate(d);
    assert s == y + "-" + m + "-" + dd;
    assert IsoShape(s);
    assert Date(DecimalValue(s[..4]), DecimalValue(s[5..7]), DecimalValue(s[8..])) == d;
  }

  // ---------------------------------------------------------------------------
  // Warranty check
  // ---------------------------------------------------------------------------

  const WarrantyDays: int := 730

  /** Midnight at the start of a date, on the time line where 0001-01-01 00:00 is 0. */
  function Midnight(d: Date): Instant
    requires ValidDate(d)
  {
    (Ordinal(d) - 1) * MicrosPerDay
  }

  datatype Warranty =
    | InvalidDateFormat
      /** `purchase + timedelta(days=730)` leaves the representable range and raises. */
    | EndOutOfRange
    | Status(product: string, purchaseDate: string, warrantyEndOrdinal: int, valid: bool,
             daysRemaining: nat, coverage: string)

  /** The status report for a purchase date whose warranty end is representable. */
  function WarrantyFrom(productName: string, purchaseDate: string, purchase: Date, now: Instant): (w: Warranty)
    requires ValidDate(purchase) && Ordinal(purchase) + WarrantyDays <= MaxOrdinal
    ensures w.Status? && w.product == productName && w.purchaseDate == purchaseDate
    ensures w.warrantyEndOrdinal == Ordinal(purchase) + WarrantyDays
    ensures w.valid <==> now < (w.warrantyEndOrdinal - 1) * MicrosPerDay
    ensures !w.valid ==> w.daysRemaining == 0
    ensures w.valid ==> w.daysRemaining * MicrosPerDay <= (w.warrantyEndOrdinal - 1) * MicrosPerDay - now < (w.daysRemaining + 1) * MicrosPerDay
    ensures w.coverage == "Full replacement or repair" <==> w.valid
    ensures w.coverage == "Expired" <==> !w.valid
  {
    var endOrdinal := Ordinal(purchase) + WarrantyDays;
    var warrantyEnd := Midnight(purchase) + WarrantyDays * MicrosPerDay;
    assert warrantyEnd == (endOrdinal - 1) * MicrosPerDay;
    var isValid := now < warrantyEnd;
    var days := if isValid then ElapsedDays(now, warrantyEnd) else 0;
    Status(productName, purchaseDate, endOrdinal, isValid, if days < 0 then 0 else days,
           if isValid then "Full replacement or repair" else "Expired")
  }

  /** `check_warranty_status`, with `now` standing for `datetime.now()`. */
  function CheckWarrantyStatus(productName: string, purchaseDate: string, now: Instant): (w: Warranty)
    ensures w == InvalidDateFormat <==> ParseDate(purchaseDate).None?
    ensures w == EndOutOfRange <==> ParseDate(purchaseDate).Some? && Ordinal(ParseDate(purchaseDate).value) + WarrantyDays > MaxOrdinal
    ensures w.Status? ==> ParseDate(purchaseDate).Some? && w == WarrantyFrom(productName, purchaseDate, ParseDate(purchaseDate).value, now)
  {
    match ParseDate(purchaseDate)
    case None => InvalidDateFormat
    case Some(purchase) =>
      if Ordinal(purchase) + WarrantyDays > MaxOrdinal then EndOutOfRange
      else WarrantyFrom(productName, purchaseDate, purchase, now)
  }

  /** As time passes the warranty can only lapse, and the days left never grow. */
  lemma {:induction false} WarrantyRunsDown(productName: string, purchaseDate: string, earlier: Instant, later: Instant)
    requires earlier <= later
    requires CheckWarrantyStatus(productName, purchaseDate, earlier).Status?
    ensures CheckWarrantyStatus(productName, purchaseDate, later).Status?
    ensures CheckWarrantyStatus(productName, purchaseDate, later).valid ==> CheckWarrantyStatus(productName, purchaseDate, earlier).valid
    ensures CheckWarrantyStatus(productName, purchaseDate, later).daysRemaining <= CheckWarrantyStatus(productName, purchaseDate, earlier).daysRemaining
  {
    var a := CheckWarrantyStatus(productName, purchaseDate, earlier);
    var b := CheckWarrantyStatus(productName, purchaseDate, later);
    var e := (a.warrantyEndOrdinal - 1) * MicrosPerDay;
    if b.valid {
      assert b.daysRemaining * MicrosPerDay <= e - later <= e - earlier < (a.daysRemaining + 1) * MicrosPerDay;
    }
  }

  /** The whole-day quotient is unique: `q` days fit in `k` days and `q + 1` do not only when `q == k`. */
  lemma {:induction false} WholeDaysUnique(q: int, k: int, m: int)
    requires m > 0 && q * m <= k * m < (q + 1) * m
    ensures q == k
  {
    assert (q - k) * m <= 0 && (k - q) * m < m;
  }

  /** At the moment of purchase the warranty computed from the parsed date has all 730 days left. */
  lemma {:induction false} FreshWarrantyIsFull(productName: string, purchaseDate: string, d: Date)
    requires ValidDate(d) && Ordinal(d) + WarrantyDays <= MaxOrdinal
    ensures WarrantyFrom(productName, purchaseDate, d, Midnight(d)).valid
    ensures WarrantyFrom(productName, purchaseDate, d, Midnight(d)).daysRemaining == WarrantyDays
  {
    var w := WarrantyFrom(productName, purchaseDate, d, Midnight(d));
    var gap := (w.warrantyEndOrdinal - 1) * MicrosPerDay - Midnight(d);
    assert gap == WarrantyDays * MicrosPerDay;
    assert w.valid;
    WholeDaysUnique(w.daysRemaining, WarrantyDays, MicrosPerDay);
  }

  /** At the moment of purchase a fresh warranty has all 730 days left. */
  lemma {:induction false} PurchaseDayHasFullWarranty(productName: string, d: Date)
    requires ValidDate(d) && Ordinal(d) + WarrantyDays <= MaxOrdinal
    ensures CheckWarrantyStatus(productName, FormatDate(d), Midnight(d)).Status?
    ensures CheckWarrantyStatus(productName, FormatDate(d), Midnight(d)).valid
    ensures CheckWarrantyStatus(productName, FormatDate(d), Midnight(d)).daysRemaining == WarrantyDays
  {
    ParseFormatRoundTrip(d);
    FreshWarrantyIsFull(productName, FormatDate(d), d);
  }

  // ---------------------------------------------------------------------------
  // Support tickets
  // ---------------------------------------------------------------------------

  datatype Ticket = Ticket(ticketId: string, customerId: string, issueSummary: string, priority: string,
                           status: string, createdAt: Instant, estimatedResponse: string)

  const DefaultPriority: string := "medium"

  /** `create_support_ticket`: always open; low and medium priority (spelt exactly
      so) get a 24-hour response, everything else 4 hours. */
  function CreateSupportTicket(customerId: string, issueSummary: string, priority: string, ticketId: string, now: Instant): (t: Ticket)
    ensures t.status == "open" && t.customerId == customerId && t.issueSummary == issueSummary && t.priority == priority
    ensures t.estimatedResponse == "24 hours" <==> priority in ["low", "medium"]
    ensures t.estimatedResponse == "4 hours" <==> priority !in ["low", "medium"]
  {
    Ticket(ticketId, customerId, issueSummary, priority, "open", now,
           if priority in ["low", "medium"] then "24 hours" else "4 hours")
  }

  /** The promised response time depends on the priority alone. */
  lemma ResponseDependsOnPriorityOnly(c1: string, c2: string, s1: string, s2: string, priority: string,
                                      id1: string, id2: string, t1: Instant, t2: Instant)
    ensures CreateSupportTicket(c1, s1, priority, id1, t1).estimatedResponse
            == CreateSupportTicket(c2, s2, priority, id2, t2).estimatedResponse
  {
  }

  /** The priority test is case-sensitive: "Low" is answered as fast as "urgent". */
  lemma CapitalisedPriorityIsUrgent(customerId: string, summary: string, id: string, now: Instant)
    ensures CreateSupportTicket(customerId, summary, "Low", id, now).estimatedResponse == "4 hours"
    ensures CreateSupportTicket(customerId, summary, DefaultPriority, id, now).estimatedResponse == "24 hours"
  {
    assert "Low" != "low";
  }
}

=== FILE: text.dfy ===
/** The handful of Python string built-ins the tools rely on: case mapping,
    the `in` substring test, `strip()`, `split(sep)` / `sep.join(...)`, and
    decimal rendering of non-negative integers (`str(n)`, `f"{n:05d}"`). */
module Text {

  // ---------------------------------------------------------------------------
  // Case mapping (ASCII letters; see README for non-ASCII letters)
  // ---------------------------------------------------------------------------

  function LowerChar(c: char): char {
    if 'A' <= c <= 'Z' then (c as int + 32) as char else c
  }

  function UpperChar(c: char): char {
    if 'a' <= c <= 'z' then (c as int - 32) as char else c
  }

  /** `s.lower()` */
  function Lower(s: string): string {
    seq(|s|, i requires 0 <= i < |s| => LowerChar(s[i]))
  }

  /** `s.upper()` */
  function Upper(s: string): string {
    seq(|s|, i requires 0 <= i < |s| => UpperChar(s[i]))
  }

  /** Case mapping forgets the case it started from: strings that differ only in
      letter case map to the same string. */
  lemma CaseMappingIdempotent(s: string)
    ensures Lower(Lower(s)) == Lower(s) && Upper(Upper(s)) == Upper(s)
    ensures Lower(Upper(s)) == Lower(s) && Upper(Lower(s)) == Upper(s)
  {
  }

  // ---------------------------------------------------------------------------
  // Substring test
  // ---------------------------------------------------------------------------

  /** `needle` occurs in `hay` starting at position `i`. */
  predicate OccursAt(hay: string, needle: string, i: int) {
    0 <= i <= |hay| - |needle| && hay[i..i + |needle|] == needle
  }

  /** Python's `needle in hay` on strings: `needle` occurs at some position. */
  predicate Contains(hay: string, needle: string) {
    exists i | 0 <= i <= |hay| - |needle| :: OccursAt(hay, needle, i)
  }

  /** Some string of `needles` occurs in `hay` (`any(n in hay for n in needles)`). */
  predicate ContainsAny(hay: string, needles: seq<string>) {
    exists k | 0 <= k < |needles| :: Contains(hay, needles[k])
  }

  // ---------------------------------------------------------------------------
  // Whitespace and strip()
  // ---------------------------------------------------------------------------

  /** The characters `str.strip()` removes (Python's `str.isspace`). */
  predicate IsSpace(c: char) {
    var n := c as int;
    (9 <= n <= 13) || (28 <= n <= 32) || n == 0x85 || n == 0xA0 || n == 0x1680
    || (0x2000 <= n <= 0x200A) || n == 0x2028 || n == 0x2029 || n == 0x202F
    || n == 0x205F || n == 0x3000
  }

  predicate AllSpace(s: string) {
    forall k :: 0 <= k < |s| ==> IsSpace(s[k])
  }

  /** Number of leading whitespace characters. */
  function LeadingSpace(s: string): (i: nat)
    ensures i <= |s|
    ensures AllSpace(s[..i])
    ensures i < |s| ==> !IsSpace(s[i])
  {
    if |s| == 0 || !IsSpace(s[0]) then 0 else 1 + LeadingSpace(s[1..])
  }

  /** Position where the trailing whitespace run begins. */
  function TrailingSpaceStart(s: string): (j: nat)
    ensures j <= |s|
    ensures AllSpace(s[j..])
    ensures j > 0 ==> !IsSpace(s[j - 1])
  {
    if |s| == 0 || !IsSpace(s[|s| - 1]) then |s| else TrailingSpaceStart(s[..|s| - 1])
  }

  /** `s.strip()`: the longest infix with no whitespace at either end, whose
      surroundings are entirely whitespace. */
  function Strip(s: string): (r: string)
    ensures |r| <= |s|
    ensures |r| > 0 ==> !IsSpace(r[0]) && !IsSpace(r[|r| - 1])
    ensures exists i | 0 <= i <= |s| - |r| :: r == s[i..i + |r|] && AllSpace(s[..i]) && AllSpace(s[i + |r|..])
  {
    var i := LeadingSpace(s);
    var t := s[i..];
    var j := TrailingSpaceStart(t);
    assert t[..j] == s[i..i + j];
    assert s[i + j..] == t[j..];
    assert j > 0 ==> t[..j][0] == s[i];
    t[..j]
  }

  /** A string strips to nothing exactly when it is all whitespace. */
  lemma StripEmptyIff(s: string)
    ensures Strip(s) == "" <==> AllSpace(s)
  {
    var i := LeadingSpace(s);
    if Strip(s) == "" {
      var k :| 0 <= k <= |s| && "" == s[k..k] && AllSpace(s[..k]) && AllSpace(s[k..]);
      assert s == s[..k] + s[k..];
    }
  }

  /** Stripping twice is stripping once. */
  lemma StripIdempotent(s: string)
    ensures Strip(Strip(s)) == Strip(s)
  {
    var r := Strip(s);
    assert LeadingSpace(r) == 0;
    assert TrailingSpaceStart(r[0..]) == |r| by {
      assert r[0..] == r;
    }
    assert r[0..][..|r|] == r;
  }

  // ---------------------------------------------------------------------------
  // split(sep) and sep.join(parts)
  // ---------------------------------------------------------------------------

  /** `sep.join(parts)` */
  function Join(parts: seq<string>, sep: char): string {
    if |parts| == 0 then ""
    else if |parts| == 1 then parts[0]
    else parts[0] + [sep] + Join(parts[1..], sep)
  }

  /** `s.split(sep)` for a one-character separator: at least one part, no part
      contains the separator, and joining the parts gives back `s`. */
  function Split(s: string, sep: char): (parts: seq<string>)
    ensures |parts| >= 1
    ensures forall k :: 0 <= k < |parts| ==> sep !in parts[k]
    ensures Join(parts, sep) == s
  {
    if |s| == 0 then [""]
    else
      var rest := Split(s[1..], sep);
      if s[0] == sep then
        assert Join([""] + rest, sep) == [sep] + Join(rest, sep) by {
          assert ([""] + rest)[1..] == rest;
        }
        assert s == [s[0]] + s[1..];
        [""] + rest
      else
        var parts := [[s[0]] + rest[0]] + rest[1..];
        JoinConsChar(s[0], rest, sep);
        assert s == [s[0]] + s[1..];
        parts
  }

  lemma JoinConsChar(c: char, parts: seq<string>, sep: char)
    requires |parts| >= 1
    ensures Join([[c] + parts[0]] + parts[1..], sep) == [c] + Join(parts, sep)
  {
    var q := [[c] + parts[0]] + parts[1..];
    if |parts| > 1 {
      assert q[1..] == parts[1..];
    }
  }

  /** `split` undoes `join` for separator-free parts: together with `Split`'s own
      contract, the two are inverse bijections. */
  lemma {:induction false} SplitJoin(parts: seq<string>, sep: char)
    requires |parts| >= 1
    requires forall k :: 0 <= k < |parts| ==> sep !in parts[k]
    ensures Split(Join(parts, sep), sep) == parts
    decreases |Join(parts, sep)|, |parts|
  {
    var s := Join(parts, sep);
    if |parts[0]| > 0 {
      var c := parts[0][0];
      var tail := [parts[0][1..]] + parts[1..];
      assert parts[0] == [c] + parts[0][1..];
      assert parts == [[c] + tail[0]] + tail[1..];
      JoinConsChar(c, tail, sep);
      assert s == [c] + Join(tail, sep);
      assert forall k :: 0 <= k < |tail| ==> sep !in tail[k] by {
        forall k | 0 <= k < |tail|
          ensures sep !in tail[k]
        {
          if k == 0 {
            assert parts[0] == [c] + tail[0];
          } else {
            assert tail[k] == parts[k];
          }
        }
      }
      SplitJoin(tail, sep);
      assert s[1..] == Join(tail, sep);
      assert c != sep;
    } else if |parts| > 1 {
      assert s == [sep] + Join(parts[1..], sep);
      assert s[1..] == Join(parts[1..], sep);
      SplitJoin(parts[1..], sep);
      assert parts == [""] + parts[1..];
    }
  }

  /** Text before the first `sep` (`s.split(sep)[0]`). */
  function Before(s: string, sep: char): (r: string)
    ensures sep !in r
    ensures r == s || (|r| < |s| && s[..|r| + 1] == r + [sep])
  {
    if |s| == 0 then ""
    else if s[0] == sep then ""
    else [s[0]] + Before(s[1..], sep)
  }

  /** `Before` is the first part of `Split`. */
  lemma {:induction false} BeforeIsFirstPart(s: string, sep: char)
    ensures Split(s, sep)[0] == Before(s, sep)
    decreases |s|
  {
    if |s| > 0 && s[0] != sep {
      BeforeIsFirstPart(s[1..], sep);
    }
  }

  /** `s.replace(a, b)` for single characters. */
  function ReplaceChar(s: string, a: char, b: char): (r: string)
    ensures |r| == |s|
    ensures forall i :: 0 <= i < |s| ==> r[i] == (if s[i] == a then b else s[i])
  {
    seq(|s|, i requires 0 <= i < |s| => if s[i] == a then b else s[i])
  }

  // ---------------------------------------------------------------------------
  // Decimal rendering of naturals
  // ---------------------------------------------------------------------------

  predicate IsDigit(c: char) {
    '0' <= c <= '9'
  }

  predicate AllDigits(s: string) {
    forall k :: 0 <= k < |s| ==> IsDigit(s[k])
  }

  function DigitChar(d: nat): char
    requires d < 10
  {
    ('0' as int + d) as char
  }

  function DigitValue(c: char): nat
    requires IsDigit(c)
  {
    c as int - '0' as int
  }

  /** The number a string of decimal digits denotes (`int(s)` for ASCII digits). */
  function DecimalValue(s: string): nat
    requires AllDigits(s)
  {
    if |s| == 0 then 0 else DecimalValue(s[..|s| - 1]) * 10 + DigitValue(s[|s| - 1])
  }

  /** `str(n)`: one or more digits, no leading zero except for 0 itself. */
  function NatToString(n: nat): (s: string)
    ensures |s| >= 1 && AllDigits(s)
    ensures s[0] == '0' ==> n == 0
  {
    if n < 10 then [DigitChar(n)] else NatToString(n / 10) + [DigitChar(n % 10)]
  }

  /** Reading back what `NatToString` rendered gives the number. */
  lemma {:induction false} NatToStringRoundTrip(n: nat)
    ensures DecimalValue(NatToString(n)) == n
  {
    if n >= 10 {
      var s := NatToString(n);
      assert s[..|s| - 1] == NatToString(n / 10);
      NatToStringRoundTrip(n / 10);
    }
  }

  /** `NatToString` is injective. */
  lemma NatToStringInjective(m: nat, n: nat)
    requires NatToString(m) == NatToString(n)
    ensures m == n
  {
    NatToStringRoundTrip(m);
    NatToStringRoundTrip(n);
  }

  function Pow10(w: nat): (p: nat)
    ensures p >= 1
  {
    if w == 0 then 1 else 10 * Pow10(w - 1)
  }

  /** A number below `10^w` renders in at most `w` digits. */
  lemma {:induction false} NatToStringWidth(n: nat, w: nat)
    requires w >= 1 && n < Pow10(w)
    ensures |NatToString(n)| <= w
  {
    if n >= 10 {
      NatToStringWidth(n / 10, w - 1);
    }
  }

  function Zeros(k: nat): (z: string)
    ensures |z| == k && AllDigits(z)
  {
    if k == 0 then "" else "0" + Zeros(k - 1)
  }

  /** Left-pads with `'0'` to at least `width` characters (the `0` flag of a format spec). */
  function ZeroPad(s: string, width: nat): (r: string)
    ensures |r| == if |s| >= width then |s| else width
    ensures r[|r| - |s|..] == s
  {
    if |s| >= width then s else Zeros(width - |s|) + s
  }

  /** Leading zeros do not change the value. */
  lemma {:induction false} ZerosPrefixValue(k: nat, s: string)
    requires AllDigits(s)
    ensures AllDigits(Zeros(k) + s)
    ensures DecimalValue(Zeros(k) + s) == DecimalValue(s)
    decreases |s|
  {
    var t := Zeros(k) + s;
    if |s| == 0 {
      assert t == Zeros(k);
      ZerosValue(k);
    } else {
      assert t[..|t| - 1] == Zeros(k) + s[..|s| - 1];
      ZerosPrefixValue(k, s[..|s| - 1]);
    }
  }

  lemma {:induction false} ZerosValue(k: nat)
    ensures DecimalValue(Zeros(k)) == 0
  {
    if k > 0 {
      assert Zeros(k)[..k - 1] == Zeros(k - 1) by {
        if k > 1 {
          ZerosSnoc(k - 1);
        }
      }
      ZerosValue(k - 1);
    }
  }

  lemma {:induction false} ZerosSnoc(k: nat)
    ensures Zeros(k + 1) == Zeros(k) + "0"
  {
    if k > 0 {
      ZerosSnoc(k - 1);
    }
  }

  /** `f"{n:0{width}d}"` for a non-negative `n`. */
  function PadNumber(n: nat, width: nat): string {
    ZeroPad(NatToString(n), width)
  }

  /** Zero-padded rendering is injective: the padded digits read back as `n`. */
  lemma PadNumberRoundTrip(n: nat, width: nat)
    ensures AllDigits(PadNumber(n, width))
    ensures DecimalValue(PadNumber(n, width)) == n
  {
    var s := NatToString(n);
    NatToStringRoundTrip(n);
    if |s| < width {
      ZerosPrefixValue(width - |s|, s);
    }
  }
}

=== FILE: troubleshooting.dfy ===
/** The helpers of the troubleshooting loop (chapter-4/03_loop_agent/agent.py):
    the step knowledge base, the known-issue matcher, the analysis of a user's
    test report, the loop's exit check and the escalation ladder. */
module Troubleshooting {
  import opened Common
  import opened Text

  // ---------------------------------------------------------------------------
  // Knowledge base
  // ---------------------------------------------------------------------------

  const StepsDb: map<(string, string), seq<string>> := map[
    ("thermostat", "connectivity") := [
      "Step 1: Check if the device is powered on",
      "Step 2: Verify WiFi network is working",
      "Step 3: Move device closer to router",
      "Step 4: Reset network settings on device",
      "Step 5: Factory reset and re-pair"],
    ("thermostat", "display") := [
      "Step 1: Check if display brightness is turned up",
      "Step 2: Power cycle the device",
      "Step 3: Check for firmware updates",
      "Step 4: Inspect for physical damage",
      "Step 5: Replace the unit"],
    ("thermostat", "temperature") := [
      "Step 1: Verify location away from heat sources",
      "Step 2: Calibrate temperature sensor in settings",
      "Step 3: Check HVAC filter",
      "Step 4: Run system diagnostic",
      "Step 5: Schedule technician visit"]]

  const GenericSteps: seq<string> := [
    "Step 1: Power cycle the device",
    "Step 2: Check all connections",
    "Step 3: Update firmware",
    "Step 4: Factory reset",
    "Step 5: Contact support"]

  datatype StepsReply = StepsReply(productType: string, issueCategory: string, steps: seq<string>)

  /** `lookup_troubleshooting_steps`: the pair is looked up lower-cased; an unknown
      pair gets the generic five steps. The reply echoes the arguments as given. */
  function LookupTroubleshootingSteps(productType: string, issueCategory: string): (r: StepsReply)
    ensures r.productType == productType && r.issueCategory == issueCategory
    ensures (Lower(productType), Lower(issueCategory)) in StepsDb ==> r.steps == StepsDb[(Lower(productType), Lower(issueCategory))]
    ensures (Lower(productType), Lower(issueCategory)) !in StepsDb ==> r.steps == GenericSteps
    ensures |r.steps| == 5
  {
    var key := (Lower(productType), Lower(issueCategory));
    StepsDbHasFiveSteps(key);
    StepsReply(productType, issueCategory, if key in StepsDb then StepsDb[key] else GenericSteps)
  }

  lemma StepsDbHasFiveSteps(key: (string, string))
    ensures key in StepsDb ==> |StepsDb[key]| == 5
  {
  }

  /** The lookup does not depend on letter case. */
  lemma LookupIgnoresCase(p1: string, c1: string, p2: string, c2: string)
    requires Lower(p1) == Lower(p2) && Lower(c1) == Lower(c2)
    ensures LookupTroubleshootingSteps(p1, c1).steps == LookupTroubleshootingSteps(p2, c2).steps
  {
  }

  // ---------------------------------------------------------------------------
  // Known issues
  // ---------------------------------------------------------------------------

  datatype KnownIssue = KnownIssue(product: string, issue: string, symptoms: seq<string>, resolution: string)

  const KnownIssues: seq<KnownIssue> := [
    KnownIssue("Smart Thermostat Pro", "WiFi disconnects after firmware 2.3.1",
               ["connectivity", "disconnection", "wifi"],
               "Downgrade to firmware 2.3.0 or wait for 2.3.2 patch"),
    KnownIssue("Smart Thermostat Pro", "Display flicker in cold temperatures",
               ["display", "flicker", "cold"],
               "Move device away from exterior walls; firmware fix pending")]

  /** A known issue applies when one of its symptom words occurs in the lower-cased
      description. */
  predicate Applies(issue: KnownIssue, symptoms: string) {
    ContainsAny(Lower(symptoms), issue.symptoms)
  }

  /** The issues among `issues` that apply, in their original order. */
  function MatchingIssues(issues: seq<KnownIssue>, symptoms: string): (r: seq<KnownIssue>)
    ensures |r| == Count(issues, (i: KnownIssue) => Applies(i, symptoms))
    ensures forall x :: x in r <==> x in issues && Applies(x, symptoms)
  {
    if |issues| == 0 then []
    else
      var rest := MatchingIssues(issues[..|issues| - 1], symptoms);
      var last := issues[|issues| - 1];
      assert issues == issues[..|issues| - 1] + [last];
      if Applies(last, symptoms) then rest + [last] else rest
  }

  datatype KnownIssuesReply = KnownIssuesReply(querySymptoms: string, found: nat, issues: seq<KnownIssue>)

  /** `check_known_issues`: the product type is not consulted. */
  function CheckKnownIssues(productType: string, symptoms: string): (r: KnownIssuesReply)
    ensures r.querySymptoms == symptoms && r.found == |r.issues| <= |KnownIssues|
    ensures forall x :: x in r.issues <==> x in KnownIssues && Applies(x, symptoms)
    ensures |r.issues| == 2 ==> r.issues == KnownIssues
  {
    var matches := MatchingIssues(KnownIssues, symptoms);
    if |matches| == 2 then
      assert matches[0] in KnownIssues && matches[1] in KnownIssues;
      assert KnownIssues[..1] == [KnownIssues[0]];
      assert matches == KnownIssues by {
        MatchingIssuesOrder(symptoms);
      }
      KnownIssuesReply(symptoms, |matches|, matches)
    else
      KnownIssuesReply(symptoms, |matches|, matches)
  }

  lemma MatchingIssuesOrder(symptoms: string)
    ensures |MatchingIssues(KnownIssues, symptoms)| == 2 ==> MatchingIssues(KnownIssues, symptoms) == KnownIssues
  {
    var issues := KnownIssues;
    assert issues[..1][..0] == [];
    assert issues[..2] == issues;
    var first := MatchingIssues(issues[..1], symptoms);
    assert |first| <= 1;
  }

  /** Two descriptions that differ only in letter case match the same issues. */
  lemma KnownIssuesIgnoreCase(productType: string, s1: string, s2: string)
    requires Lower(s1) == Lower(s2)
    ensures CheckKnownIssues(productType, s1).issues == CheckKnownIssues(productType, s2).issues
  {
    assert forall x :: Applies(x, s1) == Applies(x, s2);
    MatchingIssuesSameWhenApplyAgree(KnownIssues, s1, s2);
  }

  lemma {:induction false} MatchingIssuesSameWhenApplyAgree(issues: seq<KnownIssue>, s1: string, s2: string)
    requires forall x :: Applies(x, s1) == Applies(x, s2)
    ensures MatchingIssues(issues, s1) == MatchingIssues(issues, s2)
  {
    if |issues| > 0 {
      MatchingIssuesSameWhenApplyAgree(issues[..|issues| - 1], s1, s2);
    }
  }

  // ---------------------------------------------------------------------------
  // Test-result analysis
  // ---------------------------------------------------------------------------

  datatype Analysis = Analysis(
    resolved: bool, partialSuccess: bool, needsEscalation: bool, shouldContinue: bool, recommendation: string)

  const DefaultResult: string := "unknown"

  /** `analyze_test_results`: the feedback's `result` (default "unknown") sets the
      flags and the recommendation; an unrecognised result leaves it empty. */
  function AnalyzeTestResults(result: Option<string>): (a: Analysis)
    ensures a.resolved <==> result == Some("resolved")
    ensures a.partialSuccess <==> result == Some("partial")
    ensures a.needsEscalation <==> result == Some("need_help")
    ensures a.shouldContinue <==> result == Some("still_broken") || result == Some("partial")
    ensures a.recommendation == "" <==>
      result.None? || result.value !in ["resolved", "partial", "still_broken", "need_help"]
    ensures !(a.resolved && a.partialSuccess) && !(a.resolved && a.needsEscalation) && !(a.partialSuccess && a.needsEscalation)
    ensures a.resolved ==> !a.shouldContinue
    ensures a.needsEscalation ==> !a.shouldContinue
  {
    var r := result.GetOr(DefaultResult);
    Analysis(
      r == "resolved", r == "partial", r == "need_help", r in ["still_broken", "partial"],
      if r == "resolved" then "Issue resolved. Close the support case."
      else if r == "partial" then "Partial success. Try a more advanced solution."
      else if r == "still_broken" then "Solution didn't work. Escalate to next step."
      else if r == "need_help" then "User needs assistance. Provide clearer instructions."
      else "")
  }

  // ---------------------------------------------------------------------------
  // Loop exit
  // ---------------------------------------------------------------------------

  const ResolvedKeywords: seq<string> := ["resolved", "fixed", "working", "success"]

  datatype ResolutionStatus = Resolved | Ongoing

  /** `check_resolution`: sets the loop's `escalate` action when the status text
      reports success, and otherwise leaves it as it was. */
  function CheckResolution(solutionStatus: string, escalate: bool): (r: (bool, ResolutionStatus))
    ensures r.1 == Resolved <==> ContainsAny(Lower(solutionStatus), ResolvedKeywords)
    ensures r.1 == Resolved ==> r.0
    ensures r.1 == Ongoing ==> r.0 == escalate
  {
    if ContainsAny(Lower(solutionStatus), ResolvedKeywords) then (true, Resolved) else (escalate, Ongoing)
  }

  /** Checking one run of statuses and then another leaves the same flag as checking
      them as a single run: the loop's iterations compose. */
  lemma {:induction false} EscalateAfterConcat(first: seq<string>, second: seq<string>, escalate: bool)
    ensures EscalateAfter(first + second, escalate) == EscalateAfter(second, EscalateAfter(first, escalate))
    decreases |first|
  {
    if |first| > 0 {
      assert (first + second)[0] == first[0];
      assert (first + second)[1..] == first[1..] + second;
      EscalateAfterConcat(first[1..], second, CheckResolution(first[0], escalate).0);
    } else {
      assert first + second == second;
    }
  }

  /** The `escalate` flag after checking each status in turn. */
  function EscalateAfter(statuses: seq<string>, escalate: bool): (e: bool)
    ensures escalate ==> e
    ensures e <==> escalate || exists k :: 0 <= k < |statuses| && ContainsAny(Lower(statuses[k]), ResolvedKeywords)
    decreases |statuses|
  {
    if |statuses| == 0 then escalate
    else
      var rest := EscalateAfter(statuses[1..], CheckResolution(statuses[0], escalate).0);
      assert forall k :: 0 < k < |statuses| ==> statuses[1..][k - 1] == statuses[k];
      assert forall k :: 0 <= k < |statuses| - 1 ==> statuses[1..][k] == statuses[k + 1];
      rest
  }

  // ---------------------------------------------------------------------------
  // Escalation ladder
  // ---------------------------------------------------------------------------

  datatype LevelInfo = LevelInfo(name: string, description: string)

  const Levels: map<int, LevelInfo> := map[
    1 := LevelInfo("Basic", "Simple restarts and checks"),
    2 := LevelInfo("Intermediate", "Settings and configuration adjustments"),
    3 := LevelInfo("Advanced", "System diagnostics and resets"),
    4 := LevelInfo("Expert", "Hardware checks and replacements"),
    5 := LevelInfo("Escalation", "Technician visit or replacement unit")]

  const MaxLevel: int := 5

  datatype NextLevel = NextLevel(currentLevel: int, nextLevel: int, levelInfo: LevelInfo, maxLevelReached: bool)

  /** `get_next_troubleshooting_level`: one level up, never past 5; a level outside
      the ladder (below 1) is described as the last level. */
  function GetNextTroubleshootingLevel(currentLevel: int, issueType: string): (r: NextLevel)
    ensures r.currentLevel == currentLevel
    ensures r.nextLevel <= MaxLevel
    ensures currentLevel < MaxLevel ==> r.nextLevel == currentLevel + 1
    ensures currentLevel >= MaxLevel ==> r.nextLevel == MaxLevel
    ensures r.maxLevelReached <==> r.nextLevel == MaxLevel
    ensures 1 <= r.nextLevel ==> r.levelInfo == Levels[r.nextLevel]
    ensures r.nextLevel < 1 ==> r.levelInfo == Levels[MaxLevel]
  {
    var next := if currentLevel + 1 <= MaxLevel then currentLevel + 1 else MaxLevel;
    NextLevel(currentLevel, next, if next in Levels then Levels[next] else Levels[MaxLevel], next >= MaxLevel)
  }

  /** Climbing from any level reaches the top within `5 - level` steps and stays. */
  lemma {:induction false} LadderReachesTop(level: int, steps: nat)
    requires steps > 0 && steps >= MaxLevel - level
    ensures Climb(level, steps) == MaxLevel
    decreases steps
  {
    if steps > 1 {
      LadderReachesTop(GetNextTroubleshootingLevel(level, "").nextLevel, steps - 1);
    }
  }

  /** The level after `steps` successive calls. */
  function Climb(level: int, steps: nat): (l: int)
    ensures steps > 0 ==> l <= MaxLevel
    decreases steps
  {
    if steps == 0 then level else Climb(GetNextTroubleshootingLevel(level, "").nextLevel, steps - 1)
  }
}
